=== FILE: README.md ===
# ytplay in Dafny

A model of ytplay, a prompt-driven music player, with proofs about the model.
The user types a prompt. A language model turns it into search queries. The
daemon searches YouTube Music, keeps the tracks that are not disliked and that
`yt-dlp` can stream, and hands their URLs to mpv. The model covers these parts:

- **The daemon** `src/ytplayd.py`:
  - the `.env` loader, the votes table and the prompt cache;
  - the track picker;
  - the selection of playable tracks, and the mpv commands;
  - the history row, and the `/play`, `/vote`, `/pause`, `/next` and `/stop` routes.
- **The command-line client** `src/ytplay.py`: where credentials are looked
  for, the argument loop, and which request a run sends.
- **The generation status service** `status_service.py`.
- **The database browser**: `db_service.py` and `db_routes.py`.
  - SQLite's side is modelled: identifier quoting, `LIKE 'sqlite_%'`, the
    order on mixed values, `ORDER BY … DESC`, `LIMIT` and `OFFSET`.
- **The web page's logic**:
  - the display helpers;
  - the queue, database, loading and search panels;
  - the control requests, state refresh and play parameters of `web/app.js`.
  - `app.js` carries its own copies of most component functions. Each
    component function is modelled once, and its `app.js` copy is cited next
    to it below.

Every module holds pure functions over immutable datatypes. The outside world
is always a parameter:

- the curator, the search and the stream resolver;
- the clock, the file system and the environment;
- UTF-8 decoding and percent-decoding.

A timer or an asynchronous reply on the page is an event. It is a function
from the page state, applied when the event happens.

Modules, one per source file or concern:

- `Wrappers`, `Text`, `JsValue`, `Sorting`, `QueryString`: shared helpers.
- `EnvFile`, `PromptCache`, `TrackPicker`, `Daemon`: the daemon.
- `Cli`: the client.
- `StatusService`, `DbService`, `DbRoutes`: the backend services.
- `Format`, `QueuePanel`, `DatabasePanel`, `LoadingOverlay`, `SearchPanel`,
  `AppShell`: the page.

## Model

| member | source | states |
|---|---|---|
| EnvFile.ParseLine | src/ytplayd.py:20-26 | a line is skipped exactly when it is blank, a `#` comment or has no `=`; otherwise it is split at its first `=`, so the key holds no `=`, and the key has no surrounding whitespace; the same in src/ytplay.py:15-21 |
| EnvFile.FormatParse | src/ytplayd.py:20-28 | a line `k=v` written for a plain key and value is read back as the binding (k, v) |
| EnvFile.ParseAll | src/ytplayd.py:20-26 | each line of the file gives its parse, in order; blank, `#` and `=`-less lines give nothing |
| EnvFile.Apply | src/ytplayd.py:28 | `setdefault` per binding: when loading succeeds, a key already in the environment keeps its value and no key appears unless some binding names it; a file whose every binding `putenv` accepts always loads |
| EnvFile.ApplyFailsExactly | src/ytplayd.py:24-28 | loading fails exactly when some key not yet set is first bound to something `putenv` refuses: an empty name, or a NUL in the name or the value |
| EnvFile.RefusedLineStops | src/ytplayd.py:28 | a first line whose binding `putenv` refuses stops the loading, whatever lines follow |
| EnvFile.EmptyKeyRefused | src/ytplayd.py:20-28 | the line `=v` binds the empty name, which `putenv` refuses |
| EnvFile.FirstDefinitionWins | src/ytplayd.py:24-28 | when loading succeeds, a key absent from the environment ends with the value of its first definition in the file; later ones are ignored |
| EnvFile.DaemonLoadEnvFile | src/ytplayd.py:15-19 | an empty or missing path leaves the environment unchanged; otherwise the file's lines are loaded, with no `~` expansion |
| EnvFile.ExpandUser | src/ytplay.py:4-5 | every path but `~` and `~/…` is returned unchanged; those two never expand to the empty path and end with the rest of the path; with a home not ending in `/`, `~` is the home and `~/x` is the home followed by `/x`; with home `/`, `~/x` becomes `/x` |
| EnvFile.CliLoadEnvFile | src/ytplay.py:7-23 | an empty path does nothing; `~` is expanded before the existence check, so the expanded file is the one loaded |
| Cli.AuthPath | src/ytplay.py:37-43 | a set, non-empty `YTP_YTMUSIC_AUTH` wins, with `~` expanded; else the repository's file when it exists; else `headers_auth.json` under the state directory |
| Cli.AuthPathPrecedence | src/ytplay.py:37-43 | a set, non-empty variable decides alone, whatever the repository file and the state directory; otherwise an existing repository file wins whatever the state directory |
| Cli.FilterParams | src/ytplay.py:52-53 | exactly the parameters whose value is not None are sent, with their values |
| Cli.ParseFlags | src/ytplay.py:137-158 | the prompt words keep the earlier ones in front and grow by at most the number of arguments |
| Cli.ParsedWordsPlain | src/ytplay.py:140-158 | no word the loop adds to the prompt is an option |
| Cli.PlainWordsParse | src/ytplay.py:140-158 | with no option among the arguments, all of them become prompt words and no option changes |
| Cli.ParseFlagsAppend | src/ytplay.py:140-158 | parsing two runs of arguments in a row is parsing the first, then the second from where the first left off |
| Cli.RepeatedFlagLastWins | src/ytplay.py:140-157 | a repeated option keeps its last value, whatever lies between the two |
| Cli.FlagTakesNextArgument | src/ytplay.py:142-157 | an option consumes exactly the argument after it, even one that looks like an option |
| Cli.RunMain | src/ytplay.py:100-205 | no arguments give the usage and status 1; status 2 exactly when the daemon is unreachable, and then nothing is sent; a run sends at most one request |
| Cli.ControlFlags | src/ytplay.py:126-129 | `--next`, `--pause` and `--stop` send one request to `/next`, `/pause` or `/stop`, whatever follows, with status 0 |
| Cli.PlayRequest | src/ytplay.py:160-182 | a `/play` request goes out only when the daemon is up, and its first parameter is `q`, the stripped, non-empty prompt; without a request the status is 1 or 2 |
| Cli.PlayParamsHasFlag | src/ytplay.py:169-182 | every option is listed among the `/play` parameters under its name without the dashes, with its value |
| Cli.NoFlagsSendPromptOnly | src/ytplay.py:52-53 | without options, the prompt is the only `/play` parameter left after the None values are dropped |
| Cli.PlainPromptRequest | src/ytplay.py:140-182 | arguments with no option and not all blank, the daemon up: status 0 and one `/play` request whose only parameter `q` is the arguments joined by single spaces and stripped |
| Cli.FlagSent | src/ytplay.py:140-182 | an option and its value before plain prompt words: one `/play` request, `q` first with the stripped words, and the value sent under the option's name |
| Cli.PlayWithoutPrompt | src/ytplay.py:130-134 | `--play` alone ends with status 1 and sends nothing, even with the daemon down |
| Cli.BlankPromptStatus | src/ytplay.py:160-163 | blank prompt words end with status 1 and send nothing |
| Cli.DaemonDownStatus | src/ytplay.py:165-167 | with the daemon down, a run that would send `/play` ends with status 2 and sends nothing |
| Daemon.RecordVote | src/ytplayd.py:327-334 | `INSERT OR REPLACE`: the voted video's row is the new one, and every other row is untouched |
| Daemon.GetVotes | src/ytplayd.py:90-94 | each video id in the table maps to its vote, and no other id is present |
| Daemon.LastVoteWins | src/ytplayd.py:327-334 | voting twice on a video keeps only the second vote; other videos keep theirs |
| Daemon.LoadAndPlay | src/ytplayd.py:266-272 | one `loadfile` command per URL, and none for no URLs |
| Daemon.Appends | src/ytplayd.py:271-272 | each later URL is appended with `append-play`, in order |
| Daemon.LoadAndPlaySetsPlaylist | src/ytplayd.py:266-272 | whatever mpv was playing, its playlist afterwards is exactly the URLs, in order |
| Daemon.Resolve | src/ytplayd.py:222-231 | None exactly when `yt-dlp` failed or printed an empty URL; otherwise the URL it printed |
| Daemon.Playable | src/ytplayd.py:305-311 | every kept track resolves to the URL kept with it |
| Daemon.SelectIsCappedPlayable | src/ytplayd.py:305-313 | with room left under the cap, the loop returns the first `max_tracks` playable tracks |
| Daemon.SelectNonPositiveCap | src/ytplayd.py:312-313 | with a cap of zero or less, only the first track is tried, because the check comes after it |
| Daemon.PlayableInOrder | src/ytplayd.py:305-311 | the playable tracks are the tracks in order, with some left out |
| Daemon.PlayableComplete | src/ytplayd.py:307-311 | every track that resolves is among the playable ones |
| Daemon.SelectBounds | src/ytplayd.py:305-313 | the selection is no longer than the tracks, at most `max_tracks` for a cap of at least one, and every pick resolves |
| Daemon.HistoryRows | src/ytplayd.py:317-322 | one history row per played track |
| Daemon.HandlePlay | src/ytplayd.py:289-325 | the tracks come from the cache or from `pick_tracks` as written; votes are untouched; the reply lists at most 20 tracks, all resolvable, and at most `max_tracks` of them for a cap of at least one; exactly one history row is added, for the first track and stamped with the clock read after playback starts, when anything plays; the earlier mpv commands are kept and one is added per track; the key is cached afterwards |
| Daemon.HandlePlayLoads | src/ytplayd.py:305-315 | the mpv command added for the i-th track of the reply loads the URL `yt-dlp` gave for it, replacing the playlist for the first track and appending for the others |
| Daemon.HandlePlayPlaylist | src/ytplayd.py:305-315 | for a cap of at least one, mpv afterwards plays exactly the URLs of the first `max_tracks` playable tracks, whatever it played before, and is left alone when none is playable |
| Daemon.HandlePlayCacheEntry | src/ytplayd.py:295-303 | on a hit the entry gets one more use and the lookup's time as its last use; on a miss it holds the curator's reply and the fresh picks, both stamps taken when `cache_put` reads the clock |
| Daemon.ChosenTracks | src/ytplayd.py:294-303 | on a fresh cache hit the tracks stored under the key; on a miss fresh picks with no video id twice and no disliked track |
| Daemon.SelectPlayable | src/ytplayd.py:305-313 | the tracks collected so far are kept in front, at most one pick per track is added, and every added pick carries the URL its track resolves to |
| Daemon.HandlePlayQueue | src/ytplayd.py:305-325 | the count is the number of playable tracks capped at `max_tracks`; the queue is their first 20, in the order of `pick_tracks` as written or of the cache |
| Daemon.ChosenTracksOnMiss | src/ytplayd.py:294-298 | on a cache miss the picks repeat no video id and hold no disliked track; for `n` above one they are exactly the corrected picker's |
| Daemon.HandlePlayReplaysCache | src/ytplayd.py:294-303 | a second identical request within the time-to-live of the first one's cache write chooses the same tracks, whatever the curator and the search would now say |
| Daemon.PlayExtras | src/ytplayd.py:357-364 | the extras exist exactly when `n` and `ttl` are absent or read by `int()`; absent ones take the start-up settings |
| Daemon.PlayExtrasDefaults | src/ytplayd.py:357-364 | without `n` and `ttl` the start-up settings read from the environment apply; `avoid` is split at commas, and is empty when absent |
| Daemon.ReadConfig | src/ytplayd.py:36-37 | the settings are `int()` of `YTP_MAX_TRACKS` and `YTP_CACHE_TTL_HOURS`, read with the fallbacks "25" and "72"; none when either does not parse, and the daemon does not start |
| Daemon.DefaultConfig | src/ytplayd.py:36-37 | an environment that sets neither variable gives 25 tracks and 72 hours |
| Daemon.PlayRoute | src/ytplayd.py:353-366 | 400 exactly for a missing or blank `q`; 500 exactly for a non-integer `n` or `ttl`; 200 otherwise; refusals change nothing and `/play` never changes votes |
| Daemon.VoteRoute | src/ytplayd.py:380-387 | 200 exactly when `id` is given and `v` is 1 or -1, and then that vote is recorded; 500 for a non-integer `v`, even without an id; only the votes table ever changes |
| Daemon.ControlRoutes | src/ytplayd.py:368-389 | `/pause`, `/next` and `/stop` each send one mpv command; an unknown path is a 404 that changes nothing |
| PromptCache.CacheGet | src/ytplayd.py:96-112 | a miss for an absent or expired key leaves the table alone; a hit returns the stored payload, adds one use, stamps the use time with now and keeps the creation time |
| PromptCache.CachePut | src/ytplayd.py:114-121 | the stored payload is the new one, both time stamps are now, uses is one more than before (1 for a new key), and other keys are untouched |
| PromptCache.PutThenGet | src/ytplayd.py:96-121 | what is put is served back to any lookup within the time-to-live |
| PromptCache.PutThenExpire | src/ytplayd.py:104-106 | a lookup after the time-to-live misses |
| PromptCache.HitsCountUses | src/ytplayd.py:107-112 | every lookup of a fresh entry is a hit that counts one use; payload and creation time stay as put, so hits never extend the life of an entry |
| PromptCache.RefreshAfterExpiry | src/ytplayd.py:114-121 | a put over an expired entry keeps counting uses, and the entry is fresh again |
| QueryString.Param | src/ytplayd.py:358-360 | the parameter's first value, present exactly when the query holds at least one value for the name |
| QueryString.RepeatedParamFirstWins | src/ytplayd.py:358-360 | a parameter given more than once is read from its first occurrence, and other parameters read as before |
| QueryString.IntParam | src/ytplayd.py:361-362 | the default when the parameter is absent; otherwise its value as `int()` reads it (sign, digit groups with single underscores, surrounding whitespace), or None when `int()` would raise |
| Text.UnderscoresBetweenDigits | src/ytplayd.py:361-362 | `int()` reads "1_0" as 10 |
| Text.SignedUnderscores | src/ytplayd.py:361-362 | `int()` reads "-2_5" as -25 |
| Text.MisplacedUnderscores | src/ytplayd.py:361-362 | `int()` refuses an underscore at either end of the digits or two in a row |
| Text.ParseIntToString | src/ytplayd.py:361-362 | every integer's decimal text is read back as that integer |
| TrackPicker.ToTrack | src/ytplayd.py:193-197 | "Unknown" stands in for a missing title or artist list; the artist is the first one; the id is kept |
| TrackPicker.Window | src/ytplayd.py:201-206 | at most eight candidates per query |
| TrackPicker.WindowAppend | src/ytplayd.py:201-206 | the candidates of two lists of queries are those of the first list followed by those of the second |
| TrackPicker.WindowSingle | src/ytplayd.py:206 | one query contributes exactly its first eight results |
| TrackPicker.FirstEligible | src/ytplayd.py:190-192 | the index of the first result with an id that is not disliked, and None when there is none |
| TrackPicker.SeedPart | src/ytplayd.py:184-199 | at most one track, and none without a seed or when the seed is empty |
| TrackPicker.SeedPartIsFirstEligible | src/ytplayd.py:190-199 | the seed track is the first of the first five seed results that has an id and is not disliked |
| TrackPicker.PickTracksAsWrittenOvershoots | src/ytplayd.py:201-220 | the picker as written returns 2 tracks for `max_tracks = 1` once a seed track is taken, and 1 track for `max_tracks = 0` |
| TrackPicker.PickTracks | src/ytplayd.py:178-220 | the corrected picker never returns more than `max_tracks` tracks for a non-negative cap |
| TrackPicker.Greedy | src/ytplayd.py:206-217 | without a cap, every kept track has an id that was not seen before and is not disliked, and no id is repeated |
| TrackPicker.GreedyComplete | src/ytplayd.py:206-217 | every eligible candidate's id appears in the uncapped result |
| TrackPicker.GreedyInOrder | src/ytplayd.py:206-217 | the uncapped result lists the candidates' tracks in candidate order |
| TrackPicker.ScanAsWritten | src/ytplayd.py:201-220 | the output so far is kept in front; with room left at the start, at most `max_tracks` come back, and with the output already at the cap, at most one more; never more than the output plus the candidates |
| TrackPicker.PickTracksAsWritten | src/ytplayd.py:178-220 | for a cap of at least one, the seed part comes first and at most `max_tracks + 1` tracks come back; never more than the seed part plus the candidates |
| TrackPicker.ScanIsCappedGreedy | src/ytplayd.py:201-220 | the capped loop returns the uncapped result cut at the room left |
| TrackPicker.PickTracksIsCappedGreedy | src/ytplayd.py:178-220 | for a non-negative cap, the picker returns the seed part then the query result, cut at `max_tracks` |
| TrackPicker.PickTracksDistinctAndLiked | src/ytplayd.py:192-211 | no video id comes back twice, and no track with a negative vote comes back |
| TrackPicker.PickTracksSeedFirst | src/ytplayd.py:184-199 | when a seed track is found and the cap allows a track, it comes first |
| TrackPicker.PickTracksTakesEveryEligible | src/ytplayd.py:201-219 | while the cap is not reached, every eligible query candidate is taken |
| TrackPicker.ScanAsWrittenAgrees | src/ytplayd.py:201-219 | the loop as written and the corrected one agree while the output is below the cap |
| TrackPicker.PickTracksAsWrittenAgrees | src/ytplayd.py:178-220 | the picker as written agrees with the corrected one unless the seed part alone fills the cap |
| TrackPicker.ScanAsWrittenIsGreedy | src/ytplayd.py:201-220 | the loop as written returns the uncapped result cut at the room left while below the cap; once at the cap, the output plus the first eligible candidate, or the output cut when there is none |
| TrackPicker.PickTracksAsWrittenIsPrefix | src/ytplayd.py:178-220 | the picker as written returns a prefix of the seed part followed by the uncapped query result: at most one track over a positive cap, at most two otherwise |
| TrackPicker.PickTracksAsWrittenDistinctAndLiked | src/ytplayd.py:192-211 | the picker as written repeats no video id and returns no disliked track |
| TrackPicker.PickTracksAsWrittenSeedFirst | src/ytplayd.py:184-199 | with a cap of at least one, a seed track found by the picker as written comes first |
| StatusService.StartGeneration | src/ytplayd_app/services/status_service.py:19-33 | the new id is one more than every earlier id and becomes the active one; the record is overwritten and the last error cleared |
| StatusService.UpdateGeneration | src/ytplayd_app/services/status_service.py:36-52 | a call with a stale id changes nothing; otherwise only the given fields change, and the update time always does |
| StatusService.FinishGeneration | src/ytplayd_app/services/status_service.py:55-64 | a stale id changes nothing; otherwise generation stops, the phase is cleared, an error is recorded when given, and the id stays active |
| StatusService.TakeSnapshot | src/ytplayd_app/services/status_service.py:67-80 | reports `ok` and the record's fields, and passes the queue figures through |
| StatusService.EarlierIdsGoStale | src/ytplayd_app/services/status_service.py:19-33 | after a new start, no earlier id is the active one |
| StatusService.StaleCallsAreNoOps | src/ytplayd_app/services/status_service.py:44-59 | any number of updates and finishes with a non-active id leave the service as it was |
| StatusService.StartAll | src/ytplayd_app/services/status_service.py:23-24 | the ids of a run of starts are strictly increasing |
| StatusService.Lifecycle | tests/test_status_service.py:14-29 | start, update, finish: the snapshots show generating, the updated query and phase, then not generating |
| StatusService.StaleUpdateIgnored | tests/test_status_service.py:31-37 | after a second start, an update with the first id leaves the second generation's query |
| StatusService.UpdateAfterFinish | src/ytplayd_app/services/status_service.py:55-64 | a finished generation keeps its id active, so its holder can still update the record |
| DbService.DoubleQuotes | src/ytplayd_app/services/db_service.py:14 | the result is one character longer per `"` in the name |
| DbService.QuoteIdent | src/ytplayd_app/services/db_service.py:13-14 | the quoted form starts and ends with `"` and is two characters longer than the name plus one per inner quote |
| DbService.QuoteIdentRoundTrip | src/ytplayd_app/services/db_service.py:13-14 | SQLite reads every quoted name back as exactly that name |
| DbService.QuoteIdentInjective | src/ytplayd_app/services/db_service.py:13-14 | different names never get the same quoted form |
| DbService.ValueLeTotal | src/ytplayd_app/services/db_service.py:58 | any two SQLite values are comparable |
| DbService.ValueLeTrans | src/ytplayd_app/services/db_service.py:58 | the order on SQLite values is transitive |
| DbService.Hex | src/ytplayd_app/services/db_service.py:43 | two lower-case hex digits per byte |
| DbService.UnhexHex | src/ytplayd_app/services/db_service.py:40-43 | the hex fallback loses nothing: the bytes are read back from it |
| DbService.SerializeValue | src/ytplayd_app/services/db_service.py:35-44 | exactly NULL becomes null; integers, reals and text are kept; a blob that is not UTF-8 becomes hex text from which its bytes are read back |
| DbService.Lookup | src/ytplayd_app/services/db_service.py:53-56 | a table is found exactly when SQLite knows one under that name, ignoring the case of ASCII letters, and then it is a table of such a name; a name listed exactly is always found |
| DbService.LookupIgnoresCase | src/ytplayd_app/services/db_service.py:53-56 | two names that differ only in the case of ASCII letters find the same table |
| DbService.UserTables | src/ytplayd_app/services/db_service.py:4-10 | the names that do not match `sqlite_%`, in order |
| DbService.ListTables | src/ytplayd_app/services/db_service.py:4-10 | exactly the tables whose names do not match `sqlite_%`, sorted by name |
| DbService.LikeSqliteInternalCovers | src/ytplayd_app/services/db_service.py:7 | the pattern hides `sqlite_…` in any case, and also `sqliteX…` |
| DbService.ListTablesHidesInternal | src/ytplayd_app/services/db_service.py:4-10 | an internal table is never listed, whatever the case of its prefix |
| DbService.PkColumns | src/ytplayd_app/services/db_service.py:20 | exactly the names of the primary-key columns, no more of them than there are columns |
| DbService.PkColumnsFirst | src/ytplayd_app/services/db_service.py:20-31 | the first name listed is that of the first primary-key column in table order, the one `order_by` falls back on |
| DbService.OrderBy | src/ytplayd_app/services/db_service.py:24-32 | the label and the SQL form: `created_at DESC` with the column quoted, else the same for `updated_at`, else for the first primary-key column, else `rowid DESC` unquoted |
| DbService.ChooseOrder | src/ytplayd_app/services/db_service.py:24-32 | `created_at` if present, else `updated_at`, else the first primary-key column, else `rowid` |
| DbService.OrderByForms | src/ytplayd_app/services/db_service.py:24-32 | the SQL form is the label with the column quoted, `rowid` unquoted, and the quoted column reads back as the label's column |
| DbService.ChooseOrderIsAColumn | src/ytplayd_app/services/db_service.py:24-32 | the order column is one of the table's columns, or `rowid` |
| DbService.DescendingIsTotalPreorder | src/ytplayd_app/services/db_service.py:58 | `ORDER BY … DESC` compares any two rows, transitively |
| DbService.OrderedRows | src/ytplayd_app/services/db_service.py:57-60 | the rows are a reordering of the table's, each at least as new as the next |
| DbService.Page | src/ytplayd_app/services/db_service.py:57-60 | the rows from the offset on, at most `limit` of them; a negative limit means all and a negative offset skips nothing |
| DbService.RowItem | src/ytplayd_app/services/db_service.py:63-65 | each column paired with its serialized value, in column order, stopping at the shorter of the two |
| DbService.FetchTableRows | src/ytplayd_app/services/db_service.py:47-74 | an error exactly when SQLite knows no table under the name, ignoring the case of ASCII letters, so never for a listed name; otherwise the reply built from the table found and its rows newest first |
| DbService.PagePayload | src/ytplayd_app/services/db_service.py:56-74 | the reply echoes table, limit and offset, the total is the table's row count, the columns are the table's, the order label is `order_by`'s, and the rows are the page of the ordered rows at that limit and offset, each keyed by the columns in order |
| DbService.PageIsNewestFirst | src/ytplayd_app/services/db_service.py:57-60 | within a page, each row's order value is at least the next one's |
| DbService.PagesTile | src/ytplayd_app/services/db_service.py:57-60 | the page at `offset` followed by the page at `offset + limit` is the page of twice the size: nothing skipped or repeated |
| DbService.FetchOrdersLatest | tests/test_db_service.py:16-44 | the test table is listed; a one-row page is ordered on `created_at`, has its three columns and holds the newer row |
| DbRoutes.HandleTables | src/ytplayd_app/routes/db_routes.py:7-8 | always 200, with the table list |
| DbRoutes.RawName | src/ytplayd_app/routes/db_routes.py:13 | Python's slice between prefix and suffix, empty when they overlap |
| DbRoutes.MatchTableRows | src/ytplayd_app/routes/db_routes.py:11-15 | "" for any path that is not a rows path; otherwise the decoded, stripped name |
| DbRoutes.MatchTableRowsRoundTrip | src/ytplayd_app/routes/db_routes.py:11-15 | the rows path of an encoded name gives the name back, decoded and stripped |
| DbRoutes.MatchTableRowsOverlap | src/ytplayd_app/routes/db_routes.py:12-13 | `/api/db/table/rows` matches, with the slash shared, and carries the empty name |
| DbRoutes.ClampLimit | src/ytplayd_app/routes/db_routes.py:33 | the limit kept within 1 to 50, and unchanged inside that range |
| DbRoutes.HandleTableRows | src/ytplayd_app/routes/db_routes.py:18-36 | 404 exactly for an empty or unlisted name; 400 exactly when `int()` refuses the limit or offset; otherwise 200 with the limit clamped and a negative offset raised to 0 |
| DbRoutes.HandleTableRowsDefaults | src/ytplayd_app/routes/db_routes.py:26-36 | without `limit` and `offset`, a listed table's first ten rows, newest first, are served, each keyed by the columns |
| DbRoutes.HandleTableRowsServesPage | src/ytplayd_app/routes/db_routes.py:26-36 | the rows served are the table's newest-first page at the clamped limit and the raised offset, each keyed by the columns; the total and the columns are the table's, and the count is what is left from the offset, at most the limit |
| Format.FormatTrack | web/components/common/format.js:1-6 | "-" exactly without a track; otherwise the title (or "Unknown"), then " - ", then the artist (or "Unknown"); the same in web/app.js:310-315 |
| Format.FormatTrackSplits | web/components/common/format.js:1-6 | when neither part holds a dash, splitting the line at the dash gives back the title and the artist, each with the space beside the dash |
| Format.FormatTrackUnknown | web/components/common/format.js:4 | a track with neither title nor artist reads "Unknown - Unknown" |
| Format.ClockRoundTrip | web/components/common/format.js:10-20 | every whole number of seconds is read back from its clock, whose first field is never zero-padded |
| Format.FormatTime | web/components/common/format.js:8-21 | "0:00" for a non-number, NaN or a negative number; a non-negative finite number gives a clock that reads back as its whole seconds, with an hours field from 3600 on and an unpadded first field, in exact arithmetic; +Infinity gives "Infinity:NaN:NaN"; the same in web/app.js:317-330 |
| Format.FormatTimeFloors | web/components/common/format.js:12 | fractions of a second are dropped, never rounded up: every time from n up to but not including n + 1 seconds shows as the clock of n |
| QueuePanel.NormalizeSource | web/components/queue/queue-panel.js:7-9 | "openai" stays, and everything else becomes "fallback" |
| QueuePanel.TrimQueryPayload | web/components/queue/queue-panel.js:11-40 | long strings are cut to 160 characters ending "..." with their start kept; arrays keep their first 12 items, each trimmed one level deeper, plus a count marker; objects below depth 3 keep their keys in order with each value trimmed one level deeper, and are replaced by "[nested]" from there on; other values are kept |
| QueuePanel.TrimWithinLimits | web/components/queue/queue-panel.js:11-40 | whatever the payload, its trimmed form stays within those limits |
| QueuePanel.Target | web/components/queue/queue-panel.js:94-97 | `min(10, queue_target)` for a numeric target, and 10 without one |
| QueuePanel.StartIndex | web/components/queue/queue-panel.js:106-107 | a non-negative current index is the start; a missing or negative one gives 0 |
| QueuePanel.Visible | web/components/queue/queue-panel.js:108-109 | the shown tracks are the queue from the start on, at most 10 of them, and nothing past the end |
| QueuePanel.PlaceholderCount | web/components/queue/queue-panel.js:164-171 | placeholders only while generating under target, never past the target or the window; while generating under target, as many as reach the target or fill the window |
| QueuePanel.RenderQueue | web/components/queue/queue-panel.js:89-172 | the empty notice exactly for an empty queue not being generated; otherwise the count line, the window of tracks with their positions, and placeholders with the query on the first |
| QueuePanel.RenderQueueMarks | web/components/queue/queue-panel.js:110-162 | an entry is "now" exactly at the current index and "new" exactly when the previous queue lacks its id; it is numbered from 01; its source tag is the track's own curation, or the default source when it has none, in normal form |
| QueuePanel.EmptyGeneratingQueue | web/components/queue/queue-panel.js:98-171 | an empty queue being generated shows only placeholders, as many as the target, the first with the query |
| QueuePanel.FullQueueNoPlaceholders | web/components/queue/queue-panel.js:164-171 | a queue at or over its target gets no placeholders |
| QueuePanel.PlaceholdersFillToTarget | web/components/queue/queue-panel.js:94-171 | a queue viewed from its start while generating under target lists every track, and tracks and placeholders together number the target |
| DatabasePanel.TrimDbValue | web/components/database/database-panel.js:49-55 | a value longer than the limit is truncated to the limit with "..." at the end and its start kept; a shorter one is unchanged; the same in web/app.js:517-523 |
| DatabasePanel.TrimDbValueDefault | web/components/database/database-panel.js:49-52 | at the default 140, a long cell keeps its first 137 characters and "..." |
| DatabasePanel.CacheKeyRoundTrip | web/components/database/database-panel.js:57-59 | a page's key gives back its table, offset and limit, even when the name holds colons; the same in web/app.js:525-527 |
| DatabasePanel.CacheKeyInjective | web/components/database/database-panel.js:57-59 | different pages never share a cache entry |
| DatabasePanel.PageNumber | web/components/database/database-panel.js:128 | the page whose range of offsets holds the offset |
| DatabasePanel.PageCount | web/components/database/database-panel.js:131 | at least one page, and exactly one for a total of zero or less; the pages hold the total, and the last one is not empty |
| DatabasePanel.UpdateDbControls | web/components/database/database-panel.js:125-138 | refresh is disabled exactly while loading; "newer" exactly while loading or at an offset of 0 or less; "older" exactly while loading or when the next page would start at or past the total; the status reads "loading..." while loading, "showing N rows \| page P" without a total, and "showing N rows \| page P of Q" with one, P the page the offset falls in and Q the page count; the same in web/app.js:593-607 |
| DatabasePanel.NextPageExists | web/components/database/database-panel.js:128-137 | while "older" is enabled, the next page is numbered one more and within the page count |
| DatabasePanel.PrevOffset | web/components/database/database-panel.js:327-333 | one page back, never before the first; the same in web/app.js:810-816 |
| DatabasePanel.NextOffset | web/components/database/database-panel.js:335-344 | one page on, and nothing exactly when that would start at or past the total; the same in web/app.js:818-827 |
| DatabasePanel.NextHandlerMatchesButton | web/components/database/database-panel.js:335-344 | the "older" handler does nothing exactly when the idle "older" button is disabled |
| DatabasePanel.PrevAfterNext | web/components/database/database-panel.js:327-344 | "newer" after "older" is back on the same page |
| DatabasePanel.RequestedOffset | web/components/database/database-panel.js:195 | never negative, and a non-negative offset is kept |
| DatabasePanel.LoadDbRows | web/components/database/database-panel.js:191-217 | without refresh, a cached page is served and becomes the table's state; otherwise a request goes out tagged with the table's next sequence number; the same in web/app.js:660-724 |
| DatabasePanel.ReceiveRows | web/components/database/database-panel.js:223-227 | an answer that is no longer the table's latest changes nothing; the latest is cached and becomes the table's state |
| DatabasePanel.OverlappingLoads | web/components/database/database-panel.js:214-235 | of two overlapping loads of one table, the first answer is dropped whenever it arrives, and the second is kept |
| DatabasePanel.OtherTableUnaffected | web/components/database/database-panel.js:214-223 | a load of another table does not make this table's answer stale |
| DatabasePanel.CachedAfterReceive | web/components/database/database-panel.js:200-224 | once a page has arrived, opening it again without refresh serves what arrived, from the cache |
| LoadingOverlay.PushMessage | web/components/loading/loading-overlay.js:40-47 | the stripped text goes on top of the log unless it is blank or already on top; the log stays at most four distinct-neighbour entries; the same in web/app.js:115-122 |
| LoadingOverlay.SetLoadingMessage | web/components/loading/loading-overlay.js:49-54 | the text is shown as given and pushed on the log; the same in web/app.js:124-129 |
| LoadingOverlay.StartCycle | web/components/loading/loading-overlay.js:56-63 | the cycle runs afterwards, and a running cycle is left as it was; the same in web/app.js:131-138 |
| LoadingOverlay.CycleTick | web/components/loading/loading-overlay.js:58-62 | a stopped cycle does nothing; otherwise the next of the six canned messages is shown and logged, wrapping round |
| LoadingOverlay.StopCycle | web/components/loading/loading-overlay.js:65-75 | the cycle stops and restarts from the first message; with reset the log is emptied too; the same in web/app.js:140-150 |
| LoadingOverlay.NewLines | web/components/loading/loading-overlay.js:80-82 | exactly the lines with a numeric id above the last one seen |
| LoadingOverlay.NewLinesAppend | web/components/loading/loading-overlay.js:80-82 | filtering distributes over concatenation, so the new lines keep the reply's order |
| LoadingOverlay.PushLines | web/components/loading/loading-overlay.js:87-94 | only the log changes, and it stays well formed; the last line's message, when it has one, ends on top; lines with nothing to log change nothing |
| LoadingOverlay.PushLinesTop | web/components/loading/loading-overlay.js:87-94 | the last message there is ends on top of the log, whatever silent lines follow it |
| LoadingOverlay.ApplyProgressLines | web/components/loading/loading-overlay.js:77-99 | no new lines change nothing; otherwise progress becomes active, a cycle not yet replaced stops, the last id becomes the newest line's and never decreases, that line's message is shown and, when not blank, on top of the log; new lines that are all blank leave the log alone; the same in web/app.js:197-219 |
| LoadingOverlay.ApplyProgressLinesTop | web/components/loading/loading-overlay.js:77-99 | the last new line with a message has it on top of the log afterwards, whatever blank lines follow it |
| LoadingOverlay.RefreshProgress | web/components/loading/loading-overlay.js:101-118 | a failed reply changes nothing; with reset only the last id moves to `latest_id`; otherwise the lines are applied and `latest_id` can only raise the last id; the same in web/app.js:221-238 |
| LoadingOverlay.StartPoll | web/components/loading/loading-overlay.js:120-125 | the poll runs afterwards; starting one forgets earlier progress; a running poll is left as it was; the same in web/app.js:240-245 |
| LoadingOverlay.StopPoll | web/components/loading/loading-overlay.js:127-134 | the poll stops, the last id goes back to 0 and progress is no longer active; nothing else changes; the same in web/app.js:247-254 |
| LoadingOverlay.SetLoading | web/components/loading/loading-overlay.js:136-160 | a start counts up and shows the overlay; an end counts down, never below zero, and at zero hides it, stops cycle and poll and clears the log; the same in web/app.js:152-172 |
| LoadingOverlay.EventsKeepInv | web/components/loading/loading-overlay.js:40-160 | every event keeps the invariant: shown and polling exactly while a request is pending, no cycle when idle or once progress took over, log well formed |
| LoadingOverlay.BeginCounts | web/components/loading/loading-overlay.js:136-147 | k starts raise the count by k and leave the overlay shown |
| LoadingOverlay.EndCounts | web/components/loading/loading-overlay.js:148-159 | k ends lower the count by k, and the overlay is idle once it reaches zero |
| LoadingOverlay.NestedLoading | web/components/loading/loading-overlay.js:136-160 | nested requests keep the overlay up until the last ends, and then everything is as before the first began |
| LoadingOverlay.NewLinesOfAscending | web/components/loading/loading-overlay.js:80-82 | for ascending ids, the new lines are the lines above the last id |
| LoadingOverlay.NoNewLinesAbove | web/components/loading/loading-overlay.js:80-82 | once the last id is at or above every line's id, no line is new |
| LoadingOverlay.ApplyAscendingOnce | web/components/loading/loading-overlay.js:77-99 | lines with ascending ids are applied once: the same reply applied again changes nothing |
| LoadingOverlay.ApplyOutOfOrderRepeats | web/components/loading/loading-overlay.js:77-99 | out of order, `[5, 3]` leaves the last id at 3, so line 5 counts as new again |
| SearchPanel.RenderPromptLine | web/components/search/search-panel.js:15-26 | "Prompt: -" without a prompt; otherwise "Prompt: " and the prompt, followed by the seed's formatted track when the seed has a title; the same in web/app.js:388-398 |
| SearchPanel.PromptLineInjective | web/components/search/search-panel.js:15-26 | without a seed, different prompts give different lines |
| SearchPanel.Field | web/components/search/search-panel.js:45-63 | a missing input reads ""; a non-blank one its stripped text; a blank one the fallback on a re-curate, else "" |
| SearchPanel.BuildPlayParams | web/components/search/search-panel.js:40-64 | "missing prompt" exactly when neither the form nor a re-curate's last prompt gives one; otherwise a non-empty query and each field from its input or fallback, `avoid` joined with commas |
| SearchPanel.PlainSubmitIgnoresFallback | web/components/search/search-panel.js:40-64 | a plain submit never depends on the last curation |
| SearchPanel.ClearForm | web/components/search/search-panel.js:28-38 | every present input is emptied, and the vibe is back to "normal"; the same in web/app.js:1096-1106 |
| SearchPanel.ClearedSubmitRefused | web/components/search/search-panel.js:28-64 | after clearing, a plain submit is refused for want of a prompt |
| SearchPanel.ClearedRecurate | web/components/search/search-panel.js:28-64 | after clearing a complete form, a re-curate asks again for the last curation, but with the vibe "normal" |
| AppShell.BeginControlRequest | web/app.js:184-191 | the live request is aborted, and the next number becomes the live ticket and the current number |
| AppShell.LaterRequestSupersedes | web/app.js:184-191 | once a later request has begun, an earlier ticket is aborted and no longer current |
| AppShell.BeginManyKeeps | web/app.js:184-191 | any run of requests keeps the live request the latest, counts one number per request and never un-aborts one |
| AppShell.RefreshState | web/app.js:994-1023 | a state is applied exactly when the reply arrived and the guard does not drop it; the daemon is shown offline exactly on a failure other than an abort |
| AppShell.RunControl | web/app.js:1071-1090 | the state refresh happens exactly when the control succeeded and its ticket is still current; "idle" exactly when it is also still current after the refresh; an error is shown exactly for a failure while current, with "request failed" when there is no message; the refresh's outcome is `refreshState`'s for that ticket and reply: applied exactly when the state reply came back and the ticket was still current at it, with the reply's state, and offline exactly when the state request failed |
| AppShell.SupersededControlIsSilent | web/app.js:1071-1090 | a request superseded before its reply leaves no trace: no state is applied and the request state is left alone |
| AppShell.DefaultSource | web/app.js:428-434 | "openai" exactly when the curation source is "llm" in any case, "fallback" otherwise |
| AppShell.DefaultSourceNormal | web/app.js:428-434 | the page's default source is already in the queue panel's normal form |
| AppShell.CurrentIndex | web/app.js:427 | the reported index when it is a number, else 0 |
| AppShell.AppRenderQueue | web/app.js:888-955 | the empty notice exactly for an empty queue, never a placeholder, at most 10 entries, and otherwise the queue panel's rendering |
| AppShell.ApplyState | web/app.js:421-439 | the empty notice exactly for an empty queue, no placeholders and at most 10 entries; each entry is the track at its place in the window, "now" exactly at the current index, "new" exactly when the previous state's queue lacked its id (every entry on the first state), and tagged "openai" exactly by its own curation or, without one, by an LLM curation; the prompt line is "Prompt: -" without a prompt, else the prompt, followed by the seed when it has a title |
| AppShell.AppliedItems | web/app.js:421-439 | every entry of the page's queue view is shown as `ApplyState` states |
| AppShell.ApplyStateSourceTag | web/components/queue/queue-panel.js:149-152 | a shown track is tagged "openai" exactly when its own curation is "openai", or it has none and the state's curation source is "llm" in any case |
| AppShell.ApplyStateNewMarks | web/app.js:421-439 | the first state marks every shown track new; the same state applied again marks none |
| AppShell.Or | web/app.js:1027-1043 | the stripped input when it is not blank, the alternative otherwise |
| AppShell.AppBuildPlayParams | web/app.js:1025-1043 | "missing prompt" exactly when the prompt input is blank and no re-curate prompt is at hand; the query is the stripped input or the last prompt |
| AppShell.AppBuildPlayParamsAgrees | web/app.js:1025-1043 | the page's version equals the search panel's, with the last state's prompt and extras as the fallback |

## Left out

- Printing, the HTTP server, the socket to mpv and the SQLite connection are left out. Replies and commands are values; the database is a value.
- The language-model curator (`llm_curate`), the YouTube Music search and `yt-dlp` are parameters of the model.
- `run_auth`, `daemon_up` and the client's HTTP request are left out. The daemon's reachability and the auth result are parameters.
- An option at the end of the arguments, with no value after it, makes `main` raise `IndexError`. The model ends such a run with status 1, Python's status for an uncaught exception, and no request.
- The result printing of `main` (lines 183-204 of `src/ytplay.py`) is left out; the model keeps the exit status and the requests sent.
- The locks in the daemon and the status service are left out. Calls are modelled one after another.
- JSON encoding is left out. The cache key takes the sorted-key JSON of the extras as a string parameter, and the cached payload is stored as the value itself.
- UTF-8 decoding (`serialize_value`) and percent-decoding (`unquote`) are parameters.
- SQLite's `ORDER BY` leaves ties in an unspecified order. The model keeps tied rows in table order.
- Python's `ValueError` message for a non-integer parameter is a fixed text.
- The daemon's 500 reply for other exceptions is left out. The curator, the search and the resolver are total parameters.
- String lengths are counted in characters, not the UTF-16 code units JavaScript uses.
- Page offsets and queue indices are whole numbers. Fractional numbers from JSON are not modelled.
- A table column named `rowid`, which would shadow SQLite's `rowid`, is not modelled.
- `web/app/constants.js` is not part of this model. The components' `QUEUE_WINDOW` and `DB_PAGE_SIZE` are taken to be 10, the values in `web/app.js`.
- The DOM is left out: element creation, classes, text nodes, buttons and the missing-element early returns.
- Timers and intervals are events. The loading cycle's 1400 ms interval is `CycleTick`. The progress poll's interval and the reply to `refreshProgress(true)` are later `RefreshProgress` events.
- The now-playing, learning, debug and storage components, `env.js`, and the API client are left out. They are not part of the modelled core.
- The client's empty-value filtering in `web/api/client.js` is left out.
- Daemon.HandleGet: no contract of its own. `Daemon.PlayRoute`, `Daemon.VoteRoute` and `Daemon.ControlRoutes` state what it does per path. `/health` is a plain 200.
- Daemon.HandlePlay: states the count bound only for a cap of at least one. With a cap of zero or less, the loop takes the first track before checking; see `Daemon.SelectNonPositiveCap`.
- DatabasePanel.TrimDbValue: states the length only for limits of at least 3. Below 3, JavaScript's `slice` with a negative end cuts from the end, and the model follows it without a length claim.
- LoadingOverlay.SetLoading: states that progress is inactive after a start only when no poll was running before.
- DbService.FetchTableRows: Python's `sqlite3` refuses an offset or limit outside the signed 64-bit range with `OverflowError`. That error is not modelled; the model answers with the page.
- DbRoutes.HandleTableRows: the limit is clamped to 1..50, but an offset of 2^63 or more is passed on, and the `OverflowError` it raises in `sqlite3` is not modelled. The model answers 200 with the page at that offset.
- Format.FormatTime: works in exact arithmetic. JavaScript's doubles lose whole seconds above 2^53, and from 3.6e24 seconds on the hours field is printed in exponent notation. Neither is modelled.
- PromptCache.CacheGet: `cache_get` reads the clock twice, once for the age and once for the last-use stamp. The model uses one reading for both.
- EnvFile.ExpandUser: `~user/…` is returned unchanged, because the password database is not modelled. An unset `HOME` is not modelled either; the home is a parameter.
- QueryString.IntParam: reads numbers of any length. Python 3.11 and later refuse more than 4300 digits in `int()` by default, a limit that can be configured. That limit is not modelled.
- QueryString.IntParam: `int()` also accepts decimal digits from other scripts, such as Arabic-Indic digits. The model reads ASCII digits only and refuses the others.
- Daemon.PlayExtras: reads integers with `Text.ParseInt`, so decimal digits of other scripts are refused where `int()` would read them.
- Daemon.PlayRoute: reads integers with `Text.ParseInt`, so decimal digits of other scripts are refused where `int()` would read them.
- Daemon.VoteRoute: reads integers with `Text.ParseInt`, so decimal digits of other scripts are refused where `int()` would read them.
- DbRoutes.HandleTableRows: reads integers with `Text.ParseInt`, so decimal digits of other scripts are refused where `int()` would read them.
- Daemon.ReadConfig: reads integers with `Text.ParseInt`, so decimal digits of other scripts are refused where `int()` would read them.
- Text.Strip: uses Python's `str.strip()` whitespace set for the web files too. JavaScript's `trim()` differs at the edges: it also strips U+FEFF, and it keeps U+001C to U+001F and U+0085.
- Daemon.Resolve: the resolver parameter holds `yt-dlp`'s output already stripped. The strip itself is not modelled.

## Findings

| source | as written | input that shows it | evidently intended | confidence | as-written member | corrected member |
|---|---|---|---|---|---|---|
| src/ytplayd.py:201-220 | the query loop appends a track and only then checks `len(out) >= max_tracks`, so a seed track already at the cap is followed by one more | `max_tracks = 1` with a seed found and one eligible query result returns 2 tracks; `max_tracks = 0` without a seed returns 1 | at most `max_tracks` tracks, as the final `out[:max_tracks]` shows | not executed | TrackPicker.PickTracksAsWrittenOvershoots | TrackPicker.PickTracks |

=== FILE: app_shell.dfy ===
/** The parts of `web/app.js` that are not copies of a component: the
    numbering of control requests that lets a newer request silence an older
    one, the guard `refreshState` applies to its reply, how `applyState` picks
    the queue's default source, and the page's own `buildPlayParams`, which
    falls back to the last state the daemon reported.

    The page's copies of the components' helpers (`formatTrack`, `formatTime`,
    the loading overlay, `renderPromptLine`, the database panel) are the same
    members as the components'; its `renderQueue` has no generation status. */
module AppShell {
  import opened Wrappers
  import opened Text
  import opened Format
  import opened QueuePanel
  import opened SearchPanel

  // ---- control requests ----------------------------------------------------

  /** `controlSeq`, and the ticket of the request whose controller is live
      (`None` before the first); `aborted` holds the tickets whose
      controllers were aborted. */
  datatype Controls = Controls(controlSeq: nat, live: Option<nat>, aborted: set<nat>)

  const NoControls := Controls(0, None, {})

  /** The state every reachable `Controls` is in: the live request is the
      latest, and every earlier one has been aborted. */
  predicate ControlsOk(c: Controls) {
    && (c.controlSeq == 0 <==> c.live.None?)
    && (c.live.Some? ==> c.live.value == c.controlSeq)
    && (forall t :: t in c.aborted ==> 1 <= t < c.controlSeq)
    && (forall t :: 1 <= t < c.controlSeq ==> t in c.aborted)
  }

  /** `beginControlRequest`: aborts the live request, starts a new one and
      hands out the next number as its ticket. */
  function BeginControlRequest(c: Controls): (r: (Controls, nat))
    ensures r.1 == c.controlSeq + 1 && r.0.controlSeq == r.1
    ensures r.0.live == Some(r.1)
    ensures c.live.Some? ==> r.0.aborted == c.aborted + {c.live.value}
    ensures c.live.None? ==> r.0.aborted == c.aborted
    ensures ControlsOk(c) ==> ControlsOk(r.0)
  {
    var aborted := if c.live.Some? then c.aborted + {c.live.value} else c.aborted;
    (Controls(c.controlSeq + 1, Some(c.controlSeq + 1), aborted), c.controlSeq + 1)
  }

  /** Starts `k` requests in a row. */
  function BeginMany(c: Controls, k: nat): Controls
    decreases k
  {
    if k == 0 then c else BeginMany(BeginControlRequest(c).0, k - 1)
  }

  /** Once a later request has begun, an earlier ticket is aborted and no
      longer the current number. */
  lemma {:induction false} LaterRequestSupersedes(c: Controls, k: nat)
    requires ControlsOk(c) && k >= 1
    ensures var t := BeginControlRequest(c);
            var later := BeginMany(t.0, k);
            ControlsOk(later) && later.controlSeq == t.1 + k && t.1 in later.aborted
    decreases k
  {
    var t := BeginControlRequest(c);
    var next := BeginControlRequest(t.0).0;
    assert t.1 in next.aborted;
    if k > 1 {
      BeginManyKeeps(next, k - 1);
    }
  }

  lemma {:induction false} BeginManyKeeps(c: Controls, k: nat)
    requires ControlsOk(c)
    ensures ControlsOk(BeginMany(c, k))
    ensures BeginMany(c, k).controlSeq == c.controlSeq + k
    ensures c.aborted <= BeginMany(c, k).aborted
    decreases k
  {
    if k > 0 {
      BeginManyKeeps(BeginControlRequest(c).0, k - 1);
    }
  }

  /** `options.guardSeq && options.guardSeq !== controlSeq`: a reply is
      dropped when a guard (a non-zero number) was given and is no longer the
      current number. */
  predicate RefreshGuardDrops(guardSeq: Option<int>, controlSeq: nat) {
    guardSeq.Some? && guardSeq.value != 0 && guardSeq.value != controlSeq
  }

  /** What `refreshState` does once the `/state` request has settled: apply
      the reply, drop it (guard failed, or the request was aborted), or report
      the daemon offline. */
  datatype RefreshOutcome = Applied(state: AppState) | Dropped | Offline

  /** A settled `/state` request: the reply, "request aborted", or another
      failure. */
  datatype StateReply = StateOk(state: AppState) | StateAborted | StateFailed

  function RefreshState(guardSeq: Option<int>, controlSeqAtReply: nat, reply: StateReply): (r: RefreshOutcome)
    ensures r.Applied? <==> reply.StateOk? && !RefreshGuardDrops(guardSeq, controlSeqAtReply)
    ensures r.Applied? ==> r.state == reply.state
    ensures r.Offline? <==> reply.StateFailed?
  {
    match reply
    case StateOk(s) => if RefreshGuardDrops(guardSeq, controlSeqAtReply) then Dropped else Applied(s)
    case StateAborted => Dropped
    case StateFailed => Offline
  }

  /** What `runControl` shows as the request state: nothing, "idle", or an
      error message. */
  datatype Shown = Untouched | Idle | Failed(message: string)

  /** A settled control request: success, "request aborted", or another
      failure with its message ("" when it has none). */
  datatype ControlReply = ControlOk | ControlAborted | ControlFailed(message: string)

  /** `runControl` after the control request with `ticket` settles: the
      current number when its reply arrived, when the follow-up `/state`
      reply arrived, and after that refresh. Returns what the follow-up
      refresh did (`None` when none was made) and what the request state
      shows. */
  function RunControl(ticket: nat, seqAtReply: nat, reply: ControlReply,
                      seqAtStateReply: nat, stateReply: StateReply, seqAfterRefresh: nat): (r: (Option<RefreshOutcome>, Shown))
    requires ticket >= 1
    ensures r.0.Some? <==> reply.ControlOk? && ticket == seqAtReply
    ensures r.0.Some? ==> r.0.value == RefreshState(Some(ticket), seqAtStateReply, stateReply)
    ensures r.0.Some? ==> (r.0.value.Applied? <==> stateReply.StateOk? && ticket == seqAtStateReply)
    ensures r.0.Some? && r.0.value.Applied? ==> r.0.value.state == stateReply.state
    ensures r.0.Some? ==> (r.0.value.Offline? <==> stateReply.StateFailed?)
    ensures r.1.Idle? <==> reply.ControlOk? && ticket == seqAtReply && ticket == seqAfterRefresh
    ensures r.1.Failed? <==> reply.ControlFailed? && ticket == seqAtReply
    ensures r.1.Failed? ==> r.1.message == (if reply.message != [] then reply.message else "request failed")
  {
    match reply
    case ControlOk =>
      if ticket != seqAtReply then (None, Untouched)
      else
        var refreshed := RefreshState(Some(ticket), seqAtStateReply, stateReply);
        (Some(refreshed), if ticket != seqAfterRefresh then Untouched else Idle)
    case ControlAborted => (None, Untouched)
    case ControlFailed(msg) =>
      if ticket != seqAtReply then (None, Untouched)
      else (None, Failed(if msg != [] then msg else "request failed"))
  }

  /** A request superseded before its reply arrived leaves no trace: no state
      is applied and the request state is left alone. */
  lemma SupersededControlIsSilent(c: Controls, k: nat, reply: ControlReply,
                                  seqAtStateReply: nat, stateReply: StateReply, seqAfterRefresh: nat)
    requires ControlsOk(c) && k >= 1
    ensures var t := BeginControlRequest(c);
            var later := BeginMany(t.0, k);
            RunControl(t.1, later.controlSeq, reply, seqAtStateReply, stateReply, seqAfterRefresh) == (None, Untouched)
  {
    LaterRequestSupersedes(c, k);
  }

  // ---- applyState ----------------------------------------------------------

  /** The part of a `/state` reply the page keeps and renders: the queue, a
      numeric `current_index`, `debug.curation_source` as text when truthy,
      the prompt, the seed and the extras. */
  datatype AppState = AppState(
    queue: seq<QueueTrack>,
    currentIndex: Option<int>,
    curationSource: Option<string>,
    prompt: string,
    seed: Option<TrackInfo>,
    extras: Option<Extras>)

  /** The default source of the queue's tracks: "openai" when the daemon
      reports an LLM curation, any letter case, else "fallback". */
  function DefaultSource(curationSource: Option<string>): (r: string)
    ensures r == "openai" <==> curationSource.Some? && LowerAscii(curationSource.value) == "llm"
    ensures r == "openai" || r == "fallback"
  {
    if curationSource.Some? && curationSource.value != [] && LowerAscii(curationSource.value) == "llm" then "openai" else "fallback"
  }

  /** The page's default source is already in the form the queue panel's
      tags use. */
  lemma DefaultSourceNormal(curationSource: Option<string>)
    ensures NormalizeSource(DefaultSource(curationSource)) == DefaultSource(curationSource)
  {
  }

  /** `typeof data.current_index === "number" ? data.current_index : 0`. */
  function CurrentIndex(state: AppState): (r: int)
    ensures state.currentIndex.Some? ==> r == state.currentIndex.value
    ensures state.currentIndex.None? ==> r == 0
  {
    state.currentIndex.GetOr(0)
  }

  /** The page's `renderQueue`: the queue panel's without a generation
      status, so an empty queue shows the notice and there are no
      placeholders. */
  function AppRenderQueue(queue: seq<QueueTrack>, currentIndex: int, previous: seq<QueueTrack>, defaultSource: string): (r: QueueView)
    ensures r.EmptyNotice? <==> queue == []
    ensures r.Listing? ==> r.placeholders == [] && |r.items| <= QueueWindow
    ensures r == RenderQueue(queue, Some(currentIndex), previous, defaultSource, None)
  {
    RenderQueue(queue, Some(currentIndex), previous, defaultSource, None)
  }

  /** What `applyState` renders: the queue against the previous state's
      queue, and the prompt line. */
  datatype Rendered = Rendered(queue: QueueView, promptLine: string)

  /** How `applyState` shows the `i`-th entry of the window: the track at its
      place in the queue, "now" at the current index, "new" when the previous
      state's queue lacked it, and tagged "openai" by its own curation or,
      without one, by an LLM curation of the whole state. */
  predicate AppliedItem(previous: Option<AppState>, data: AppState, i: nat, it: QueueItem) {
    && it.index == StartIndex(Some(CurrentIndex(data))) + i
    && it.index < |data.queue|
    && it.track == data.queue[it.index]
    && (it.isCurrent <==> it.index == CurrentIndex(data))
    && (it.isNew <==> previous.None? || !HeldBy(previous.value.queue, it.track.videoId))
    && (it.source == "openai" <==>
          || it.track.curation == "openai"
          || (it.track.curation == "" && data.curationSource.Some? && LowerAscii(data.curationSource.value) == "llm"))
  }

  function ApplyState(previous: Option<AppState>, data: AppState): (r: Rendered)
    ensures r.queue.EmptyNotice? <==> data.queue == []
    ensures r.queue.Listing? ==> r.queue.placeholders == [] && |r.queue.items| <= QueueWindow
    ensures r.queue.Listing? ==>
              forall i :: 0 <= i < |r.queue.items| ==> AppliedItem(previous, data, i, r.queue.items[i])
    ensures data.prompt == [] ==> r.promptLine == "Prompt: -"
    ensures data.prompt != [] && (data.seed.None? || data.seed.value.title == []) ==>
              r.promptLine == "Prompt: " + data.prompt
    ensures data.prompt != [] && data.seed.Some? && data.seed.value.title != [] ==>
              StartsWith(r.promptLine, "Prompt: " + data.prompt)
              && EndsWith(r.promptLine, " (seed: " + FormatTrack(data.seed) + ")")
  {
    var prev := if previous.Some? then previous.value.queue else [];
    var q := AppRenderQueue(data.queue, CurrentIndex(data), prev, DefaultSource(data.curationSource));
    AppliedItems(previous, data);
    Rendered(q, RenderPromptLine(data.prompt, data.seed))
  }

  /** Every entry of the page's queue view is shown as `AppliedItem` says. */
  lemma AppliedItems(previous: Option<AppState>, data: AppState)
    ensures var q := AppRenderQueue(data.queue, CurrentIndex(data), if previous.Some? then previous.value.queue else [],
                                    DefaultSource(data.curationSource));
            q.Listing? ==> forall i :: 0 <= i < |q.items| ==> AppliedItem(previous, data, i, q.items[i])
  {
    var prev := if previous.Some? then previous.value.queue else [];
    var src := DefaultSource(data.curationSource);
    var q := AppRenderQueue(data.queue, CurrentIndex(data), prev, src);
    if q.Listing? {
      forall i | 0 <= i < |q.items|
        ensures AppliedItem(previous, data, i, q.items[i])
      {
        RenderQueueMarks(data.queue, Some(CurrentIndex(data)), prev, src, None, i);
      }
    }
  }

  /** The first state marks every shown track new; the same state applied
      again marks none. */
  lemma ApplyStateNewMarks(data: AppState, i: nat)
    requires ApplyState(None, data).queue.Listing?
    requires i < |ApplyState(None, data).queue.items|
    ensures ApplyState(None, data).queue.items[i].isNew
    ensures !ApplyState(Some(data), data).queue.items[i].isNew
  {
    var src := DefaultSource(data.curationSource);
    var idx := Some(CurrentIndex(data));
    RenderQueueMarks(data.queue, idx, [], src, None, i);
    RenderQueueMarks(data.queue, idx, data.queue, src, None, i);
    var it := ApplyState(Some(data), data).queue.items[i];
    assert it.track in data.queue;
  }

  /** The source tag of a shown track: "openai" when the track says so, or
      when it says nothing and the daemon reports an LLM curation. */
  lemma ApplyStateSourceTag(previous: Option<AppState>, data: AppState, i: nat)
    requires ApplyState(previous, data).queue.Listing?
    requires i < |ApplyState(previous, data).queue.items|
    ensures var it := ApplyState(previous, data).queue.items[i];
            it.source == "openai" <==>
              || it.track.curation == "openai"
              || (it.track.curation == "" && data.curationSource.Some? && LowerAscii(data.curationSource.value) == "llm")
  {
    var prev := if previous.Some? then previous.value.queue else [];
    RenderQueueMarks(data.queue, Some(CurrentIndex(data)), prev, DefaultSource(data.curationSource), None, i);
  }

  // ---- buildPlayParams -----------------------------------------------------

  /** The page's inputs, all present. */
  datatype Inputs = Inputs(prompt: string, seed: string, mood: string, lang: string, avoid: string,
                           max: string, ttl: string, mix: string, vibe: string)

  /** `input.value.trim() || alternative`. */
  function Or(input: string, alternative: string): (r: string)
    ensures !IsBlank(input) ==> r == Strip(input)
    ensures IsBlank(input) ==> r == alternative
  {
    var t := Strip(input);
    if t != [] then t else alternative
  }

  /** The page's `buildPlayParams(useFallback)`: the fallback is the last
      state's prompt and extras. */
  function AppBuildPlayParams(inputs: Inputs, useFallback: bool, last: Option<AppState>): (r: Result<PlayParams, string>)
    ensures r.Err? <==> IsBlank(inputs.prompt) && (!useFallback || last.None? || last.value.prompt == [])
    ensures r.Err? ==> r.error == "missing prompt"
    ensures r.Ok? && !IsBlank(inputs.prompt) ==> r.value.q == Strip(inputs.prompt)
    ensures r.Ok? && IsBlank(inputs.prompt) ==> r.value.q == last.value.prompt
    ensures r.Ok? && !useFallback ==>
              r.value == PlayParams(Strip(inputs.prompt), Strip(inputs.seed), Strip(inputs.mood), Strip(inputs.lang),
                                    Strip(inputs.avoid), Strip(inputs.mix), Strip(inputs.vibe), Strip(inputs.max), Strip(inputs.ttl))
  {
    var fallback := if last.Some? && last.value.extras.Some? then last.value.extras.value else NoExtras;
    var lastPrompt := if last.Some? then last.value.prompt else [];
    var prompt := Or(inputs.prompt, if useFallback then lastPrompt else []);
    if prompt == [] then Err("missing prompt")
    else
      var alt := (s: string) => if useFallback then s else [];
      Ok(PlayParams(
        prompt,
        Or(inputs.seed, alt(fallback.seed)),
        Or(inputs.mood, alt(fallback.mood)),
        Or(inputs.lang, alt(fallback.lang)),
        Or(inputs.avoid, alt(Join(fallback.avoid, ","))),
        Or(inputs.mix, alt(fallback.mix)),
        Or(inputs.vibe, alt(fallback.vibe)),
        Or(inputs.max, alt(fallback.maxTracks)),
        Or(inputs.ttl, alt(fallback.ttlHours))))
  }

  function AsForm(inputs: Inputs): (r: Form)
    ensures Complete(r)
  {
    Form(Some(inputs.prompt), Some(inputs.seed), Some(inputs.mood), Some(inputs.lang), Some(inputs.avoid),
         Some(inputs.max), Some(inputs.ttl), Some(inputs.mix), Some(inputs.vibe))
  }

  /** The page's version agrees with the search panel's, given the last
      state's prompt and extras as the fallback. */
  lemma AppBuildPlayParamsAgrees(inputs: Inputs, useFallback: bool, last: Option<AppState>)
    ensures AppBuildPlayParams(inputs, useFallback, last)
         == BuildPlayParams(AsForm(inputs), useFallback,
                            if last.Some? then last.value.extras else None,
                            if last.Some? then last.value.prompt else [])
  {
    var x := if last.Some? && last.value.extras.Some? then last.value.extras.value else NoExtras;
    var fallback := if last.Some? then last.value.extras else None;
    assert fallback.GetOr(NoExtras) == x;
    var a := AppBuildPlayParams(inputs, useFallback, last);
    var b := BuildPlayParams(AsForm(inputs), useFallback, fallback, if last.Some? then last.value.prompt else []);
    assert a.Err? <==> b.Err?;
    if a.Ok? {
      assert a.value.q == b.value.q;
      OrIsField(inputs.seed, useFallback, x.seed);
      OrIsField(inputs.mood, useFallback, x.mood);
      OrIsField(inputs.lang, useFallback, x.lang);
      OrIsField(inputs.avoid, useFallback, Join(x.avoid, ","));
      OrIsField(inputs.mix, useFallback, x.mix);
      OrIsField(inputs.vibe, useFallback, x.vibe);
      OrIsField(inputs.max, useFallback, x.maxTracks);
      OrIsField(inputs.ttl, useFallback, x.ttlHours);
    }
  }

  lemma OrIsField(input: string, useFallback: bool, fallback: string)
    ensures Or(input, if useFallback then fallback else []) == Field(Some(input), useFallback, fallback)
  {
  }
}

=== FILE: cli.dfy ===
/** The command-line client `src/ytplay.py`: where the YouTube Music credentials
    are looked for, which request parameters are sent, and how `main` reads its
    arguments into a request and an exit status.

    Printing is left out; what the model keeps of a run is its exit status, the
    requests it sends to the daemon and which notice it ends on. Whether the
    daemon accepts a connection and what `run_auth` returns are parameters. */
module Cli {
  import opened Wrappers
  import opened Text
  import opened EnvFile

  // ---- auth_path -------------------------------------------------------------

  /** `os.path.join(a, b)` for a relative `b`. */
  function PathJoin(a: string, b: string): (r: string)
    ensures EndsWith(r, b)
  {
    if a == "" then b else if EndsWith(a, "/") then a + b else a + "/" + b
  }

  /** `auth_path`: `YTP_YTMUSIC_AUTH` (with `~` expanded) when set and not empty,
      else the repository's `headers_auth.json` when that file exists, else
      `headers_auth.json` in the state directory. */
  function AuthPath(authEnv: Option<string>, home: string, repoPath: string, repoExists: bool, stateDir: string): (r: string)
    ensures authEnv.Some? && authEnv.value != "" ==> r == ExpandUser(home, authEnv.value)
    ensures (authEnv.None? || authEnv.value == "") && repoExists ==> r == repoPath
    ensures (authEnv.None? || authEnv.value == "") && !repoExists ==> EndsWith(r, "headers_auth.json") && StartsWith(r, stateDir)
  {
    if authEnv.Some? && authEnv.value != "" then ExpandUser(home, authEnv.value)
    else if repoExists then repoPath
    else PathJoin(stateDir, "headers_auth.json")
  }

  /** A set variable decides alone: neither the repository file nor the state
      directory matters then. Unset or empty, the repository file wins over
      the state directory whenever it exists. */
  lemma AuthPathPrecedence(authEnv: Option<string>, home: string, repoPath: string, repoExists: bool, stateDir: string,
                           repoPath': string, repoExists': bool, stateDir': string)
    ensures authEnv.Some? && authEnv.value != "" ==>
              AuthPath(authEnv, home, repoPath, repoExists, stateDir) == AuthPath(authEnv, home, repoPath', repoExists', stateDir')
    ensures (authEnv.None? || authEnv.value == "") && repoExists ==>
              AuthPath(authEnv, home, repoPath, repoExists, stateDir) == AuthPath(None, home, repoPath, true, stateDir')
  {
  }

  // ---- req -------------------------------------------------------------------

  /** The parameters `req` puts into the query string: those whose value is not
      None, in their original order. */
  function FilterParams(ps: seq<(string, Option<string>)>): (r: seq<(string, string)>)
    ensures |r| <= |ps|
    ensures forall p :: p in r ==> (p.0, Some(p.1)) in ps
    ensures forall i :: 0 <= i < |ps| && ps[i].1.Some? ==> (ps[i].0, ps[i].1.value) in r
    decreases |ps|
  {
    if ps == [] then []
    else
      var rest := FilterParams(ps[1..]);
      assert forall i :: 1 <= i < |ps| ==> ps[i] == ps[1..][i - 1];
      match ps[0].1
      case Some(v) => [(ps[0].0, v)] + rest
      case None => rest
  }

  // ---- flags -------------------------------------------------------------------

  /** The eight options, each None until given. */
  datatype Flags = Flags(seed: Option<string>, mood: Option<string>, lang: Option<string>, mix: Option<string>,
                         vibe: Option<string>, n: Option<string>, ttl: Option<string>, avoid: Option<string>)

  const NoFlags := Flags(None, None, None, None, None, None, None, None)

  predicate IsFlag(a: string) {
    a in ["--seed", "--mood", "--lang", "--mix", "--vibe", "--n", "--ttl", "--avoid"]
  }

  /** The value recorded for option `name`. */
  function Get(f: Flags, name: string): Option<string> {
    if name == "--seed" then f.seed
    else if name == "--mood" then f.mood
    else if name == "--lang" then f.lang
    else if name == "--mix" then f.mix
    else if name == "--vibe" then f.vibe
    else if name == "--n" then f.n
    else if name == "--ttl" then f.ttl
    else if name == "--avoid" then f.avoid
    else None
  }

  /** Records `v` for option `name`, replacing an earlier value. */
  function Set(f: Flags, name: string, v: string): (r: Flags)
    requires IsFlag(name)
    ensures Get(r, name) == Some(v)
    ensures forall other :: other != name ==> Get(r, other) == Get(f, other)
  {
    if name == "--seed" then f.(seed := Some(v))
    else if name == "--mood" then f.(mood := Some(v))
    else if name == "--lang" then f.(lang := Some(v))
    else if name == "--mix" then f.(mix := Some(v))
    else if name == "--vibe" then f.(vibe := Some(v))
    else if name == "--n" then f.(n := Some(v))
    else if name == "--ttl" then f.(ttl := Some(v))
    else f.(avoid := Some(v))
  }

  datatype Parsed = Parsed(flags: Flags, rest: seq<string>)

  /** The flag loop of `main`: an option takes the next argument whatever it is,
      anything else goes to the prompt words. An option with nothing after it
      raises `IndexError` (None). */
  function ParseFlags(args: seq<string>, f: Flags, rest: seq<string>): (r: Option<Parsed>)
    ensures r.Some? ==> |rest| <= |r.value.rest| <= |rest| + |args| && r.value.rest[..|rest|] == rest
    decreases |args|
  {
    if args == [] then
      Some(Parsed(f, rest))
    else if IsFlag(args[0]) then
      if |args| < 2 then None else ParseFlags(args[2..], Set(f, args[0], args[1]), rest)
    else
      ParseFlags(args[1..], f, rest + [args[0]])
  }

  /** The words the loop adds to the prompt are never options. */
  lemma {:induction false} ParsedWordsPlain(args: seq<string>, f: Flags, rest: seq<string>)
    requires ParseFlags(args, f, rest).Some?
    ensures PlainWords(ParseFlags(args, f, rest).value.rest[|rest|..])
    decreases |args|
  {
    if args == [] {
    } else if IsFlag(args[0]) {
      ParsedWordsPlain(args[2..], Set(f, args[0], args[1]), rest);
    } else {
      var r := ParseFlags(args[1..], f, rest + [args[0]]).value.rest;
      ParsedWordsPlain(args[1..], f, rest + [args[0]]);
      assert r[|rest|..] == [args[0]] + r[|rest| + 1..];
    }
  }

  /** With no option among the arguments, all of them become prompt words and
      the options stay as they were. */
  lemma {:induction false} PlainWordsParse(args: seq<string>, f: Flags, rest: seq<string>)
    requires PlainWords(args)
    ensures ParseFlags(args, f, rest) == Some(Parsed(f, rest + args))
    decreases |args|
  {
    if args == [] {
      assert rest + args == rest;
    } else {
      assert !IsFlag(args[0]);
      PlainWordsParse(args[1..], f, rest + [args[0]]);
      assert rest + [args[0]] + args[1..] == rest + args;
    }
  }

  /** Words none of which is an option. */
  predicate PlainWords(words: seq<string>) {
    forall i :: 0 <= i < |words| ==> !IsFlag(words[i])
  }

  /** Parsing a concatenation parses the first part, then carries on from where
      it left off. */
  lemma {:induction false} ParseFlagsAppend(a: seq<string>, b: seq<string>, f: Flags, rest: seq<string>)
    requires ParseFlags(a, f, rest).Some?
    ensures var p := ParseFlags(a, f, rest).value;
            ParseFlags(a + b, f, rest) == ParseFlags(b, p.flags, p.rest)
    decreases |a|
  {
    if a != [] {
      if IsFlag(a[0]) {
        assert (a + b)[2..] == a[2..] + b;
        ParseFlagsAppend(a[2..], b, Set(f, a[0], a[1]), rest);
      } else {
        assert (a + b)[1..] == a[1..] + b;
        ParseFlagsAppend(a[1..], b, f, rest + [a[0]]);
      }
    } else {
      assert a + b == b;
    }
  }

  /** A repeated option keeps its last value, whatever lies between the two. */
  lemma RepeatedFlagLastWins(flag: string, v1: string, mid: seq<string>, v2: string, f: Flags, rest: seq<string>)
    requires IsFlag(flag)
    requires ParseFlags(mid, Set(f, flag, v1), rest).Some?
    ensures var r := ParseFlags([flag, v1] + mid + [flag, v2], f, rest);
            r.Some? && Get(r.value.flags, flag) == Some(v2)
            && r.value.rest == ParseFlags(mid, Set(f, flag, v1), rest).value.rest
  {
    var p := ParseFlags(mid, Set(f, flag, v1), rest).value;
    ParseFlagsAppend([flag, v1] + mid, [flag, v2], f, rest);
    assert ([flag, v1] + mid)[2..] == mid;
    assert [flag, v2][2..] == [];
  }

  /** An option consumes exactly the argument after it, even one that looks like
      an option itself. */
  lemma FlagTakesNextArgument(flag: string, v: string, more: seq<string>, f: Flags, rest: seq<string>)
    requires IsFlag(flag)
    ensures ParseFlags([flag, v] + more, f, rest) == ParseFlags(more, Set(f, flag, v), rest)
  {
    assert ([flag, v] + more)[2..] == more;
  }

  // ---- main --------------------------------------------------------------------

  datatype Request = Request(path: string, params: seq<(string, string)>)

  /** How a run ends, besides its exit status. */
  datatype Notice = Usage | MissingPrompt | Crash | Unreachable | AuthDone | Replied

  datatype Outcome = Outcome(status: int, sent: seq<Request>, notice: Notice)

  const Controls: map<string, string> := map["--next" := "/next", "--pause" := "/pause", "--stop" := "/stop"]

  /** The `/play` parameters before `req` filters them, in the order `main` lists them. */
  function PlayParams(prompt: string, f: Flags): seq<(string, Option<string>)> {
    [("q", Some(prompt)), ("seed", f.seed), ("mood", f.mood), ("lang", f.lang), ("mix", f.mix),
     ("vibe", f.vibe), ("n", f.n), ("ttl", f.ttl), ("avoid", f.avoid)]
  }

  /** `main` on the arguments after the program name. */
  function RunMain(args: seq<string>, daemonUp: bool, authOk: bool): (r: Outcome)
    ensures args == [] ==> r == Outcome(1, [], Usage)
    ensures r.status == 2 <==> r.notice == Unreachable
    ensures r.notice == Unreachable ==> r.sent == []
    ensures |r.sent| <= 1
  {
    if args == [] then Outcome(1, [], Usage)
    else if args[0] == "--auth" then Outcome(if authOk then 0 else 1, [], AuthDone)
    else if args[0] == "--health" then Outcome(0, [Request("/health", [])], Replied)
    else if args[0] in Controls then Outcome(0, [Request(Controls[args[0]], [])], Replied)
    else
      var words := if args[0] == "--play" then args[1..] else args;
      if words == [] then Outcome(1, [], MissingPrompt)
      else match ParseFlags(words, NoFlags, [])
        case None => Outcome(1, [], Crash)
        case Some(p) =>
          var prompt := Strip(Join(p.rest, " "));
          if prompt == [] then Outcome(1, [], MissingPrompt)
          else if !daemonUp then Outcome(2, [], Unreachable)
          else Outcome(0, [Request("/play", FilterParams(PlayParams(prompt, p.flags)))], Replied)
  }

  /** `--next`, `--pause` and `--stop` send one request to `/next`, `/pause` and
      `/stop`, whatever follows them, and succeed. */
  lemma ControlFlags(args: seq<string>, daemonUp: bool, authOk: bool)
    requires args != [] && args[0] in {"--next", "--pause", "--stop"}
    ensures var r := RunMain(args, daemonUp, authOk);
            r.status == 0 && |r.sent| == 1 && r.sent[0].path == "/" + args[0][2..]
  {
    var a := args[0];
    if a == "--next" { assert a[2..] == "next"; }
    else if a == "--pause" { assert a[2..] == "pause"; }
    else { assert a[2..] == "stop"; }
  }

  /** A `/play` request is sent only when the prompt words are not blank and the
      daemon is up, and it carries the prompt, stripped and non-empty, as its
      first parameter. Without a request the status is 1 or 2. */
  lemma PlayRequest(args: seq<string>, daemonUp: bool, authOk: bool)
    requires args != [] && args[0] !in {"--auth", "--health", "--next", "--pause", "--stop"}
    ensures var r := RunMain(args, daemonUp, authOk);
            && (r.sent != [] ==> daemonUp && r.status == 0 && r.sent[0].path == "/play"
                                 && r.sent[0].params != [] && r.sent[0].params[0].0 == "q"
                                 && r.sent[0].params[0].1 != [] && Strip(r.sent[0].params[0].1) == r.sent[0].params[0].1)
            && (r.sent == [] ==> r.status == 1 || r.status == 2)
  {
    var r := RunMain(args, daemonUp, authOk);
    var words := if args[0] == "--play" then args[1..] else args;
    if r.sent != [] {
      var p := ParseFlags(words, NoFlags, []).value;
      var prompt := Strip(Join(p.rest, " "));
      var ps := PlayParams(prompt, p.flags);
      assert FilterParams(ps) == [("q", prompt)] + FilterParams(ps[1..]);
    }
  }

  /** `--play` with nothing after it ends with status 1 before anything is sent,
      even when the daemon is down. */
  lemma PlayWithoutPrompt(daemonUp: bool, authOk: bool)
    ensures RunMain(["--play"], daemonUp, authOk) == Outcome(1, [], MissingPrompt)
  {
    assert ["--play"][1..] == [];
  }

  /** Prompt words that are all blank end with status 1 before anything is sent. */
  lemma BlankPromptStatus(args: seq<string>, daemonUp: bool, authOk: bool)
    requires args != [] && args[0] !in {"--auth", "--health", "--next", "--pause", "--stop", "--play"}
    requires PlainWords(args)
    requires IsBlank(Join(args, " "))
    ensures RunMain(args, daemonUp, authOk) == Outcome(1, [], MissingPrompt)
  {
    assert args[0] !in Controls;
    assert [] + args == args;
    PlainWordsParse(args, NoFlags, []);
    assert Strip(Join(args, " ")) == [];
  }

  /** With the daemon down, a run that would send `/play` ends with status 2
      and sends nothing. */
  lemma DaemonDownStatus(args: seq<string>, authOk: bool)
    requires RunMain(args, true, authOk).sent != [] && RunMain(args, true, authOk).sent[0].path == "/play"
    ensures RunMain(args, false, authOk) == Outcome(2, [], Unreachable)
  {
  }

  /** Each option is listed among the `/play` parameters under its name
      without the dashes. */
  lemma PlayParamsHasFlag(prompt: string, f: Flags, flag: string)
    requires IsFlag(flag)
    ensures (flag[2..], Get(f, flag)) in PlayParams(prompt, f)
  {
    var ps := PlayParams(prompt, f);
    if flag == "--seed" { assert flag[2..] == "seed" && ps[1] == ("seed", f.seed); }
    else if flag == "--mood" { assert flag[2..] == "mood" && ps[2] == ("mood", f.mood); }
    else if flag == "--lang" { assert flag[2..] == "lang" && ps[3] == ("lang", f.lang); }
    else if flag == "--mix" { assert flag[2..] == "mix" && ps[4] == ("mix", f.mix); }
    else if flag == "--vibe" { assert flag[2..] == "vibe" && ps[5] == ("vibe", f.vibe); }
    else if flag == "--n" { assert flag[2..] == "n" && ps[6] == ("n", f.n); }
    else if flag == "--ttl" { assert flag[2..] == "ttl" && ps[7] == ("ttl", f.ttl); }
    else { assert flag[2..] == "avoid" && ps[8] == ("avoid", f.avoid); }
  }

  /** The parameters with no value are all dropped. */
  lemma {:induction false} FilterAbsent(ps: seq<(string, Option<string>)>)
    requires forall i :: 0 <= i < |ps| ==> ps[i].1.None?
    ensures FilterParams(ps) == []
    decreases |ps|
  {
    if ps != [] {
      assert forall i :: 0 <= i < |ps[1..]| ==> ps[1..][i] == ps[i + 1];
      FilterAbsent(ps[1..]);
    }
  }

  /** The prompt always leads the `/play` parameters. */
  lemma PromptFirst(prompt: string, f: Flags)
    ensures var ps := PlayParams(prompt, f);
            FilterParams(ps) == [("q", prompt)] + FilterParams(ps[1..])
  {
  }

  /** A run that gets past the fixed commands and parses sends what the parse
      gives: the stripped prompt and the options, filtered. */
  lemma RunMainPlay(args: seq<string>, authOk: bool, p: Parsed)
    requires args != [] && args[0] !in {"--auth", "--health", "--next", "--pause", "--stop", "--play"}
    requires ParseFlags(args, NoFlags, []) == Some(p)
    requires Strip(Join(p.rest, " ")) != []
    ensures RunMain(args, true, authOk)
              == Outcome(0, [Request("/play", FilterParams(PlayParams(Strip(Join(p.rest, " ")), p.flags)))], Replied)
  {
    assert args[0] !in Controls;
  }

  /** Words without options, not all blank, with the daemon up: one `/play`
      request whose only parameter is the words joined by single spaces and
      stripped. */
  lemma PlainPromptRequest(args: seq<string>, authOk: bool)
    requires args != [] && args[0] !in {"--auth", "--health", "--next", "--pause", "--stop", "--play"}
    requires PlainWords(args)
    requires !IsBlank(Join(args, " "))
    ensures RunMain(args, true, authOk) == Outcome(0, [Request("/play", [("q", Strip(Join(args, " ")))])], Replied)
  {
    assert [] + args == args;
    PlainWordsParse(args, NoFlags, []);
    RunMainPlay(args, authOk, Parsed(NoFlags, args));
    NoFlagsSendPromptOnly(Strip(Join(args, " ")));
  }

  /** The option parameters of a run that gave no option. */
  const AbsentOptions: seq<(string, Option<string>)> :=
    [("seed", None), ("mood", None), ("lang", None), ("mix", None),
     ("vibe", None), ("n", None), ("ttl", None), ("avoid", None)]

  lemma NoFlagsParams(prompt: string)
    ensures PlayParams(prompt, NoFlags) == [("q", Some(prompt))] + AbsentOptions
  {
  }

  lemma AbsentOptionsDropped()
    ensures FilterParams(AbsentOptions) == []
  {
    FilterAbsent(AbsentOptions);
  }

  /** Without options, the prompt is the only parameter sent. */
  lemma NoFlagsSendPromptOnly(prompt: string)
    ensures FilterParams(PlayParams(prompt, NoFlags)) == [("q", prompt)]
  {
    NoFlagsParams(prompt);
    AbsentOptionsDropped();
    PromptFirst(prompt, NoFlags);
    assert PlayParams(prompt, NoFlags)[1..] == AbsentOptions;
  }

  /** An option and its value in front of plain prompt words: the `/play`
      request carries the stripped prompt first and the option's value under
      the option's name. */
  lemma FlagSent(flag: string, x: string, words: seq<string>, authOk: bool)
    requires IsFlag(flag)
    requires PlainWords(words)
    requires !IsBlank(Join(words, " "))
    ensures var r := RunMain([flag, x] + words, true, authOk);
            && r.status == 0 && |r.sent| == 1 && r.sent[0].path == "/play"
            && r.sent[0].params != [] && r.sent[0].params[0] == ("q", Strip(Join(words, " ")))
            && (flag[2..], x) in r.sent[0].params
  {
    var args := [flag, x] + words;
    var f := Set(NoFlags, flag, x);
    FlagTakesNextArgument(flag, x, words, NoFlags, []);
    PlainWordsParse(words, f, []);
    assert [] + words == words;
    RunMainPlay(args, authOk, Parsed(f, words));
    var prompt := Strip(Join(words, " "));
    var ps := PlayParams(prompt, f);
    PromptFirst(prompt, f);
    PlayParamsHasFlag(prompt, f, flag);
    var i :| 0 <= i < |ps| && ps[i] == (flag[2..], Some(x));
    assert (flag[2..], x) in FilterParams(ps);
  }
}

=== FILE: daemon.dfy ===
/** The request side of the prototype daemon `src/ytplayd.py`: the votes table,
    the selection of playable tracks in `handle_play`, the commands sent to mpv,
    and the routing and validation of `do_GET`.

    The outside world is a parameter: the curator's reply for this request, the
    search results, the stream URL each video id resolves to (`yt-dlp`), and the
    clock. The SQLite tables are maps and sequences inside a `State` record, and
    the commands sent to mpv are appended to a log in the same record. */
module Daemon {
  import opened Wrappers
  import opened Text
  import opened PromptCache
  import opened QueryString
  import opened TrackPicker
  import opened EnvFile

  /** The texts read for `YTP_MAX_TRACKS` and `YTP_CACHE_TTL_HOURS` when the
      environment does not set them. */
  const MaxTracksDefault := "25"
  const CacheTtlHoursDefault := "72"
  /** How many tracks of the queue a `/play` reply lists. */
  const QueueReplyLimit := 20

  // ---- votes ---------------------------------------------------------------

  datatype VoteRow = VoteRow(title: string, artist: string, vote: int, updatedAt: int)

  /** The `votes` table, keyed by its primary key `videoId`. */
  type VoteTable = map<string, VoteRow>

  /** `vote`: `INSERT OR REPLACE` of the whole row, stamped with `now`. */
  function RecordVote(table: VoteTable, videoId: string, title: string, artist: string, v: int, now: int): (r: VoteTable)
    ensures r.Keys == table.Keys + {videoId}
    ensures r[videoId] == VoteRow(title, artist, v, now)
    ensures forall k :: k in table && k != videoId ==> r[k] == table[k]
  {
    table[videoId := VoteRow(title, artist, v, now)]
  }

  /** `get_votes`: video id to vote, for every row of the table. */
  function GetVotes(table: VoteTable): (r: Votes)
    ensures r.Keys == table.Keys
    ensures forall k :: k in r ==> r[k] == table[k].vote
  {
    map k | k in table :: table[k].vote
  }

  /** Voting twice on the same video keeps only the second vote; other videos'
      votes are untouched. */
  lemma LastVoteWins(table: VoteTable, id: string, t1: string, a1: string, v1: int, n1: int,
                     t2: string, a2: string, v2: int, n2: int)
    ensures var twice := RecordVote(RecordVote(table, id, t1, a1, v1, n1), id, t2, a2, v2, n2);
            twice == RecordVote(table, id, t2, a2, v2, n2)
            && VoteOf(GetVotes(twice), id) == v2
            && forall k :: k != id ==> VoteOf(GetVotes(twice), k) == VoteOf(GetVotes(table), k)
  {
    var twice := RecordVote(RecordVote(table, id, t1, a1, v1, n1), id, t2, a2, v2, n2);
    assert twice == RecordVote(table, id, t2, a2, v2, n2);
  }

  // ---- mpv -----------------------------------------------------------------

  datatype LoadMode = Replace | AppendPlay

  /** The JSON IPC commands the daemon sends: `loadfile`, `cycle pause`,
      `playlist-next force` and `stop`. */
  datatype MpvCommand = LoadFile(url: string, mode: LoadMode) | CyclePause | PlaylistNext | Stop

  /** `MPVController.load_and_play`: nothing for no URLs, otherwise the first URL
      replaces whatever plays and the others are appended. */
  function LoadAndPlay(urls: seq<string>): (r: seq<MpvCommand>)
    ensures |r| == |urls|
    ensures forall i :: 0 <= i < |r| ==> r[i] == LoadFile(urls[i], if i == 0 then Replace else AppendPlay)
  {
    if urls == [] then []
    else [LoadFile(urls[0], Replace)] + Appends(urls[1..])
  }

  function Appends(urls: seq<string>): (r: seq<MpvCommand>)
    ensures |r| == |urls|
    ensures forall i :: 0 <= i < |r| ==> r[i] == LoadFile(urls[i], AppendPlay)
  {
    seq(|urls|, i requires 0 <= i < |urls| => LoadFile(urls[i], AppendPlay))
  }

  /** mpv's playlist after a run of `loadfile` commands: `replace` starts a new
      playlist with the file, `append-play` adds it at the end. */
  function PlaylistAfter(playlist: seq<string>, cmds: seq<MpvCommand>): seq<string>
    requires forall i :: 0 <= i < |cmds| ==> cmds[i].LoadFile?
    decreases |cmds|
  {
    if cmds == [] then playlist
    else
      var next := if cmds[0].mode == Replace then [cmds[0].url] else playlist + [cmds[0].url];
      PlaylistAfter(next, cmds[1..])
  }

  /** Whatever mpv was playing, after `load_and_play(urls)` with at least one URL
      its playlist is exactly `urls`, in order. */
  lemma LoadAndPlaySetsPlaylist(playlist: seq<string>, urls: seq<string>)
    requires urls != []
    ensures PlaylistAfter(playlist, LoadAndPlay(urls)) == urls
  {
    var cmds := LoadAndPlay(urls);
    assert cmds[1..] == Appends(urls[1..]);
    AppendsExtend([urls[0]], urls[1..]);
    assert [urls[0]] + urls[1..] == urls;
  }

  lemma {:induction false} AppendsExtend(playlist: seq<string>, urls: seq<string>)
    ensures PlaylistAfter(playlist, Appends(urls)) == playlist + urls
    decreases |urls|
  {
    if urls != [] {
      assert Appends(urls)[1..] == Appends(urls[1..]);
      AppendsExtend(playlist + [urls[0]], urls[1..]);
      assert playlist + [urls[0]] + urls[1..] == playlist + urls;
    }
  }

  // ---- selecting playable tracks --------------------------------------------

  /** Video id to what `yt-dlp --get-url` prints for it, with surrounding
      whitespace already stripped; an absent id is a failed `yt-dlp` run. */
  type Resolver = map<string, string>

  /** `resolve_stream_url`: None when `yt-dlp` failed or printed nothing,
      else the URL it printed. */
  function Resolve(resolve: Resolver, vid: string): (r: Option<string>)
    ensures r.None? <==> vid !in resolve || resolve[vid] == ""
    ensures r.Some? ==> r.value == resolve[vid]
  {
    if vid in resolve && resolve[vid] != "" then Some(resolve[vid]) else None
  }

  datatype Pick = Pick(track: Track, url: string)

  function TracksOf(ps: seq<Pick>): (r: seq<Track>)
    ensures |r| == |ps|
    ensures forall i :: 0 <= i < |ps| ==> r[i] == ps[i].track
  {
    seq(|ps|, i requires 0 <= i < |ps| => ps[i].track)
  }

  function UrlsOf(ps: seq<Pick>): (r: seq<string>)
    ensures |r| == |ps|
    ensures forall i :: 0 <= i < |ps| ==> r[i] == ps[i].url
  {
    seq(|ps|, i requires 0 <= i < |ps| => ps[i].url)
  }

  /** Every track that resolves, with its URL, in track order. */
  function Playable(tracks: seq<Track>, resolve: Resolver): (r: seq<Pick>)
    ensures |r| <= |tracks|
    ensures forall i :: 0 <= i < |r| ==> Resolve(resolve, r[i].track.videoId) == Some(r[i].url)
    decreases |tracks|
  {
    if tracks == [] then []
    else match Resolve(resolve, tracks[0].videoId)
      case Some(u) => [Pick(tracks[0], u)] + Playable(tracks[1..], resolve)
      case None => Playable(tracks[1..], resolve)
  }

  /** The selection loop of `handle_play`: each track is resolved in turn and
      kept when it resolves; the loop stops as soon as `max_tracks` URLs are
      collected, a check made after every track. */
  function SelectPlayable(tracks: seq<Track>, resolve: Resolver, max: int, acc: seq<Pick>): (r: seq<Pick>)
    ensures |acc| <= |r| <= |acc| + |tracks| && r[..|acc|] == acc
    ensures forall i :: |acc| <= i < |r| ==> Resolve(resolve, r[i].track.videoId) == Some(r[i].url)
    decreases |tracks|
  {
    if tracks == [] then acc
    else
      var acc' := match Resolve(resolve, tracks[0].videoId)
        case Some(u) => acc + [Pick(tracks[0], u)]
        case None => acc;
      if |acc'| >= max then acc' else SelectPlayable(tracks[1..], resolve, max, acc')
  }

  /** The loop keeps the first `max_tracks` playable tracks. */
  lemma {:induction false} SelectIsCappedPlayable(tracks: seq<Track>, resolve: Resolver, max: int, acc: seq<Pick>)
    requires |acc| < max
    ensures SelectPlayable(tracks, resolve, max, acc) == acc + PyPrefix(Playable(tracks, resolve), max - |acc|)
    decreases |tracks|
  {
    if tracks != [] {
      match Resolve(resolve, tracks[0].videoId)
      case Some(u) =>
        var acc' := acc + [Pick(tracks[0], u)];
        if |acc'| < max {
          SelectIsCappedPlayable(tracks[1..], resolve, max, acc');
        }
      case None =>
        SelectIsCappedPlayable(tracks[1..], resolve, max, acc);
    }
  }

  /** A cap of zero or less still lets the first track through: the check
      comes after it. */
  lemma SelectNonPositiveCap(tracks: seq<Track>, resolve: Resolver, max: int)
    requires max <= 0
    ensures SelectPlayable(tracks, resolve, max, []) == Playable(PyPrefix(tracks, 1), resolve)
  {
    if tracks != [] {
      assert PyPrefix(tracks, 1) == [tracks[0]];
      assert [tracks[0]][1..] == [];
    }
  }

  /** The playable tracks are the tracks in their original order with the
      unresolvable ones left out. */
  lemma {:induction false} PlayableInOrder(tracks: seq<Track>, resolve: Resolver)
    ensures IsSubseq(TracksOf(Playable(tracks, resolve)), tracks)
    decreases |tracks|
  {
    if tracks != [] {
      PlayableInOrder(tracks[1..], resolve);
      var rest := Playable(tracks[1..], resolve);
      match Resolve(resolve, tracks[0].videoId)
      case Some(u) =>
        assert TracksOf([Pick(tracks[0], u)] + rest)[1..] == TracksOf(rest);
      case None =>
    }
  }

  /** Every track that resolves is kept (when the cap does not cut it off). */
  lemma {:induction false} PlayableComplete(tracks: seq<Track>, resolve: Resolver)
    ensures forall i :: 0 <= i < |tracks| && Resolve(resolve, tracks[i].videoId).Some? ==>
              tracks[i] in TracksOf(Playable(tracks, resolve))
    decreases |tracks|
  {
    if tracks != [] {
      PlayableComplete(tracks[1..], resolve);
      var rest := Playable(tracks[1..], resolve);
      forall i | 0 <= i < |tracks| && Resolve(resolve, tracks[i].videoId).Some?
        ensures tracks[i] in TracksOf(Playable(tracks, resolve))
      {
        var all := TracksOf(Playable(tracks, resolve));
        if i == 0 {
          assert all[0] == tracks[0];
        } else {
          assert tracks[1..][i - 1] == tracks[i];
          var k :| 0 <= k < |rest| && TracksOf(rest)[k] == tracks[i];
          match Resolve(resolve, tracks[0].videoId)
          case Some(u) =>
            assert all[k + 1] == rest[k].track;
          case None =>
            assert all[k] == rest[k].track;
        }
      }
    }
  }

  // ---- handle_play -----------------------------------------------------------

  /** The request parameters `do_GET` hands to `handle_play`. */
  datatype Extras = Extras(lang: Option<string>, mood: Option<string>, seed: Option<string>,
                           maxTracks: int, ttlHours: int, avoid: seq<string>)

  /** The curator's reply (`llm_curate`). */
  datatype Curated = Curated(searchQueries: seq<string>, avoidTerms: seq<string>, notes: string)

  /** What the prompt cache stores per key. */
  datatype Payload = Payload(curated: Curated, tracks: seq<Track>)

  datatype HistoryRow = HistoryRow(videoId: string, title: string, artist: string, playedAt: int)

  /** The daemon's tables and the commands it has sent to mpv so far. */
  datatype State = State(cache: Store<Payload>, votes: VoteTable, history: seq<HistoryRow>, mpv: seq<MpvCommand>)

  /** Everything the daemon asks the outside world during one request. The
      clock is read more than once: `now` at the cache lookup (or for a vote's
      stamp), `putAt` when `cache_put` writes after curation and search, and
      `playedAt` for the history row after every `yt-dlp` run. The wall clock
      may be set back between readings, so no order among them is assumed. */
  datatype World = World(curated: Curated, search: Search, resolve: Resolver, now: int, putAt: int, playedAt: int)

  datatype PlayReply = PlayReply(count: nat, queue: seq<Track>)

  datatype PlayOutcome = PlayOutcome(state: State, reply: PlayReply)

  /** The cache key: the prompt, a newline, then the extras as sorted-key JSON
      (`extrasJson`; JSON encoding is outside the model). */
  function CacheKey(prompt: string, extrasJson: string): string {
    prompt + "\n" + extrasJson
  }

  /** The tracks `handle_play` works from: the cached ones on a hit, otherwise
      freshly picked from the curator's queries by `pick_tracks` as written. */
  function ChosenTracks(st: State, key: string, extras: Extras, w: World): (r: seq<Track>)
    ensures CacheGet(st.cache, key, extras.ttlHours, w.now).hit.Some? ==> r == st.cache[key].payload.tracks
    ensures CacheGet(st.cache, key, extras.ttlHours, w.now).hit.None? ==>
              && DistinctIds(r)
              && forall i :: 0 <= i < |r| ==> r[i].videoId != "" && VoteOf(GetVotes(st.votes), r[i].videoId) >= 0
  {
    match CacheGet(st.cache, key, extras.ttlHours, w.now).hit
    case Some(p) => p.tracks
    case None =>
      var votes := GetVotes(st.votes);
      PickTracksAsWrittenDistinctAndLiked(w.search, w.curated.searchQueries, extras.seed, votes, extras.maxTracks);
      PickTracksAsWritten(w.search, w.curated.searchQueries, extras.seed, votes, extras.maxTracks)
  }

  /** On a cache miss the fresh picks hold no video id twice and no disliked
      track, and for a cap above one they are exactly what the corrected picker
      returns: the overshoot needs `n` of one or less. */
  lemma ChosenTracksOnMiss(st: State, key: string, extras: Extras, w: World)
    requires CacheGet(st.cache, key, extras.ttlHours, w.now).hit.None?
    ensures var r := ChosenTracks(st, key, extras, w);
            && DistinctIds(r)
            && (forall i :: 0 <= i < |r| ==> r[i].videoId != "" && VoteOf(GetVotes(st.votes), r[i].videoId) >= 0)
            && (extras.maxTracks > 1 ==>
                  r == PickTracks(w.search, w.curated.searchQueries, extras.seed, GetVotes(st.votes), extras.maxTracks))
  {
    var votes := GetVotes(st.votes);
    PickTracksAsWrittenDistinctAndLiked(w.search, w.curated.searchQueries, extras.seed, votes, extras.maxTracks);
    if extras.maxTracks > 1 {
      PickTracksAsWrittenAgrees(w.search, w.curated.searchQueries, extras.seed, votes, extras.maxTracks);
    }
  }

  function HistoryRows(ts: seq<Track>, now: int): (r: seq<HistoryRow>)
    ensures |r| == |ts|
  {
    seq(|ts|, i requires 0 <= i < |ts| => HistoryRow(ts[i].videoId, ts[i].title, ts[i].artist, now))
  }

  /** `handle_play`: the cache lookup (and, on a miss, curation, picking and a
      cache write), the selection of playable tracks, the mpv commands, the one
      history row, and the reply. */
  function HandlePlay(st: State, prompt: string, extras: Extras, extrasJson: string, w: World): (r: PlayOutcome)
    ensures r.state.votes == st.votes
    ensures |r.reply.queue| <= QueueReplyLimit && |r.reply.queue| <= r.reply.count
    ensures r.reply.count > 0 ==> |r.reply.queue| >= 1
    ensures extras.maxTracks >= 1 ==> r.reply.count <= extras.maxTracks
    ensures r.reply.count <= |ChosenTracks(st, CacheKey(prompt, extrasJson), extras, w)|
    ensures forall i :: 0 <= i < |r.reply.queue| ==> Resolve(w.resolve, r.reply.queue[i].videoId).Some?
    ensures |r.state.history| == |st.history| + (if r.reply.count > 0 then 1 else 0)
    ensures r.state.history[..|st.history|] == st.history
    ensures r.reply.count > 0 ==>
              var t := r.reply.queue[0];
              r.state.history[|st.history|] == HistoryRow(t.videoId, t.title, t.artist, w.playedAt)
    ensures |r.state.mpv| == |st.mpv| + r.reply.count
    ensures r.state.mpv[..|st.mpv|] == st.mpv
    ensures CacheKey(prompt, extrasJson) in r.state.cache
  {
    var key := CacheKey(prompt, extrasJson);
    var look := CacheGet(st.cache, key, extras.ttlHours, w.now);
    var tracks := ChosenTracks(st, key, extras, w);
    var cache' := match look.hit
      case Some(_) => look.store
      case None => CachePut(look.store, key, Payload(w.curated, tracks), w.putAt);
    var picks := SelectPlayable(tracks, w.resolve, extras.maxTracks, []);
    SelectBounds(tracks, w.resolve, extras.maxTracks);
    var playable := TracksOf(picks);
    var history := st.history + HistoryRows(PyPrefix(playable, 1), w.playedAt);
    var mpv := st.mpv + LoadAndPlay(UrlsOf(picks));
    assert mpv[..|st.mpv|] == st.mpv;
    PlayOutcome(State(cache', st.votes, history, mpv),
                PlayReply(|playable|, PyPrefix(playable, QueueReplyLimit)))
  }

  /** What the selection loop can return, whatever the cap. */
  lemma SelectBounds(tracks: seq<Track>, resolve: Resolver, max: int)
    ensures var ps := SelectPlayable(tracks, resolve, max, []);
            |ps| <= |tracks|
            && (max >= 1 ==> |ps| <= max)
            && forall i :: 0 <= i < |ps| ==> Resolve(resolve, ps[i].track.videoId) == Some(ps[i].url)
  {
    var ps := SelectPlayable(tracks, resolve, max, []);
    if max >= 1 {
      SelectIsCappedPlayable(tracks, resolve, max, []);
      assert ps == PyPrefix(Playable(tracks, resolve), max);
    } else {
      SelectNonPositiveCap(tracks, resolve, max);
      var p1 := PyPrefix(tracks, 1);
      assert |Playable(p1, resolve)| <= |p1|;
    }
  }

  /** The reply lists the playable tracks, in the order the picker or the cache
      gave them, capped at `max_tracks` (for a cap of at least one). */
  lemma HandlePlayQueue(st: State, prompt: string, extras: Extras, extrasJson: string, w: World)
    requires extras.maxTracks >= 1
    ensures var tracks := ChosenTracks(st, CacheKey(prompt, extrasJson), extras, w);
            var all := TracksOf(PyPrefix(Playable(tracks, w.resolve), extras.maxTracks));
            var r := HandlePlay(st, prompt, extras, extrasJson, w);
            r.reply.count == |all| && r.reply.queue == PyPrefix(all, QueueReplyLimit)
  {
    var tracks := ChosenTracks(st, CacheKey(prompt, extrasJson), extras, w);
    HandlePlayReply(st, prompt, extras, extrasJson, w);
    SelectIsCappedPlayable(tracks, w.resolve, extras.maxTracks, []);
  }

  /** The reply is made of the tracks the selection loop returns. */
  lemma HandlePlayReply(st: State, prompt: string, extras: Extras, extrasJson: string, w: World)
    ensures var tracks := ChosenTracks(st, CacheKey(prompt, extrasJson), extras, w);
            var playable := TracksOf(SelectPlayable(tracks, w.resolve, extras.maxTracks, []));
            HandlePlay(st, prompt, extras, extrasJson, w).reply == PlayReply(|playable|, PyPrefix(playable, QueueReplyLimit))
  {
  }

  /** The cache entry after `handle_play`: on a hit, stamped as last used at
      the lookup and otherwise as it was; on a miss, rewritten with the
      curator's reply and the fresh picks, both stamps taken when `cache_put`
      reads the clock. */
  lemma HandlePlayCacheEntry(st: State, prompt: string, extras: Extras, extrasJson: string, w: World)
    ensures var key := CacheKey(prompt, extrasJson);
            var e := HandlePlay(st, prompt, extras, extrasJson, w).state.cache[key];
            var hit := CacheGet(st.cache, key, extras.ttlHours, w.now).hit;
            && (hit.Some? ==> e == st.cache[key].(lastUsedAt := w.now, uses := st.cache[key].uses + 1))
            && (hit.None? ==>
                  && e.payload == Payload(w.curated, ChosenTracks(st, key, extras, w))
                  && e.createdAt == w.putAt && e.lastUsedAt == w.putAt)
  {
  }

  /** The commands `handle_play` adds to mpv's log: one `loadfile` per selected
      track, in reply order, with the URL `yt-dlp` gave for it; the first
      replaces whatever played and the others are appended. */
  lemma HandlePlayLoads(st: State, prompt: string, extras: Extras, extrasJson: string, w: World, i: nat)
    requires i < |HandlePlay(st, prompt, extras, extrasJson, w).reply.queue|
    ensures var r := HandlePlay(st, prompt, extras, extrasJson, w);
            && |st.mpv| + i < |r.state.mpv|
            && Resolve(w.resolve, r.reply.queue[i].videoId).Some?
            && r.state.mpv[|st.mpv| + i]
                 == LoadFile(Resolve(w.resolve, r.reply.queue[i].videoId).value, if i == 0 then Replace else AppendPlay)
  {
    var tracks := ChosenTracks(st, CacheKey(prompt, extrasJson), extras, w);
    var picks := SelectPlayable(tracks, w.resolve, extras.maxTracks, []);
    SelectBounds(tracks, w.resolve, extras.maxTracks);
    var r := HandlePlay(st, prompt, extras, extrasJson, w);
    var cmds := LoadAndPlay(UrlsOf(picks));
    assert r.state.mpv == st.mpv + cmds;
    assert r.reply.queue == PyPrefix(TracksOf(picks), QueueReplyLimit);
    assert r.reply.queue[i] == picks[i].track;
    assert r.state.mpv[|st.mpv| + i] == cmds[i];
  }

  /** With a cap of at least one, mpv afterwards plays exactly the URLs of the
      first `max_tracks` playable tracks, whatever it played before; with no
      playable track it is left alone. */
  lemma HandlePlayPlaylist(st: State, prompt: string, extras: Extras, extrasJson: string, w: World,
                           playlist: seq<string>)
    requires extras.maxTracks >= 1
    ensures var tracks := ChosenTracks(st, CacheKey(prompt, extrasJson), extras, w);
            var urls := UrlsOf(PyPrefix(Playable(tracks, w.resolve), extras.maxTracks));
            var r := HandlePlay(st, prompt, extras, extrasJson, w);
            PlaylistAfter(playlist, r.state.mpv[|st.mpv|..]) == if urls == [] then playlist else urls
  {
    var tracks := ChosenTracks(st, CacheKey(prompt, extrasJson), extras, w);
    var picks := SelectPlayable(tracks, w.resolve, extras.maxTracks, []);
    SelectIsCappedPlayable(tracks, w.resolve, extras.maxTracks, []);
    assert picks == PyPrefix(Playable(tracks, w.resolve), extras.maxTracks);
    var urls := UrlsOf(picks);
    var cmds := LoadAndPlay(urls);
    var r := HandlePlay(st, prompt, extras, extrasJson, w);
    assert r.state.mpv == st.mpv + cmds;
    assert r.state.mpv[|st.mpv|..] == cmds;
    if urls != [] {
      LoadAndPlaySetsPlaylist(playlist, urls);
    }
  }

  /** A second identical request within the time-to-live of a first one that
      missed the cache is served from the cache: the same tracks are chosen,
      whatever the curator and the search would now say. */
  lemma HandlePlayReplaysCache(st: State, prompt: string, extras: Extras, extrasJson: string, w1: World, w2: World)
    requires CacheKey(prompt, extrasJson) !in st.cache
    requires w1.putAt <= w2.now <= w1.putAt + extras.ttlHours * 3600
    ensures var st2 := HandlePlay(st, prompt, extras, extrasJson, w1).state;
            ChosenTracks(st2, CacheKey(prompt, extrasJson), extras, w2)
              == ChosenTracks(st, CacheKey(prompt, extrasJson), extras, w1)
  {
    var key := CacheKey(prompt, extrasJson);
    var tracks := ChosenTracks(st, key, extras, w1);
    var st2 := HandlePlay(st, prompt, extras, extrasJson, w1).state;
    assert st2.cache == CachePut(st.cache, key, Payload(w1.curated, tracks), w1.putAt);
    PutThenGet(st.cache, key, Payload(w1.curated, tracks), w1.putAt, extras.ttlHours, w2.now);
  }

  // ---- start-up settings -------------------------------------------------------

  /** `MAX_TRACKS_DEFAULT` and `CACHE_TTL_HOURS`, the fallbacks of `/play`'s `n`
      and `ttl`. */
  datatype Config = Config(maxTracks: int, cacheTtlHours: int)

  /** `os.getenv(name, default)`: a set variable is read even when it is empty. */
  function GetEnv(env: Env, name: string, default: string): string {
    if name in env then env[name] else default
  }

  /** The two settings as the daemon reads them at start-up, after its `.env`
      file has been loaded; None when `int()` refuses either one, which stops
      the daemon before it serves anything. */
  function ReadConfig(env: Env): (r: Option<Config>)
    ensures r.Some? <==> ParseInt(GetEnv(env, "YTP_MAX_TRACKS", MaxTracksDefault)).Some?
                         && ParseInt(GetEnv(env, "YTP_CACHE_TTL_HOURS", CacheTtlHoursDefault)).Some?
    ensures r.Some? ==> Some(r.value.maxTracks) == ParseInt(GetEnv(env, "YTP_MAX_TRACKS", MaxTracksDefault))
                        && Some(r.value.cacheTtlHours) == ParseInt(GetEnv(env, "YTP_CACHE_TTL_HOURS", CacheTtlHoursDefault))
  {
    match (ParseInt(GetEnv(env, "YTP_MAX_TRACKS", MaxTracksDefault)),
           ParseInt(GetEnv(env, "YTP_CACHE_TTL_HOURS", CacheTtlHoursDefault)))
    case (Some(n), Some(ttl)) => Some(Config(n, ttl))
    case _ => None
  }

  /** The fallback texts read as 25 and 72. */
  lemma DefaultMaxTracks()
    ensures ParseInt(MaxTracksDefault) == Some(25)
  {
    ParseIntDigits("25");
    assert "25"[..1] == "2" && "2"[..0] == [];
  }

  lemma DefaultTtl()
    ensures ParseInt(CacheTtlHoursDefault) == Some(72)
  {
    ParseIntDigits("72");
    assert "72"[..1] == "7" && "7"[..0] == [];
  }

  /** An environment that sets neither variable gives 25 tracks and 72 hours. */
  lemma DefaultConfig(env: Env)
    requires "YTP_MAX_TRACKS" !in env && "YTP_CACHE_TTL_HOURS" !in env
    ensures ReadConfig(env) == Some(Config(25, 72))
  {
    DefaultMaxTracks();
    DefaultTtl();
  }

  // ---- do_GET ----------------------------------------------------------------

  datatype Body = OkBody | ErrorBody(error: string) | PlayBody(count: nat, queue: seq<Track>)

  datatype Reply = Reply(code: int, body: Body)

  datatype Response = Response(state: State, reply: Reply)

  /** The text of the 500 reply for a parameter `int()` rejects (Python's own
      `ValueError` message is not modelled). */
  const BadInteger := "invalid literal for int()"

  /** The `extras` dictionary `/play` builds, or None when `n` or `ttl` is not an integer. */
  function PlayExtras(qs: Query, cfg: Config): (r: Option<Extras>)
    ensures r.Some? <==> IntParam(qs, "n", cfg.maxTracks).Some? && IntParam(qs, "ttl", cfg.cacheTtlHours).Some?
  {
    match IntParam(qs, "n", cfg.maxTracks)
    case None => None
    case Some(n) =>
      match IntParam(qs, "ttl", cfg.cacheTtlHours)
      case None => None
      case Some(ttl) =>
        var avoid := match Param(qs, "avoid") case Some(a) => Split(a, ',') case None => [];
        Some(Extras(Param(qs, "lang"), Param(qs, "mood"), Param(qs, "seed"), n, ttl, avoid))
  }

  function Ok(st: State): Response {
    Response(st, Reply(200, OkBody))
  }

  /** `do_GET`, with the settings read at start-up. `encode` renders the extras
      as the sorted-key JSON of the cache key. */
  function HandleGet(st: State, path: string, qs: Query, encode: Extras -> string, w: World, cfg: Config): (r: Response)
  {
    if path == "/health" then Ok(st)
    else if path == "/play" then
      var prompt := Strip(Param(qs, "q").GetOr(""));
      if prompt == [] then Response(st, Reply(400, ErrorBody("missing q")))
      else match PlayExtras(qs, cfg)
        case None => Response(st, Reply(500, ErrorBody(BadInteger)))
        case Some(extras) =>
          var out := HandlePlay(st, prompt, extras, encode(extras), w);
          Response(out.state, Reply(200, PlayBody(out.reply.count, out.reply.queue)))
    else if path == "/pause" then Ok(st.(mpv := st.mpv + [CyclePause]))
    else if path == "/next" then Ok(st.(mpv := st.mpv + [PlaylistNext]))
    else if path == "/stop" then Ok(st.(mpv := st.mpv + [Stop]))
    else if path == "/vote" then
      var vid := Param(qs, "id").GetOr("");
      match IntParam(qs, "v", 0)
      case None => Response(st, Reply(500, ErrorBody(BadInteger)))
      case Some(v) =>
        var title := Param(qs, "title").GetOr("");
        var artist := Param(qs, "artist").GetOr("");
        if vid == "" || (v != -1 && v != 1) then Response(st, Reply(400, ErrorBody("need id and v=1|-1")))
        else Ok(st.(votes := RecordVote(st.votes, vid, title, artist, v, w.now)))
    else Response(st, Reply(404, ErrorBody("not found")))
  }

  /** `/vote` succeeds exactly when `id` is given and `v` is 1 or -1, and then
      records that vote; a `v` that is not an integer is a 500 even without an
      `id`; nothing but the votes table ever changes. */
  lemma VoteRoute(st: State, qs: Query, encode: Extras -> string, w: World, cfg: Config)
    ensures var r := HandleGet(st, "/vote", qs, encode, w, cfg);
            var vid := Param(qs, "id").GetOr("");
            var v := IntParam(qs, "v", 0);
            && (r.reply.code == 200 <==> vid != "" && (v == Some(1) || v == Some(-1)))
            && (r.reply.code == 500 <==> v.None?)
            && (r.reply.code == 400 <==> v.Some? && (vid == "" || (v.value != 1 && v.value != -1)))
            && (r.reply.code == 200 ==> VoteOf(GetVotes(r.state.votes), vid) == v.value)
            && (r.reply.code != 200 ==> r.state == st)
            && r.state.cache == st.cache && r.state.history == st.history && r.state.mpv == st.mpv
  {
  }

  /** `/play` is refused with 400 when `q` is missing or blank, before the
      integer parameters are read; with 500 when `n` or `ttl` is not an integer;
      refusals change nothing. */
  lemma PlayRoute(st: State, qs: Query, encode: Extras -> string, w: World, cfg: Config)
    ensures var r := HandleGet(st, "/play", qs, encode, w, cfg);
            var q := Strip(Param(qs, "q").GetOr(""));
            && (r.reply.code == 400 <==> q == [])
            && (r.reply.code == 500 <==> q != [] && PlayExtras(qs, cfg).None?)
            && (r.reply.code == 200 <==> q != [] && PlayExtras(qs, cfg).Some?)
            && (r.reply.code != 200 ==> r.state == st)
            && (r.reply.code == 200 ==> r.state.votes == st.votes)
  {
  }

  /** Without `n` and `ttl` the start-up settings apply (25 and 72 unless the
      environment says otherwise); `avoid` is split at commas, and is empty when
      absent. */
  lemma PlayExtrasDefaults(qs: Query, cfg: Config)
    requires Param(qs, "n").None? && Param(qs, "ttl").None?
    ensures PlayExtras(qs, cfg).Some?
    ensures PlayExtras(qs, cfg).value.maxTracks == cfg.maxTracks && PlayExtras(qs, cfg).value.ttlHours == cfg.cacheTtlHours
    ensures Param(qs, "avoid").None? ==> PlayExtras(qs, cfg).value.avoid == []
    ensures Param(qs, "avoid").Some? ==> Join(PlayExtras(qs, cfg).value.avoid, ",") == Param(qs, "avoid").value
  {
  }

  /** The player controls each send one command; an unknown path is a 404 that
      changes nothing. */
  lemma ControlRoutes(st: State, path: string, qs: Query, encode: Extras -> string, w: World, cfg: Config)
    ensures path == "/pause" ==> HandleGet(st, path, qs, encode, w, cfg) == Ok(st.(mpv := st.mpv + [CyclePause]))
    ensures path == "/next" ==> HandleGet(st, path, qs, encode, w, cfg) == Ok(st.(mpv := st.mpv + [PlaylistNext]))
    ensures path == "/stop" ==> HandleGet(st, path, qs, encode, w, cfg) == Ok(st.(mpv := st.mpv + [Stop]))
    ensures path !in {"/health", "/play", "/pause", "/next", "/stop", "/vote"} ==>
              HandleGet(st, path, qs, encode, w, cfg) == Response(st, Reply(404, ErrorBody("not found")))
  {
  }
}

=== FILE: database_panel.dfy ===
/** The database panel `web/components/database/database-panel.js` (copied into
    `web/app.js`): cell shortening, the page cache key, the pager's status and
    buttons, the newer/older handlers, and the page cache with its per-table
    request counter in `loadDbRows`. The panel's maps become one `Panel` record;
    the request itself is split into its start and the arrival of its answer. */
module DatabasePanel {
  import opened Wrappers
  import opened Text

  /** `DB_PAGE_SIZE`: every page request and every pager call uses it. */
  const DbPageSize := 10

  /** `trimDbValue`'s default length. */
  const CellLength := 140

  datatype Trimmed = Trimmed(text: string, truncated: bool)

  /** `trimDbValue`: a text longer than `maxLen` becomes `value.slice(0,
      maxLen - 3)` and "..." (the slice has Python's prefix semantics, a
      negative end counting from the end). */
  function TrimDbValue(value: string, maxLen: int): (r: Trimmed)
    ensures r.truncated <==> |value| > maxLen
    ensures !r.truncated ==> r.text == value
    ensures r.truncated ==> EndsWith(r.text, "...") && |r.text| - 3 <= |value|
                            && r.text[..|r.text| - 3] == value[..|r.text| - 3]
    ensures r.truncated && maxLen >= 3 ==> |r.text| == maxLen
  {
    if |value| > maxLen then
      var kept := PyPrefix(value, maxLen - 3);
      var t := kept + "...";
      assert t[..|t| - 3] == kept;
      assert t[|t| - 3..] == "...";
      Trimmed(t, true)
    else Trimmed(value, false)
  }

  /** At the default length a long cell keeps 137 characters and "...". */
  lemma TrimDbValueDefault(value: string)
    requires |value| > CellLength
    ensures var r := TrimDbValue(value, CellLength);
            r.truncated && |r.text| == CellLength && r.text == value[..CellLength - 3] + "..."
  {
  }

  // ---- dbCacheKey ------------------------------------------------------------

  /** `dbCacheKey`: `${table}:${offset}:${limit}`. */
  function DbCacheKey(table: string, offset: int, limit: int): string {
    table + ":" + IntToString(offset) + ":" + IntToString(limit)
  }

  /** Reads a key back, taking the last two fields as the numbers, so the
      table name may itself hold colons. */
  function ReadCacheKey(key: string): Option<(string, int, int)> {
    var p := Split(key, ':');
    if |p| < 3 then None
    else match (ParseInt(p[|p| - 2]), ParseInt(p[|p| - 1]))
      case (Some(o), Some(l)) => Some((Join(p[..|p| - 2], ":"), o, l))
      case _ => None
  }

  lemma IntHasNoColon(i: int)
    ensures ':' !in IntToString(i)
  {
    var d := NatToString(if i < 0 then -i else i);
    assert forall k :: 0 <= k < |d| ==> IsDigit(d[k]);
    if i < 0 {
      assert IntToString(i) == "-" + d;
    }
  }

  lemma SplitPlain(s: string)
    requires ':' !in s
    ensures Split(s, ':') == [s]
  {
  }

  lemma CacheKeyFields(table: string, offset: int, limit: int)
    ensures Split(DbCacheKey(table, offset, limit), ':') == Split(table, ':') + [IntToString(offset), IntToString(limit)]
  {
    var o, l := IntToString(offset), IntToString(limit);
    IntHasNoColon(offset);
    IntHasNoColon(limit);
    assert DbCacheKey(table, offset, limit) == table + [':'] + (o + [':'] + l);
    calc {
      Split(table + [':'] + (o + [':'] + l), ':');
      == { SplitAround(table, o + [':'] + l, ':'); }
      Split(table, ':') + Split(o + [':'] + l, ':');
      == { SplitAround(o, l, ':'); SplitPlain(o); SplitPlain(l); }
      Split(table, ':') + [o, l];
    }
  }

  /** The key of a page gives back its table, offset and limit. */
  lemma CacheKeyRoundTrip(table: string, offset: int, limit: int)
    ensures ReadCacheKey(DbCacheKey(table, offset, limit)) == Some((table, offset, limit))
  {
    var t := Split(table, ':');
    var p := Split(DbCacheKey(table, offset, limit), ':');
    CacheKeyFields(table, offset, limit);
    assert p[..|p| - 2] == t;
    ParseIntToString(offset);
    ParseIntToString(limit);
  }

  /** Different pages never share a cache entry. */
  lemma CacheKeyInjective(t1: string, o1: int, l1: int, t2: string, o2: int, l2: int)
    requires DbCacheKey(t1, o1, l1) == DbCacheKey(t2, o2, l2)
    ensures t1 == t2 && o1 == o2 && l1 == l2
  {
    CacheKeyRoundTrip(t1, o1, l1);
    CacheKeyRoundTrip(t2, o2, l2);
  }

  // ---- updateDbControls ------------------------------------------------------

  /** `Math.floor(offset / limit) + 1`. */
  function PageNumber(offset: int): (r: int)
    ensures (r - 1) * DbPageSize <= offset < r * DbPageSize
  {
    offset / DbPageSize + 1
  }

  /** `Math.max(1, Math.ceil(total / limit))`. */
  function PageCount(total: int): (r: int)
    ensures r >= 1 && total <= r * DbPageSize
    ensures total > 0 ==> (r - 1) * DbPageSize < total
    ensures total <= 0 ==> r == 1
  {
    var c := -((-total) / DbPageSize);
    if c < 1 then 1 else c
  }

  datatype Controls = Controls(status: string, refreshDisabled: bool, prevDisabled: bool, nextDisabled: bool)

  /** `updateDbControls`; `total` is present when it is a number. */
  function UpdateDbControls(rowCount: nat, total: Option<int>, offset: int, loading: bool): (r: Controls)
    ensures r.refreshDisabled == loading
    ensures r.prevDisabled <==> loading || offset <= 0
    ensures r.nextDisabled <==> loading || (total.Some? && offset + DbPageSize >= total.value)
    ensures loading && total.None? ==> r.status == "loading..."
    ensures loading && total.Some? ==> r.status == "loading... of " + IntToString(PageCount(total.value))
    ensures !loading ==> StartsWith(r.status, "showing " + NatToString(rowCount) + " rows | page " + IntToString(PageNumber(offset)))
    ensures !loading && total.None? ==> r.status == "showing " + NatToString(rowCount) + " rows | page " + IntToString(PageNumber(offset))
    ensures !loading && total.Some? ==>
              r.status == "showing " + NatToString(rowCount) + " rows | page " + IntToString(PageNumber(offset))
                          + " of " + IntToString(PageCount(total.value))
  {
    var shown := if loading then "loading..."
                 else "showing " + NatToString(rowCount) + " rows | page " + IntToString(PageNumber(offset));
    var pages := if total.Some? then " of " + IntToString(PageCount(total.value)) else "";
    var status := shown + pages;
    assert status[..|shown|] == shown && status[|status| - |pages|..] == pages;
    assert total.None? ==> status == shown;
    Controls(status, loading, loading || offset <= 0, loading || (total.Some? && offset + DbPageSize >= total.value))
  }

  /** While "older" is enabled, the page after this one exists: its number is
      at most the page count. */
  lemma NextPageExists(rowCount: nat, total: int, offset: int)
    requires offset >= 0
    requires !UpdateDbControls(rowCount, Some(total), offset, false).nextDisabled
    ensures PageNumber(offset + DbPageSize) == PageNumber(offset) + 1
    ensures PageNumber(offset + DbPageSize) <= PageCount(total)
  {
  }

  // ---- the newer / older handlers ---------------------------------------------

  /** What `loadDbRows` remembers of a table: the page shown and the total. */
  datatype TableState = TableState(offset: int, limit: int, total: Option<int>)

  /** The state a table has before its first page. */
  const Unloaded := TableState(0, DbPageSize, None)

  function StateOf(states: map<string, TableState>, table: string): TableState {
    if table in states then states[table] else Unloaded
  }

  /** The "newer" handler: the previous page, never before the first. */
  function PrevOffset(st: TableState): (r: int)
    ensures r >= 0
    ensures st.offset - st.limit >= 0 ==> r == st.offset - st.limit
  {
    if st.offset - st.limit > 0 then st.offset - st.limit else 0
  }

  /** The "older" handler: the next page, or nothing once it would start at or
      past the total. */
  function NextOffset(st: TableState): (r: Option<int>)
    ensures r.None? <==> st.total.Some? && st.offset + st.limit >= st.total.value
    ensures r.Some? ==> r.value == st.offset + st.limit
  {
    var next := st.offset + st.limit;
    if st.total.Some? && next >= st.total.value then None else Some(next)
  }

  /** The "older" handler does nothing exactly when the idle "older" button is
      disabled. */
  lemma NextHandlerMatchesButton(st: TableState, rowCount: nat)
    requires st.limit == DbPageSize
    ensures NextOffset(st).None? <==> UpdateDbControls(rowCount, st.total, st.offset, false).nextDisabled
  {
  }

  /** "Newer" after "older" is back on the same page. */
  lemma PrevAfterNext(st: TableState)
    requires st.offset >= 0 && st.limit >= 0 && NextOffset(st).Some?
    ensures PrevOffset(st.(offset := NextOffset(st).value)) == st.offset
  {
  }

  // ---- loadDbRows --------------------------------------------------------------

  /** The part of a rows reply the panel keeps: row count, columns, total. */
  datatype PageData = PageData(rowCount: nat, columns: seq<string>, total: Option<int>)

  /** `dbCache`, `dbTableState` and `dbTableSeq`. */
  datatype Panel = Panel(cache: map<string, PageData>, states: map<string, TableState>, seqs: map<string, nat>)

  function SeqOf(seqs: map<string, nat>, table: string): nat {
    if table in seqs then seqs[table] else 0
  }

  /** Starting a load either serves a cached page or sends a request, tagged
      with the table's next sequence number. */
  datatype LoadStart = Served(panel: Panel, data: PageData) | Requested(panel: Panel, ticket: nat, key: string, offset: int)

  /** `Number.isFinite(offset) ? Math.max(0, offset) : 0` for a whole number
      (None when the option is missing or not finite). */
  function RequestedOffset(offset: Option<int>): (r: int)
    ensures r >= 0
    ensures offset.Some? && offset.value >= 0 ==> r == offset.value
  {
    if offset.Some? && offset.value > 0 then offset.value else 0
  }

  /** The start of `loadDbRows`. */
  function LoadDbRows(p: Panel, table: string, offset: Option<int>, refresh: bool): (r: LoadStart)
    ensures var key := DbCacheKey(table, RequestedOffset(offset), DbPageSize);
            && (r.Served? <==> !refresh && key in p.cache)
            && (r.Served? ==> r.data == p.cache[key] && r.panel.cache == p.cache && r.panel.seqs == p.seqs
                              && r.panel.states == p.states[table := TableState(RequestedOffset(offset), DbPageSize, p.cache[key].total)])
            && (r.Requested? ==> r.key == key && r.offset == RequestedOffset(offset)
                                 && r.ticket == SeqOf(p.seqs, table) + 1
                                 && r.panel == p.(seqs := p.seqs[table := r.ticket]))
  {
    var o := RequestedOffset(offset);
    var key := DbCacheKey(table, o, DbPageSize);
    if !refresh && key in p.cache then
      Served(p.(states := p.states[table := TableState(o, DbPageSize, p.cache[key].total)]), p.cache[key])
    else
      var s := SeqOf(p.seqs, table) + 1;
      Requested(p.(seqs := p.seqs[table := s]), s, key, o)
  }

  /** The arrival of the answer to request `seq`: dropped unless it is still
      the table's latest request; otherwise cached and made the table's state. */
  function ReceiveRows(p: Panel, table: string, ticket: nat, key: string, offset: int, data: PageData): (r: Panel)
    ensures SeqOf(p.seqs, table) != ticket ==> r == p
    ensures SeqOf(p.seqs, table) == ticket ==>
              && r.cache == p.cache[key := data] && r.seqs == p.seqs
              && r.states == p.states[table := TableState(offset, DbPageSize, data.total)]
  {
    if SeqOf(p.seqs, table) != ticket then p
    else p.(cache := p.cache[key := data], states := p.states[table := TableState(offset, DbPageSize, data.total)])
  }

  /** Of two overlapping loads of one table, the first answer is dropped
      whenever it arrives, and the second is kept. */
  lemma OverlappingLoads(p: Panel, table: string, o1: Option<int>, o2: Option<int>, d1: PageData, d2: PageData)
    requires LoadDbRows(p, table, o1, true).Requested?
    ensures var first := LoadDbRows(p, table, o1, true);
            var second := LoadDbRows(first.panel, table, o2, true);
            && second.Requested? && second.ticket > first.ticket
            && ReceiveRows(second.panel, table, first.ticket, first.key, first.offset, d1) == second.panel
            && var after := ReceiveRows(second.panel, table, second.ticket, second.key, second.offset, d2);
               ReceiveRows(after, table, first.ticket, first.key, first.offset, d1) == after
               && after.cache[second.key] == d2
  {
  }

  /** A load of another table does not make this table's answer stale. */
  lemma OtherTableUnaffected(p: Panel, table: string, other: string, o1: Option<int>, o2: Option<int>, d: PageData)
    requires table != other
    ensures var first := LoadDbRows(p, table, o1, true);
            var second := LoadDbRows(first.panel, other, o2, true);
            ReceiveRows(second.panel, table, first.ticket, first.key, first.offset, d).cache
              == second.panel.cache[first.key := d]
  {
  }

  /** Once a page has arrived, opening it again without refresh is served
      from the cache with what arrived. */
  lemma CachedAfterReceive(p: Panel, table: string, offset: Option<int>, d: PageData)
    ensures var start := LoadDbRows(p, table, offset, true);
            var after := ReceiveRows(start.panel, table, start.ticket, start.key, start.offset, d);
            var again := LoadDbRows(after, table, offset, false);
            again.Served? && again.data == d
  {
  }
}

=== FILE: db_routes.dfy ===
/** The database browser's routes `src/ytplayd_app/routes/db_routes.py`: the
    table list, the table name carried in a rows path, and the validation and
    clamping of the rows request's pagination.

    Percent-decoding (`urllib.parse.unquote`) is a parameter. */
module DbRoutes {
  import opened Wrappers
  import opened Text
  import opened QueryString
  import opened DbService

  datatype Body = TablesBody(tables: seq<string>) | ErrorBody(error: string) | RowsBody(payload: RowsPayload)

  datatype Reply = Reply(code: int, body: Body)

  /** `handle_tables`. */
  function HandleTables(db: Database): (r: Reply)
    ensures r.code == 200 && r.body.TablesBody?
    ensures forall n :: n in r.body.tables <==> n in Names(db.tables) && !LikeSqliteInternal(n)
  {
    Reply(200, TablesBody(ListTables(db)))
  }

  const RowsPrefix := "/api/db/table/"
  const RowsSuffix := "/rows"

  /** `path[len(prefix):-len(suffix)]`: Python's slice, empty when the prefix
      and the suffix overlap. */
  function RawName(path: string): (r: string)
    ensures |RowsPrefix| + |RowsSuffix| <= |path| ==> r == path[|RowsPrefix|..|path| - |RowsSuffix|]
    ensures |path| < |RowsPrefix| + |RowsSuffix| ==> r == []
  {
    if |RowsPrefix| + |RowsSuffix| <= |path| then path[|RowsPrefix|..|path| - |RowsSuffix|] else []
  }

  /** `match_table_rows`: the decoded, stripped name between the prefix and the
      suffix, or "" for any other path. */
  function MatchTableRows(path: string, unquote: string -> string): (r: string)
    ensures !(StartsWith(path, RowsPrefix) && EndsWith(path, RowsSuffix)) ==> r == []
    ensures StartsWith(path, RowsPrefix) && EndsWith(path, RowsSuffix) ==> r == Strip(unquote(RawName(path)))
  {
    if StartsWith(path, RowsPrefix) && EndsWith(path, RowsSuffix) then Strip(unquote(RawName(path))) else []
  }

  /** The rows path of any encoded name gives that name back, decoded and
      stripped. */
  lemma MatchTableRowsRoundTrip(raw: string, unquote: string -> string)
    ensures MatchTableRows(RowsPrefix + raw + RowsSuffix, unquote) == Strip(unquote(raw))
  {
    var path := RowsPrefix + raw + RowsSuffix;
    assert path[..|RowsPrefix|] == RowsPrefix;
    assert path[|path| - |RowsSuffix|..] == RowsSuffix;
    assert path[|RowsPrefix|..|path| - |RowsSuffix|] == raw;
  }

  /** `/api/db/table/rows` matches both ends with the slash shared, and carries
      the empty name. */
  lemma MatchTableRowsOverlap(unquote: string -> string)
    ensures MatchTableRows("/api/db/table/rows", unquote) == Strip(unquote(""))
  {
    var path := "/api/db/table/rows";
    assert path[..|RowsPrefix|] == RowsPrefix;
    assert path[|path| - |RowsSuffix|..] == RowsSuffix;
  }

  const DefaultLimit := 10
  const MaxLimit := 50

  /** `max(1, min(50, limit))`. */
  function ClampLimit(limit: int): (r: int)
    ensures 1 <= r <= MaxLimit
    ensures 1 <= limit <= MaxLimit ==> r == limit
    ensures limit < 1 ==> r == 1
    ensures limit > MaxLimit ==> r == MaxLimit
  {
    if limit < 1 then 1 else if limit > MaxLimit then MaxLimit else limit
  }

  /** `handle_table_rows`: 404 for a name `list_tables` does not return, 400
      when `limit` or `offset` is not an integer, else a page of at most 50 rows
      from a non-negative offset. */
  function HandleTableRows(db: Database, table: string, qs: Query, utf8: seq<byte> -> Option<string>): (r: Reply)
    ensures r.code == 404 <==> table == [] || table !in ListTables(db)
    ensures r.code == 400 <==> table != [] && table in ListTables(db)
                               && (IntParam(qs, "limit", DefaultLimit).None? || IntParam(qs, "offset", 0).None?)
    ensures r.code == 404 ==> r.body == ErrorBody("unknown table")
    ensures r.code == 400 ==> r.body == ErrorBody("invalid pagination")
    ensures r.code in {200, 400, 404}
    ensures r.code == 200 ==>
              && r.body.RowsBody?
              && var p := r.body.payload;
              && p.table == table
              && 1 <= p.limit <= MaxLimit && p.offset >= 0 && |p.rows| <= p.limit
              && p.limit == ClampLimit(IntParam(qs, "limit", DefaultLimit).value)
              && p.offset == (if IntParam(qs, "offset", 0).value < 0 then 0 else IntParam(qs, "offset", 0).value)
  {
    var tables := ListTables(db);
    if table == [] || table !in tables then Reply(404, ErrorBody("unknown table"))
    else
      match (IntParam(qs, "limit", DefaultLimit), IntParam(qs, "offset", 0))
      case (Some(limit), Some(offset)) =>
        var l := ClampLimit(limit);
        var o := if offset < 0 then 0 else offset;
        Reply(200, RowsBody(FetchTableRows(db, table, l, o, utf8).value))
      case _ => Reply(400, ErrorBody("invalid pagination"))
  }

  /** Without `limit` and `offset`, a listed table's first ten rows, newest
      first, are served. */
  lemma HandleTableRowsDefaults(db: Database, table: string, utf8: seq<byte> -> Option<string>)
    requires table != [] && table in ListTables(db)
    ensures var r := HandleTableRows(db, table, map[], utf8);
            var t := Lookup(db, table).value;
            var page := Page(OrderedRows(t), 10, 0);
            && r.code == 200 && r.body.payload.limit == 10 && r.body.payload.offset == 0
            && |r.body.payload.rows| == |page|
            && forall i :: 0 <= i < |page| ==> r.body.payload.rows[i] == RowItem(ColumnNames(t.columns), page[i], utf8)
  {
  }

  /** For a listed table and integer `limit` and `offset`, the rows served are
      the table's page at the clamped limit and offset, rendered column by
      column. */
  lemma HandleTableRowsServesPage(db: Database, table: string, qs: Query, utf8: seq<byte> -> Option<string>)
    requires table != [] && table in ListTables(db)
    requires IntParam(qs, "limit", DefaultLimit).Some? && IntParam(qs, "offset", 0).Some?
    ensures var r := HandleTableRows(db, table, qs, utf8);
            var p := r.body.payload;
            var t := Lookup(db, table).value;
            var offset := IntParam(qs, "offset", 0).value;
            var page := Page(OrderedRows(t), ClampLimit(IntParam(qs, "limit", DefaultLimit).value),
                             if offset < 0 then 0 else offset);
            && r.code == 200
            && p.total == |t.rows|
            && p.columns == ColumnNames(t.columns)
            && |p.rows| == |page|
            && (forall i :: 0 <= i < |page| ==> p.rows[i] == RowItem(ColumnNames(t.columns), page[i], utf8))
            && |p.rows| == (if |t.rows| <= p.offset then 0
                            else if |t.rows| - p.offset < p.limit then |t.rows| - p.offset else p.limit)
  {
    var offset := IntParam(qs, "offset", 0).value;
    var l := ClampLimit(IntParam(qs, "limit", DefaultLimit).value);
    var o := if offset < 0 then 0 else offset;
    assert table in Names(db.tables);
    ServedPayload(db, table, qs, utf8, l, o);
    FetchedPage(db, table, l, o, utf8);
  }

  /** A listed table with integer parameters is answered with the payload
      fetched at the clamped limit and offset. */
  lemma ServedPayload(db: Database, table: string, qs: Query, utf8: seq<byte> -> Option<string>, l: int, o: int)
    requires table != [] && table in ListTables(db)
    requires IntParam(qs, "limit", DefaultLimit).Some? && IntParam(qs, "offset", 0).Some?
    requires l == ClampLimit(IntParam(qs, "limit", DefaultLimit).value)
    requires o == if IntParam(qs, "offset", 0).value < 0 then 0 else IntParam(qs, "offset", 0).value
    ensures table in Names(db.tables)
    ensures HandleTableRows(db, table, qs, utf8) == Reply(200, RowsBody(FetchTableRows(db, table, l, o, utf8).value))
  {
  }

  /** The fetched page, from a non-negative offset and a positive limit. */
  lemma FetchedPage(db: Database, table: string, l: int, o: int, utf8: seq<byte> -> Option<string>)
    requires table in Names(db.tables) && l >= 1 && o >= 0
    ensures var p := FetchTableRows(db, table, l, o, utf8).value;
            var t := Lookup(db, table).value;
            var page := Page(OrderedRows(t), l, o);
            && p.total == |t.rows|
            && p.columns == ColumnNames(t.columns)
            && |p.rows| == |page|
            && (forall i :: 0 <= i < |page| ==> p.rows[i] == RowItem(ColumnNames(t.columns), page[i], utf8))
            && |p.rows| == (if |t.rows| <= o then 0 else if |t.rows| - o < l then |t.rows| - o else l)
  {
    var t := Lookup(db, table).value;
    var ordered := OrderedRows(t);
    assert FetchTableRows(db, table, l, o, utf8).value == PagePayload(t, ordered, table, l, o, utf8);
    assert |ordered| == |t.rows|;
  }
}

=== FILE: db_service.dfy ===
/** The database browser's service `src/ytplayd_app/services/db_service.py`, over
    an abstract SQLite database: the ordinary tables in `sqlite_master` order,
    each with its columns (from `PRAGMA table_info`) and its rows.

    SQL itself is not parsed: `list_tables` and `fetch_table_rows` are modelled
    by what their fixed queries return, following SQLite's rules for `LIKE`,
    `ORDER BY` on mixed types, and `LIMIT`/`OFFSET`. */
module DbService {
  import opened Wrappers
  import opened Text
  import opened Sorting

  // ---- quote_ident -----------------------------------------------------------

  /** Every `"` written twice (`name.replace('"', '""')`). */
  function DoubleQuotes(s: string): (r: string)
    ensures |r| == |s| + Count(s, '"')
    decreases |s|
  {
    if s == [] then []
    else (if s[0] == '"' then "\"\"" else [s[0]]) + DoubleQuotes(s[1..])
  }

  /** `quote_ident`: the name between double quotes, inner quotes doubled, so
      that SQLite reads it back as that one identifier. */
  function QuoteIdent(name: string): (r: string)
    ensures |r| == |name| + Count(name, '"') + 2
    ensures r[0] == '"' && r[|r| - 1] == '"'
  {
    "\"" + DoubleQuotes(name) + "\""
  }

  /** How SQLite reads the inside of a quoted identifier: `""` stands for one
      `"`; a lone `"` would have ended the identifier (None). */
  function UndoubleQuotes(s: string): (r: Option<string>)
    decreases |s|
  {
    if s == [] then Some([])
    else if s[0] != '"' then
      match UndoubleQuotes(s[1..])
      case Some(t) => Some([s[0]] + t)
      case None => None
    else if |s| >= 2 && s[1] == '"' then
      match UndoubleQuotes(s[2..])
      case Some(t) => Some("\"" + t)
      case None => None
    else None
  }

  /** A quoted identifier read back as SQLite reads it. */
  function UnquoteIdent(q: string): Option<string> {
    if |q| >= 2 && q[0] == '"' && q[|q| - 1] == '"' then UndoubleQuotes(q[1..|q| - 1]) else None
  }

  lemma {:induction false} UndoubleDouble(s: string)
    ensures UndoubleQuotes(DoubleQuotes(s)) == Some(s)
    decreases |s|
  {
    if s != [] {
      var d := DoubleQuotes(s);
      UndoubleDouble(s[1..]);
      if s[0] == '"' {
        assert d == "\"\"" + DoubleQuotes(s[1..]);
        assert d[2..] == DoubleQuotes(s[1..]);
        assert "\"" + s[1..] == s;
      } else {
        assert d == [s[0]] + DoubleQuotes(s[1..]);
        assert d[1..] == DoubleQuotes(s[1..]);
        assert [s[0]] + s[1..] == s;
      }
    }
  }

  /** Quoting loses nothing: every name is read back from its quoted form. */
  lemma QuoteIdentRoundTrip(name: string)
    ensures UnquoteIdent(QuoteIdent(name)) == Some(name)
  {
    var q := QuoteIdent(name);
    assert q[1..|q| - 1] == DoubleQuotes(name);
    UndoubleDouble(name);
  }

  /** Two different names never get the same quoted form. */
  lemma QuoteIdentInjective(a: string, b: string)
    requires QuoteIdent(a) == QuoteIdent(b)
    ensures a == b
  {
    QuoteIdentRoundTrip(a);
    QuoteIdentRoundTrip(b);
  }

  // ---- values ------------------------------------------------------------------

  newtype byte = b: int | 0 <= b < 256

  /** A SQLite value by storage class. */
  datatype Value = Null | Integer(i: int) | Real(x: real) | Text(s: string) | Blob(bytes: seq<byte>)

  /** NULLs first, then numbers, then text, then blobs. */
  function Rank(v: Value): nat {
    match v
    case Null => 0
    case Integer(_) => 1
    case Real(_) => 1
    case Text(_) => 2
    case Blob(_) => 3
  }

  /** The numeric value of a number (0 for the other classes, never compared). */
  function NumOf(v: Value): real {
    match v
    case Integer(i) => i as real
    case Real(x) => x
    case _ => 0.0
  }

  /** Lexicographic order, a proper prefix first: SQLite's BINARY collation
      (for text, code-point order is the order of the UTF-8 bytes). */
  predicate StrLe(a: string, b: string)
    decreases |a|
  {
    a == [] || (b != [] && (a[0] < b[0] || (a[0] == b[0] && StrLe(a[1..], b[1..]))))
  }

  lemma {:induction false} StrLeTotal(a: string, b: string)
    ensures StrLe(a, b) || StrLe(b, a)
    decreases |a|
  {
    if a != [] && b != [] && a[0] == b[0] {
      StrLeTotal(a[1..], b[1..]);
    }
  }

  lemma {:induction false} StrLeTrans(a: string, b: string, c: string)
    requires StrLe(a, b) && StrLe(b, c)
    ensures StrLe(a, c)
    decreases |a|
  {
    if a != [] && b != [] && c != [] && a[0] == b[0] && b[0] == c[0] {
      StrLeTrans(a[1..], b[1..], c[1..]);
    }
  }

  lemma {:induction false} StrLeAntisym(a: string, b: string)
    requires StrLe(a, b) && StrLe(b, a)
    ensures a == b
    decreases |a|
  {
    if a != [] {
      StrLeAntisym(a[1..], b[1..]);
      assert a == [a[0]] + a[1..] && b == [b[0]] + b[1..];
    }
  }

  /** Bytes as the characters with the same codes, which keeps their order. */
  function BlobImage(b: seq<byte>): (r: string)
    ensures |r| == |b|
  {
    seq(|b|, i requires 0 <= i < |b| => (b[i] as int) as char)
  }

  /** SQLite's order on values: by storage class, numbers by value (integers and
      reals compared with each other), text and blobs byte by byte. */
  predicate ValueLe(a: Value, b: Value) {
    if Rank(a) != Rank(b) then Rank(a) < Rank(b)
    else match a
      case Null => true
      case Text(s) => b.Text? && StrLe(s, b.s)
      case Blob(x) => b.Blob? && StrLe(BlobImage(x), BlobImage(b.bytes))
      case _ => NumOf(a) <= NumOf(b)
  }

  lemma ValueLeTotal(a: Value, b: Value)
    ensures ValueLe(a, b) || ValueLe(b, a)
  {
    match (a, b)
    case (Text(s), Text(t)) => StrLeTotal(s, t);
    case (Blob(x), Blob(y)) => StrLeTotal(BlobImage(x), BlobImage(y));
    case _ =>
  }

  lemma ValueLeTrans(a: Value, b: Value, c: Value)
    requires ValueLe(a, b) && ValueLe(b, c)
    ensures ValueLe(a, c)
  {
    if Rank(a) == Rank(b) == Rank(c) {
      match (a, b, c)
      case (Text(s), Text(t), Text(u)) => StrLeTrans(s, t, u);
      case (Blob(x), Blob(y), Blob(z)) => StrLeTrans(BlobImage(x), BlobImage(y), BlobImage(z));
      case _ =>
    }
  }

  // ---- serialize_value ---------------------------------------------------------

  /** A value as it goes into the JSON reply. */
  datatype JsonValue = JNull | JInt(i: int) | JReal(x: real) | JText(s: string)

  const HexDigits := "0123456789abcdef"

  /** `bytes.hex()`: two lower-case hex digits per byte. */
  function Hex(b: seq<byte>): (r: string)
    ensures |r| == 2 * |b|
    ensures forall i :: 0 <= i < |r| ==> r[i] in HexDigits
    decreases |b|
  {
    if b == [] then []
    else [HexDigits[b[0] as int / 16], HexDigits[b[0] as int % 16]] + Hex(b[1..])
  }

  function HexValue(c: char): (d: nat)
    ensures d < 16
  {
    if '0' <= c <= '9' then (c as int) - ('0' as int)
    else if 'a' <= c <= 'f' then (c as int) - ('a' as int) + 10
    else 0
  }

  /** Reads back a string of hex digit pairs. */
  function Unhex(s: string): seq<byte>
    decreases |s|
  {
    if |s| < 2 then [] else [(16 * HexValue(s[0]) + HexValue(s[1])) as byte] + Unhex(s[2..])
  }

  lemma HexDigitValue(d: nat)
    requires d < 16
    ensures HexValue(HexDigits[d]) == d
  {
  }

  /** The hex fallback loses nothing: the bytes are read back from it. */
  lemma {:induction false} UnhexHex(b: seq<byte>)
    ensures Unhex(Hex(b)) == b
    decreases |b|
  {
    if b != [] {
      UnhexCons(b[0], Hex(b[1..]));
      UnhexHex(b[1..]);
      assert [b[0]] + b[1..] == b;
    }
  }

  /** The two digits of one byte read back as that byte. */
  lemma UnhexCons(x: byte, rest: string)
    ensures Unhex([HexDigits[x as int / 16], HexDigits[x as int % 16]] + rest) == [x] + Unhex(rest)
  {
    var v := x as int;
    var hi, lo := HexDigits[v / 16], HexDigits[v % 16];
    var s := [hi, lo] + rest;
    assert s[0] == hi && s[1] == lo && s[2..] == rest;
    HexDigitValue(v / 16);
    HexDigitValue(v % 16);
    assert 16 * (v / 16) + v % 16 == v;
  }

  /** `serialize_value`: NULL to null, other non-blob values unchanged; a blob
      becomes its UTF-8 text when `utf8` decodes it, else its hex digits. */
  function SerializeValue(v: Value, utf8: seq<byte> -> Option<string>): (r: JsonValue)
    ensures v.Null? <==> r.JNull?
    ensures v.Integer? ==> r == JInt(v.i)
    ensures v.Real? ==> r == JReal(v.x)
    ensures v.Text? ==> r == JText(v.s)
    ensures v.Blob? && utf8(v.bytes).None? ==> r.JText? && |r.s| == 2 * |v.bytes| && Unhex(r.s) == v.bytes
  {
    match v
    case Null => JNull
    case Integer(i) => JInt(i)
    case Real(x) => JReal(x)
    case Text(s) => JText(s)
    case Blob(b) =>
      match utf8(b)
      case Some(s) => JText(s)
      case None => UnhexHex(b); JText(Hex(b))
  }

  // ---- tables ------------------------------------------------------------------

  /** A row of `PRAGMA table_info`: the column name and its position in the
      primary key (0 when it is not part of it). */
  datatype Column = Column(name: string, pk: nat)

  datatype Row = Row(rowid: int, values: seq<Value>)

  datatype Table = Table(columns: seq<Column>, rows: seq<Row>)

  datatype NamedTable = NamedTable(name: string, table: Table)

  /** The `type='table'` entries of `sqlite_master`, in its order. */
  datatype Database = Database(tables: seq<NamedTable>)

  /** SQLite resolves a table name ignoring the case of ASCII letters. */
  predicate SameName(a: string, b: string) {
    LowerAscii(a) == LowerAscii(b)
  }

  /** Whether SQLite finds a table under `name`. */
  predicate Known(db: Database, name: string) {
    exists i :: 0 <= i < |db.tables| && SameName(db.tables[i].name, name)
  }

  /** The table SQLite finds under `name`: the first whose name matches it up to
      ASCII case (SQLite refuses to create two such tables). */
  function Lookup(db: Database, name: string): (r: Option<Table>)
    ensures r.Some? <==> Known(db, name)
    ensures name in Names(db.tables) ==> r.Some?
    ensures r.Some? ==> exists i :: 0 <= i < |db.tables| && SameName(db.tables[i].name, name) && db.tables[i].table == r.value
    decreases |db.tables|
  {
    if db.tables == [] then None
    else if SameName(db.tables[0].name, name) then Some(db.tables[0].table)
    else
      var rest := Database(db.tables[1..]);
      assert forall i :: 1 <= i < |db.tables| ==> db.tables[i] == rest.tables[i - 1];
      assert name in Names(db.tables) ==> name in Names(rest.tables);
      Lookup(rest, name)
  }

  /** Two names that differ only in ASCII case find the same table. */
  lemma {:induction false} LookupIgnoresCase(db: Database, a: string, b: string)
    requires SameName(a, b)
    ensures Lookup(db, a) == Lookup(db, b)
    decreases |db.tables|
  {
    if db.tables != [] {
      LookupIgnoresCase(Database(db.tables[1..]), a, b);
    }
  }

  /** `[f(x) for x in s]`, the one projection the names below share. */
  function Project<T>(s: seq<T>, f: T -> string): (r: seq<string>)
    ensures |r| == |s|
    ensures forall i :: 0 <= i < |s| ==> r[i] == f(s[i])
  {
    seq(|s|, i requires 0 <= i < |s| => f(s[i]))
  }

  function Names(ts: seq<NamedTable>): (r: seq<string>)
    ensures |r| == |ts|
    ensures forall i :: 0 <= i < |ts| ==> r[i] == ts[i].name
  {
    Project(ts, (t: NamedTable) => t.name)
  }

  /** `name LIKE 'sqlite_%'`: six characters that spell `sqlite` in any ASCII
      case, then at least one more character of any kind (`_` matches one). */
  predicate LikeSqliteInternal(name: string) {
    |name| >= 7 && LowerAscii(name[..6]) == "sqlite"
  }

  function UserTables(names: seq<string>): (r: seq<string>)
    ensures forall n :: n in r <==> n in names && !LikeSqliteInternal(n)
    decreases |names|
  {
    if names == [] then []
    else
      var rest := UserTables(names[1..]);
      assert forall n :: n in names <==> n == names[0] || n in names[1..];
      if LikeSqliteInternal(names[0]) then rest else [names[0]] + rest
  }

  lemma StrLeIsTotalPreorder()
    ensures TotalPreorder((a: string, b: string) => StrLe(a, b))
  {
    forall a: string, b: string ensures StrLe(a, b) || StrLe(b, a) {
      StrLeTotal(a, b);
    }
    forall a: string, b: string, c: string | StrLe(a, b) && StrLe(b, c) ensures StrLe(a, c) {
      StrLeTrans(a, b, c);
    }
  }

  /** `list_tables`: the names of the ordinary tables that do not match
      `sqlite_%`, in name order. */
  function ListTables(db: Database): (r: seq<string>)
    ensures SortedBy(r, (a: string, b: string) => StrLe(a, b))
    ensures forall n :: n in r <==> n in Names(db.tables) && !LikeSqliteInternal(n)
    ensures multiset(r) == multiset(UserTables(Names(db.tables)))
  {
    StrLeIsTotalPreorder();
    var r := SortBy(UserTables(Names(db.tables)), (a: string, b: string) => StrLe(a, b));
    assert forall n :: n in r <==> n in multiset(r);
    r
  }

  /** The pattern covers the `sqlite_` prefix in either case, and more:
      `sqliteX…` and `SQLite_…` match too. */
  lemma LikeSqliteInternalCovers(n: string)
    requires |n| >= 7
    requires n[..6] == "sqlite" || n[..6] == "SQLITE" || n[..6] == "SQLite"
    ensures LikeSqliteInternal(n)
  {
    var l := LowerAscii(n[..6]);
    assert l[0] == 's' && l[1] == 'q' && l[2] == 'l' && l[3] == 'i' && l[4] == 't' && l[5] == 'e';
    assert l == "sqlite";
  }

  /** Internal tables are never listed, whatever the case of their prefix. */
  lemma ListTablesHidesInternal(db: Database, n: string)
    requires n in ListTables(db)
    ensures !StartsWith(n, "sqlite_") && !StartsWith(n, "SQLITE_")
  {
    if StartsWith(n, "sqlite_") || StartsWith(n, "SQLITE_") {
      assert n[..6] == n[..7][..6];
      LikeSqliteInternalCovers(n);
    }
  }

  // ---- table_info and order_by --------------------------------------------------

  function ColumnNames(cols: seq<Column>): (r: seq<string>)
    ensures |r| == |cols|
    ensures forall i :: 0 <= i < |cols| ==> r[i] == cols[i].name
  {
    Project(cols, (c: Column) => c.name)
  }

  /** Whether some column named `n` is part of the primary key. */
  predicate IsPkName(cols: seq<Column>, n: string) {
    exists i :: 0 <= i < |cols| && cols[i].pk != 0 && cols[i].name == n
  }

  /** The primary-key columns, in table order (not key order): exactly the
      names of the key columns. */
  function PkColumns(cols: seq<Column>): (r: seq<string>)
    ensures |r| <= |cols|
    ensures forall n :: n in r <==> IsPkName(cols, n)
    decreases |cols|
  {
    if cols == [] then []
    else
      var rest := PkColumns(cols[1..]);
      assert forall n :: IsPkName(cols[1..], n) ==> IsPkName(cols, n) by {
        forall n | IsPkName(cols[1..], n) ensures IsPkName(cols, n) {
          var k :| 0 <= k < |cols[1..]| && cols[1..][k].pk != 0 && cols[1..][k].name == n;
          assert cols[k + 1] == cols[1..][k];
        }
      }
      assert forall n :: IsPkName(cols, n) ==> IsPkName(cols[1..], n) || (cols[0].pk != 0 && cols[0].name == n) by {
        forall n | IsPkName(cols, n) ensures IsPkName(cols[1..], n) || (cols[0].pk != 0 && cols[0].name == n) {
          var k :| 0 <= k < |cols| && cols[k].pk != 0 && cols[k].name == n;
          if k > 0 { assert cols[1..][k - 1] == cols[k]; }
        }
      }
      if cols[0].pk != 0 then [cols[0].name] + rest else rest
  }

  /** The first name listed is the first key column in table order, which is
      what `order_by` falls back on. */
  lemma {:induction false} PkColumnsFirst(cols: seq<Column>)
    ensures var r := PkColumns(cols);
            r != [] ==> exists i :: 0 <= i < |cols| && cols[i].pk != 0 && r[0] == cols[i].name
                                   && forall j :: 0 <= j < i ==> cols[j].pk == 0
    decreases |cols|
  {
    if cols != [] && cols[0].pk == 0 {
      var rest := PkColumns(cols[1..]);
      PkColumnsFirst(cols[1..]);
      if rest != [] {
        var i :| 0 <= i < |cols[1..]| && cols[1..][i].pk != 0 && rest[0] == cols[1..][i].name
                 && forall j :: 0 <= j < i ==> cols[1..][j].pk == 0;
        assert forall j :: 1 <= j < i + 1 ==> cols[j] == cols[1..][j - 1];
        assert cols[i + 1] == cols[1..][i];
      }
    } else if cols != [] {
      assert PkColumns(cols)[0] == cols[0].name;
    }
  }

  /** What the rows are sorted on, newest first. */
  datatype OrderKey = ByColumn(column: string) | ByRowid

  /** `order_by`'s choice: `created_at`, else `updated_at`, else the first
      primary-key column, else `rowid`. */
  function ChooseOrder(columns: seq<string>, pkCols: seq<string>): (r: OrderKey)
    ensures "created_at" in columns ==> r == ByColumn("created_at")
    ensures "created_at" !in columns && "updated_at" in columns ==> r == ByColumn("updated_at")
    ensures "created_at" !in columns && "updated_at" !in columns && pkCols != [] ==> r == ByColumn(pkCols[0])
    ensures "created_at" !in columns && "updated_at" !in columns && pkCols == [] ==> r == ByRowid
  {
    if "created_at" in columns then ByColumn("created_at")
    else if "updated_at" in columns then ByColumn("updated_at")
    else if pkCols != [] then ByColumn(pkCols[0])
    else ByRowid
  }

  /** `order_by`: the clause as shown to the user and as sent to SQLite. */
  datatype OrderClause = OrderClause(shown: string, sql: string)

  function OrderBy(columns: seq<string>, pkCols: seq<string>): (r: OrderClause)
    ensures "created_at" in columns ==> r == OrderClause("created_at" + " DESC", QuoteIdent("created_at") + " DESC")
    ensures "created_at" !in columns && "updated_at" in columns ==>
              r == OrderClause("updated_at" + " DESC", QuoteIdent("updated_at") + " DESC")
    ensures "created_at" !in columns && "updated_at" !in columns && pkCols != [] ==>
              r == OrderClause(pkCols[0] + " DESC", QuoteIdent(pkCols[0]) + " DESC")
    ensures "created_at" !in columns && "updated_at" !in columns && pkCols == [] ==>
              r == OrderClause("rowid DESC", "rowid DESC")
  {
    match ChooseOrder(columns, pkCols)
    case ByColumn(c) => OrderClause(c + " DESC", QuoteIdent(c) + " DESC")
    case ByRowid => OrderClause("rowid DESC", "rowid DESC")
  }

  /** The SQL form is the label with the column quoted; `rowid` is not quoted;
      and the quoted column reads back as the label's column. */
  lemma OrderByForms(columns: seq<string>, pkCols: seq<string>)
    ensures var o := OrderBy(columns, pkCols);
            match ChooseOrder(columns, pkCols)
            case ByColumn(c) => o.shown == c + " DESC" && o.sql == QuoteIdent(c) + " DESC"
                                && UnquoteIdent(o.sql[..|o.sql| - 5]) == Some(c)
            case ByRowid => o.shown == "rowid DESC" && o.sql == o.shown
  {
    match ChooseOrder(columns, pkCols)
    case ByColumn(c) =>
      var o := OrderBy(columns, pkCols);
      assert o.sql[..|o.sql| - 5] == QuoteIdent(c);
      QuoteIdentRoundTrip(c);
    case ByRowid =>
  }

  /** A table's own order column is always one of its columns, or `rowid`. */
  lemma ChooseOrderIsAColumn(cols: seq<Column>)
    ensures var k := ChooseOrder(ColumnNames(cols), PkColumns(cols));
            k.ByColumn? ==> k.column in ColumnNames(cols)
  {
  }

  // ---- fetch_table_rows ----------------------------------------------------------

  function IndexOfName(names: seq<string>, n: string): (r: Option<nat>)
    ensures r.Some? ==> r.value < |names| && names[r.value] == n
    ensures r.None? ==> n !in names
    decreases |names|
  {
    if names == [] then None
    else if names[0] == n then Some(0)
    else match IndexOfName(names[1..], n)
      case None => None
      case Some(i) => Some(i + 1)
  }

  /** The value a row is sorted on. */
  function SortValue(row: Row, names: seq<string>, key: OrderKey): Value {
    match key
    case ByRowid => Integer(row.rowid)
    case ByColumn(c) =>
      match IndexOfName(names, c)
      case Some(i) => if i < |row.values| then row.values[i] else Null
      case None => Null
  }

  /** `ORDER BY … DESC` as a "comes no later than" relation on rows. */
  function Descending(names: seq<string>, key: OrderKey): (Row, Row) -> bool {
    (a: Row, b: Row) => ValueLe(SortValue(b, names, key), SortValue(a, names, key))
  }

  lemma DescendingIsTotalPreorder(names: seq<string>, key: OrderKey)
    ensures TotalPreorder(Descending(names, key))
  {
    var le := Descending(names, key);
    forall a: Row, b: Row ensures le(a, b) || le(b, a) {
      ValueLeTotal(SortValue(a, names, key), SortValue(b, names, key));
    }
    forall a: Row, b: Row, c: Row | le(a, b) && le(b, c) ensures le(a, c) {
      ValueLeTrans(SortValue(c, names, key), SortValue(b, names, key), SortValue(a, names, key));
    }
  }

  /** The table's rows, newest first by the order key. */
  function OrderedRows(t: Table): (r: seq<Row>)
    ensures multiset(r) == multiset(t.rows) && |r| == |t.rows|
    ensures SortedBy(r, Descending(ColumnNames(t.columns), ChooseOrder(ColumnNames(t.columns), PkColumns(t.columns))))
  {
    var names := ColumnNames(t.columns);
    var key := ChooseOrder(names, PkColumns(t.columns));
    DescendingIsTotalPreorder(names, key);
    SortBy(t.rows, Descending(names, key))
  }

  /** `LIMIT limit OFFSET offset` as SQLite applies them: a negative limit means
      no limit, a negative offset skips nothing. */
  function Page<T>(rows: seq<T>, limit: int, offset: int): (r: seq<T>)
    ensures var start := if offset <= 0 then 0 else if offset < |rows| then offset else |rows|;
            && (limit >= 0 ==> |r| == if |rows| - start < limit then |rows| - start else limit)
            && (limit < 0 ==> |r| == |rows| - start)
            && forall i :: 0 <= i < |r| ==> r[i] == rows[start + i]
  {
    var start := if offset <= 0 then 0 else if offset < |rows| then offset else |rows|;
    var rest := rows[start..];
    if limit < 0 || limit >= |rest| then rest else rest[..limit]
  }

  /** One row as the reply shows it: column name to serialized value, in column
      order (`zip` stops at the shorter of the two). */
  function RowItem(names: seq<string>, row: Row, utf8: seq<byte> -> Option<string>): (r: seq<(string, JsonValue)>)
    ensures |r| == if |names| < |row.values| then |names| else |row.values|
    ensures forall i :: 0 <= i < |r| ==> r[i] == (names[i], SerializeValue(row.values[i], utf8))
  {
    var n := if |names| < |row.values| then |names| else |row.values|;
    seq(n, i requires 0 <= i < n => (names[i], SerializeValue(row.values[i], utf8)))
  }

  datatype RowsPayload = RowsPayload(table: string, limit: int, offset: int, total: nat,
                                     rows: seq<seq<(string, JsonValue)>>, columns: seq<string>, orderBy: string)

  /** `fetch_table_rows`; a table SQLite does not know makes `SELECT COUNT(*)`
      fail (Err). Otherwise the reply is the page of the table SQLite finds,
      newest first, with the name echoed as given, whatever its case. */
  function FetchTableRows(db: Database, table: string, limit: int, offset: int, utf8: seq<byte> -> Option<string>): (r: Result<RowsPayload, string>)
    ensures r.Ok? <==> Known(db, table)
    ensures table in Names(db.tables) ==> r.Ok?
    ensures r.Ok? ==> var t := Lookup(db, table).value;
                      r.value == PagePayload(t, OrderedRows(t), table, limit, offset, utf8)
  {
    match Lookup(db, table)
    case None => Err("no such table")
    case Some(t) => Ok(PagePayload(t, OrderedRows(t), table, limit, offset, utf8))
  }

  /** The reply for table `t`, asked for under the name `table`, whose rows in
      `ORDER BY` order are `ordered`: it echoes the name, limit and offset; the
      total is the table's row count; the columns and the order label are
      `table_info`'s and `order_by`'s; the rows are the page of `ordered` at
      that limit and offset, each keyed by the columns in order. */
  function PagePayload(t: Table, ordered: seq<Row>, table: string, limit: int, offset: int,
                       utf8: seq<byte> -> Option<string>): (p: RowsPayload)
    ensures && p.table == table && p.limit == limit && p.offset == offset
            && p.total == |t.rows|
            && p.columns == ColumnNames(t.columns)
            && p.orderBy == OrderBy(ColumnNames(t.columns), PkColumns(t.columns)).shown
            && (limit >= 0 ==> |p.rows| <= limit)
            && |p.rows| <= |ordered|
    ensures var page := Page(ordered, limit, offset);
            && |p.rows| == |page|
            && forall i :: 0 <= i < |page| ==> p.rows[i] == RowItem(ColumnNames(t.columns), page[i], utf8)
  {
    var names := ColumnNames(t.columns);
    RowsPayload(table, limit, offset, |t.rows|, PageItems(names, Page(ordered, limit, offset), utf8),
                names, OrderBy(names, PkColumns(t.columns)).shown)
  }

  /** The reply rows of a page, one item per row, in page order. */
  function PageItems(names: seq<string>, page: seq<Row>, utf8: seq<byte> -> Option<string>): (r: seq<seq<(string, JsonValue)>>)
    ensures |r| == |page|
    ensures forall i :: 0 <= i < |page| ==> r[i] == RowItem(names, page[i], utf8)
  {
    seq(|page|, i requires 0 <= i < |page| => RowItem(names, page[i], utf8))
  }

  /** The rows of a page come newest first: each one's order value is at least
      the next one's. */
  lemma PageIsNewestFirst(t: Table, limit: int, offset: int)
    ensures var names := ColumnNames(t.columns);
            var key := ChooseOrder(names, PkColumns(t.columns));
            var page := Page(OrderedRows(t), limit, offset);
            forall i, j :: 0 <= i < j < |page| ==> ValueLe(SortValue(page[j], names, key), SortValue(page[i], names, key))
  {
    var names := ColumnNames(t.columns);
    var key := ChooseOrder(names, PkColumns(t.columns));
    var rows := OrderedRows(t);
    var page := Page(rows, limit, offset);
    var le := Descending(names, key);
    PageKeepsOrder(rows, le, limit, offset);
    forall i, j | 0 <= i < j < |page|
      ensures ValueLe(SortValue(page[j], names, key), SortValue(page[i], names, key))
    {
      assert le(page[i], page[j]);
    }
  }

  /** A page of a sorted sequence is sorted. */
  lemma PageKeepsOrder<T>(rows: seq<T>, le: (T, T) -> bool, limit: int, offset: int)
    requires SortedBy(rows, le)
    ensures SortedBy(Page(rows, limit, offset), le)
  {
    var page := Page(rows, limit, offset);
    var start := if offset <= 0 then 0 else if offset < |rows| then offset else |rows|;
    forall i, j | 0 <= i < j < |page| ensures le(page[i], page[j]) {
      assert page[i] == rows[start + i] && page[j] == rows[start + j];
    }
  }

  /** Consecutive pages neither skip nor repeat a row: the page at `offset`
      followed by the page at `offset + limit` is the page of twice the size. */
  lemma PagesTile<T>(rows: seq<T>, limit: nat, offset: nat)
    ensures Page(rows, limit, offset) + Page(rows, limit, offset + limit) == Page(rows, 2 * limit, offset)
  {
    var a := Page(rows, limit, offset);
    var b := Page(rows, limit, offset + limit);
    var c := Page(rows, 2 * limit, offset);
    assert |a + b| == |c|;
    forall i | 0 <= i < |c| ensures (a + b)[i] == c[i] {
      if i >= |a| {
        assert |a| == limit;
      }
    }
  }

  /** The `tracks` table of the service test. */
  const Older := Row(1, [Integer(1), Text("older"), Integer(10)])
  const Newer := Row(2, [Integer(2), Text("newer"), Integer(20)])
  const Tracks := Table([Column("id", 1), Column("title", 0), Column("created_at", 0)], [Older, Newer])
  const TestDb := Database([NamedTable("tracks", Tracks)])

  lemma TracksOrder()
    ensures ColumnNames(Tracks.columns) == ["id", "title", "created_at"]
    ensures ChooseOrder(ColumnNames(Tracks.columns), PkColumns(Tracks.columns)) == ByColumn("created_at")
    ensures OrderBy(ColumnNames(Tracks.columns), PkColumns(Tracks.columns)).shown == "created_at DESC"
  {
    TracksNames();
    var names := ColumnNames(Tracks.columns);
    assert names[2] == "created_at";
    assert ChooseOrder(names, PkColumns(Tracks.columns)) == ByColumn("created_at");
    assert "created_at" + " DESC" == "created_at DESC";
  }

  lemma TracksNames()
    ensures ColumnNames(Tracks.columns) == ["id", "title", "created_at"]
  {
    var names := ColumnNames(Tracks.columns);
    assert |names| == 3;
    assert names[0] == "id" && names[1] == "title" && names[2] == "created_at";
  }

  /** Under `created_at DESC` the older row does not come first. */
  lemma OlderNotFirst()
    ensures ChooseOrder(ColumnNames(Tracks.columns), PkColumns(Tracks.columns)) == ByColumn("created_at")
    ensures !Descending(ColumnNames(Tracks.columns), ByColumn("created_at"))(Older, Newer)
  {
    TracksOrder();
    TracksSortValues();
  }

  lemma TracksSortValues()
    ensures SortValue(Older, ColumnNames(Tracks.columns), ByColumn("created_at")) == Integer(10)
    ensures SortValue(Newer, ColumnNames(Tracks.columns), ByColumn("created_at")) == Integer(20)
  {
    CreatedAtIndex();
  }

  lemma CreatedAtIndex()
    ensures IndexOfName(ColumnNames(Tracks.columns), "created_at") == Some(2)
  {
    TracksNames();
    var names := ColumnNames(Tracks.columns);
    assert names[2] == "created_at";
    assert names[0] != "created_at" && names[1] != "created_at";
  }

  lemma TracksNewestFirst()
    ensures OrderedRows(Tracks)[0] == Newer
  {
    OlderNotFirst();
    var names := ColumnNames(Tracks.columns);
    var le := Descending(names, ByColumn("created_at"));
    DescendingIsTotalPreorder(names, ByColumn("created_at"));
    assert Tracks.rows[1..] == [Newer];
    assert SortBy([Newer], le) == [Newer];
    assert SortBy(Tracks.rows, le) == Insert(Older, [Newer], le);
  }

  lemma TracksListed()
    ensures "tracks" in ListTables(TestDb)
  {
    assert Names(TestDb.tables) == ["tracks"];
    assert LowerAscii("tracks"[..6])[0] == 't';
  }

  /** The service test: `tracks` is listed; a one-row page of it is ordered on
      `created_at`, shows its three columns, and holds the newer row. */
  lemma FetchOrdersLatest(utf8: seq<byte> -> Option<string>)
    ensures "tracks" in ListTables(TestDb)
    ensures var r := FetchTableRows(TestDb, "tracks", 1, 0, utf8);
            && r.Ok?
            && r.value.orderBy == "created_at DESC"
            && r.value.columns == ["id", "title", "created_at"]
            && |r.value.rows| == 1 && |r.value.rows[0]| == 3
            && r.value.rows[0][1] == ("title", JText("newer"))
  {
    TracksListed();
    TracksNames();
    FetchTracks(utf8);
    NewerItem(utf8);
  }

  lemma FetchTracks(utf8: seq<byte> -> Option<string>)
    ensures FetchTableRows(TestDb, "tracks", 1, 0, utf8)
            == Ok(RowsPayload("tracks", 1, 0, 2, [RowItem(ColumnNames(Tracks.columns), Newer, utf8)],
                              ColumnNames(Tracks.columns), "created_at DESC"))
  {
    TracksLookup();
    TracksOrder();
    TracksFirstPage();
    SinglePageRows(ColumnNames(Tracks.columns), Page(OrderedRows(Tracks), 1, 0), utf8);
  }

  lemma TracksLookup()
    ensures Lookup(TestDb, "tracks") == Some(Tracks)
  {
  }

  /** The reply rows of a one-row page. */
  lemma SinglePageRows(names: seq<string>, page: seq<Row>, utf8: seq<byte> -> Option<string>)
    requires |page| == 1
    ensures seq(|page|, i requires 0 <= i < |page| => RowItem(names, page[i], utf8)) == [RowItem(names, page[0], utf8)]
  {
  }

  lemma TracksFirstPage()
    ensures Page(OrderedRows(Tracks), 1, 0) == [Newer]
  {
    TracksNewestFirst();
  }

  lemma NewerItem(utf8: seq<byte> -> Option<string>)
    ensures RowItem(ColumnNames(Tracks.columns), Newer, utf8)
            == [("id", JInt(2)), ("title", JText("newer")), ("created_at", JInt(20))]
  {
    TracksNames();
  }
}

=== FILE: env_file.dfy ===
/** The minimal `.env` loader that both the daemon (`src/ytplayd.py`) and the CLI
    (`src/ytplay.py`) run at start-up: `KEY=VALUE` lines, first definition wins,
    variables already in the environment are never overridden.

    The file system is a map from path to the file's lines; the environment is a map. */
module EnvFile {
  import opened Wrappers
  import opened Text

  type Env = map<string, string>
  type Files = map<string, seq<string>>

  datatype Binding = Binding(key: string, value: string)

  /** A value with surrounding whitespace, then `"`, then `'` stripped, in that order. */
  function CleanValue(raw: string): string
  {
    StripChar(StripChar(Strip(raw), '"'), '\'')
  }

  /** One line of the file: skipped when blank, a `#` comment, or without `=`;
      otherwise split at the FIRST `=`, key and value cleaned. */
  function ParseLine(line: string): (r: Option<Binding>)
    ensures r.None? <==> IsBlank(line) || Strip(line)[0] == '#' || '=' !in Strip(line)
    ensures r.Some? ==> '=' !in r.value.key
    ensures r.Some? ==> r.value.key == [] || (!IsSpace(r.value.key[0]) && !IsSpace(r.value.key[|r.value.key| - 1]))
  {
    var s := Strip(line);
    if s == [] || s[0] == '#' then None
    else match IndexOf(s, '=')
      case None => None
      case Some(i) => Some(Binding(Strip(s[..i]), CleanValue(s[i + 1..])))
  }

  /** A key that a line `KEY=VALUE` written by hand can carry unchanged. */
  predicate PlainKey(k: string) {
    && (k == [] || (!IsSpace(k[0]) && !IsSpace(k[|k| - 1]) && k[0] != '#'))
    && '=' !in k
  }

  /** A value that survives the whitespace and quote stripping unchanged. */
  predicate PlainValue(v: string) {
    v == [] || (!IsSpace(v[0]) && !IsSpace(v[|v| - 1]) && v[0] != '"' && v[|v| - 1] != '"'
                && v[0] != '\'' && v[|v| - 1] != '\'')
  }

  /** Writing `k=v` and reading it back gives the binding `(k, v)`. */
  lemma FormatParse(k: string, v: string)
    requires PlainKey(k) && PlainValue(v)
    ensures ParseLine(k + "=" + v) == Some(Binding(k, v))
  {
    LineIsStripped(k, v);
    ParseJoined(k, v);
    assert Strip(k) == k;
    CleanPlainValue(v);
  }

  /** A stripped line `a=b`, not a comment, whose key part has no `=`, parses
      to the cleaned halves. */
  lemma ParseJoined(a: string, b: string)
    requires '=' !in a
    requires Strip(a + "=" + b) == a + "=" + b && (a + "=" + b)[0] != '#'
    ensures ParseLine(a + "=" + b) == Some(Binding(Strip(a), CleanValue(b)))
  {
    var line := a + "=" + b;
    assert ParseLine(line) == Some(Binding(Strip(line[..|a|]), CleanValue(line[|a| + 1..]))) by {
      FirstEquals(a, b);
      ParseStrippedLine(line, |a|);
    }
    assert Binding(Strip(line[..|a|]), CleanValue(line[|a| + 1..])) == Binding(Strip(a), CleanValue(b)) by {
      JoinedHalves(a, b);
    }
  }

  lemma JoinedHalves(a: string, b: string)
    ensures (a + "=" + b)[..|a|] == a && (a + "=" + b)[|a| + 1..] == b
  {
    var line := a + "=" + b;
    assert line[..|a|] == a;
    assert line[|a| + 1..] == b;
  }

  lemma ParseStrippedLine(s: string, i: nat)
    requires Strip(s) == s && s != [] && s[0] != '#'
    requires IndexOf(s, '=') == Some(i)
    ensures ParseLine(s) == Some(Binding(Strip(s[..i]), CleanValue(s[i + 1..])))
  {
  }

  lemma CleanPlainValue(v: string)
    requires PlainValue(v)
    ensures CleanValue(v) == v
  {
    var a := Strip(v);
    assert a == v;
    var b := StripChar(a, '"');
    assert b == v;
    var c := StripChar(b, '\'');
    assert c == v;
  }

  lemma LineIsStripped(k: string, v: string)
    requires PlainKey(k) && PlainValue(v)
    ensures Strip(k + "=" + v) == k + "=" + v
    ensures (k + "=" + v)[0] != '#'
  {
    var line := k + "=" + v;
    if v != [] {
      assert line[|line| - 1] == v[|v| - 1];
    }
    if k != [] {
      assert line[0] == k[0];
    }
  }

  lemma FirstEquals(k: string, v: string)
    requires '=' !in k
    ensures IndexOf(k + "=" + v, '=') == Some(|k|)
  {
    var line := k + "=" + v;
    assert line[|k|] == '=';
    assert line[..|k|] == k;
  }

  /** Every line of the file, parsed. */
  function ParseAll(lines: seq<string>): (r: seq<Option<Binding>>)
    ensures |r| == |lines|
    ensures forall i :: 0 <= i < |lines| ==> r[i] == ParseLine(lines[i])
  {
    seq(|lines|, i requires 0 <= i < |lines| => ParseLine(lines[i]))
  }

  /** Whether `os.putenv` takes the binding: a non-empty name without `=`, and
      no NUL character in the name or the value. Otherwise it raises
      `ValueError`. */
  predicate Settable(b: Binding) {
    b.key != [] && '=' !in b.key && '\0' !in b.key && '\0' !in b.value
  }

  /** `os.environ.setdefault(key, value)` for every parsed binding, in order.
      None when one of them raises: a key not yet set whose binding `putenv`
      refuses. Nothing catches the error, so the program stops. */
  function Apply(env: Env, bs: seq<Option<Binding>>): (r: Option<Env>)
    ensures r.Some? ==> forall k :: k in env ==> k in r.value && r.value[k] == env[k]
    ensures r.Some? ==> forall k :: k in r.value ==> k in env || FirstValue(bs, k).Some?
    ensures (forall i :: 0 <= i < |bs| && bs[i].Some? ==> Settable(bs[i].value)) ==> r.Some?
    decreases |bs|
  {
    if bs == [] then Some(env)
    else match bs[0]
      case None => Apply(env, bs[1..])
      case Some(b) =>
        if b.key in env then Apply(env, bs[1..])
        else if !Settable(b) then None
        else Apply(env[b.key := b.value], bs[1..])
  }

  /** The value the first binding for `k` gives it. */
  function FirstValue(bs: seq<Option<Binding>>, k: string): Option<string>
    decreases |bs|
  {
    if bs == [] then None
    else match bs[0]
      case Some(b) => if b.key == k then Some(b.value) else FirstValue(bs[1..], k)
      case None => FirstValue(bs[1..], k)
  }

  /** Some key absent from the environment is first bound to something `putenv`
      refuses: the `setdefault` that raises. */
  predicate Refused(env: Env, bs: seq<Option<Binding>>) {
    exists i :: 0 <= i < |bs| && bs[i].Some? && bs[i].value.key !in env
                && FirstValue(bs[..i], bs[i].value.key).None? && !Settable(bs[i].value)
  }

  /** Loading fails exactly when some `setdefault` raises. */
  lemma {:induction false} ApplyFailsExactly(env: Env, bs: seq<Option<Binding>>)
    ensures Apply(env, bs).None? <==> Refused(env, bs)
    decreases |bs|
  {
    if bs != [] {
      match bs[0]
      case None =>
        RefusedShift(env, env, bs);
        ApplyFailsExactly(env, bs[1..]);
      case Some(b) =>
        if b.key in env {
          RefusedShift(env, env, bs);
          ApplyFailsExactly(env, bs[1..]);
        } else if !Settable(b) {
          assert bs[..0] == [];
          assert FirstValue(bs[..0], b.key).None?;
        } else {
          var env' := env[b.key := b.value];
          RefusedShift(env, env', bs);
          ApplyFailsExactly(env', bs[1..]);
        }
    }
  }

  /** Past the first binding, the refusals of `bs` are those of its tail
      against the environment the first binding leaves. */
  lemma RefusedShift(env: Env, env': Env, bs: seq<Option<Binding>>)
    requires bs != []
    requires bs[0].None? ==> env' == env
    requires bs[0].Some? ==>
               || (bs[0].value.key in env && env' == env)
               || (bs[0].value.key !in env && Settable(bs[0].value) && env' == env[bs[0].value.key := bs[0].value.value])
    ensures Refused(env, bs) <==> Refused(env', bs[1..])
  {
    var tail := bs[1..];
    if Refused(env, bs) {
      var i :| 0 <= i < |bs| && bs[i].Some? && bs[i].value.key !in env
               && FirstValue(bs[..i], bs[i].value.key).None? && !Settable(bs[i].value);
      var k := bs[i].value.key;
      assert bs[..i][1..] == tail[..i - 1];
      assert tail[i - 1] == bs[i];
      assert FirstValue(tail[..i - 1], k).None?;
      assert Refused(env', tail);
    }
    if Refused(env', tail) {
      var j :| 0 <= j < |tail| && tail[j].Some? && tail[j].value.key !in env'
               && FirstValue(tail[..j], tail[j].value.key).None? && !Settable(tail[j].value);
      var k := tail[j].value.key;
      assert bs[..j + 1][1..] == tail[..j];
      assert bs[j + 1] == tail[j];
      assert FirstValue(bs[..j + 1], k).None?;
      assert Refused(env, bs);
    }
  }

  /** A key absent from the environment ends up with the value of its FIRST
      definition in the file; later definitions are ignored. */
  lemma {:induction false} FirstDefinitionWins(env: Env, bs: seq<Option<Binding>>, k: string)
    requires k !in env
    ensures Apply(env, bs).Some? ==> (k in Apply(env, bs).value <==> FirstValue(bs, k).Some?)
    ensures Apply(env, bs).Some? && FirstValue(bs, k).Some? ==> Apply(env, bs).value[k] == FirstValue(bs, k).value
    decreases |bs|
  {
    if bs != [] {
      match bs[0]
      case Some(b) =>
        if b.key == k {
          if Settable(b) {
            assert Apply(env, bs) == Apply(env[k := b.value], bs[1..]);
          }
        } else if b.key in env {
          FirstDefinitionWins(env, bs[1..], k);
        } else if Settable(b) {
          FirstDefinitionWins(env[b.key := b.value], bs[1..], k);
        }
      case None =>
        FirstDefinitionWins(env, bs[1..], k);
    }
  }

  /** A first line whose binding `putenv` refuses stops the loading, whatever
      follows it, unless its name is already set. */
  lemma RefusedLineStops(env: Env, line: string, rest: seq<string>)
    requires ParseLine(line).Some? && ParseLine(line).value.key !in env
    requires !Settable(ParseLine(line).value)
    ensures LoadLines(env, [line] + rest).None?
  {
    var bs := ParseAll([line] + rest);
    assert bs[0] == ParseLine(line);
  }

  /** A line with nothing before its `=`, such as `=v`, binds the empty name,
      which `putenv` refuses. */
  lemma EmptyKeyRefused(v: string)
    requires PlainValue(v)
    ensures ParseLine("=" + v) == Some(Binding("", v))
    ensures !Settable(ParseLine("=" + v).value)
  {
    var line := "=" + v;
    assert line[0] == '=' && line[1..] == v && line[..0] == [];
    if v != [] {
      assert line[|line| - 1] == v[|v| - 1];
    }
    assert Strip(line) == line;
    assert IndexOf(line, '=') == Some(0);
    ParseStrippedLine(line, 0);
    CleanPlainValue(v);
  }

  /** Loading the lines of a file into the environment. */
  function LoadLines(env: Env, lines: seq<string>): Option<Env>
  {
    Apply(env, ParseAll(lines))
  }

  /** The daemon's `load_env_file`: nothing for an empty or missing path, no `~` expansion. */
  function DaemonLoadEnvFile(env: Env, files: Files, path: string): (r: Option<Env>)
    ensures path == [] || path !in files ==> r == Some(env)
    ensures path != [] && path in files ==> r == LoadLines(env, files[path])
  {
    if path == [] || path !in files then Some(env) else LoadLines(env, files[path])
  }

  /** `os.path.expanduser` for `~` and `~/…` (with `home` the value of `HOME`):
      the home directory without trailing slashes, then the rest of the path,
      or `/` when that leaves nothing. Other paths, including `~user` forms,
      are returned unchanged. */
  function ExpandUser(home: string, p: string): (r: string)
    ensures !(p == "~" || StartsWith(p, "~/")) ==> r == p
    ensures p == "~" || StartsWith(p, "~/") ==> r != [] && EndsWith(r, p[1..])
    ensures StartsWith(p, "~/") && home != [] && home[|home| - 1] != '/' ==> r == home + p[1..]
    ensures p == "~" && home != [] && home[|home| - 1] != '/' ==> r == home
    ensures StartsWith(p, "~/") && home == "/" ==> r == p[1..]
  {
    if p == "~" || StartsWith(p, "~/") then
      var joined := RStrip(home, Only('/')) + p[1..];
      if joined == [] then "/" else joined
    else p
  }

  /** The CLI's `load_env_file`: nothing for an empty path; otherwise `~` is
      expanded first, then a missing file is skipped. */
  function CliLoadEnvFile(env: Env, files: Files, home: string, path: string): (r: Option<Env>)
    ensures path == [] ==> r == Some(env)
    ensures path != [] && ExpandUser(home, path) !in files ==> r == Some(env)
    ensures path != [] && ExpandUser(home, path) in files ==> r == LoadLines(env, files[ExpandUser(home, path)])
  {
    if path == [] then Some(env)
    else
      var p := ExpandUser(home, path);
      if p !in files then Some(env) else LoadLines(env, files[p])
  }
}

=== FILE: format.dfy ===
/** The display helpers of `web/components/common/format.js` (copied verbatim
    into `web/app.js`): a track as "title - artist" and a time in seconds as a
    clock reading. */
module Format {
  import opened Wrappers
  import opened Text
  import opened JsValue

  /** A track as `formatTrack` reads it; "" stands for a missing or empty
      title or artist. */
  datatype TrackInfo = TrackInfo(title: string, artist: string)

  /** `part || "Unknown"`. */
  function OrUnknown(s: string): (r: string)
    ensures r != []
  {
    if s == [] then "Unknown" else s
  }

  /** `formatTrack`: "-" for no track, else the title, " - ", the artist. */
  function FormatTrack(track: Option<TrackInfo>): (r: string)
    ensures track.None? <==> r == "-"
    ensures track.Some? ==> StartsWith(r, OrUnknown(track.value.title))
                            && EndsWith(r, OrUnknown(track.value.artist))
                            && |r| == |OrUnknown(track.value.title)| + 3 + |OrUnknown(track.value.artist)|
    ensures track.Some? ==> r[|OrUnknown(track.value.title)|..|OrUnknown(track.value.title)| + 3] == " - "
  {
    match track
    case None => "-"
    case Some(t) =>
      var r := OrUnknown(t.title) + " - " + OrUnknown(t.artist);
      assert r[..|OrUnknown(t.title)|] == OrUnknown(t.title);
      assert r[|r| - |OrUnknown(t.artist)|..] == OrUnknown(t.artist);
      assert r[|OrUnknown(t.title)|..|OrUnknown(t.title)| + 3] == " - ";
      r
  }

  /** When neither part holds a dash, the line splits at its one dash back into
      the title and the artist, each with the space beside the dash. */
  lemma FormatTrackSplits(t: TrackInfo)
    requires '-' !in t.title && '-' !in t.artist
    ensures Split(FormatTrack(Some(t)), '-') == [OrUnknown(t.title) + " ", " " + OrUnknown(t.artist)]
  {
    var a, b := OrUnknown(t.title) + " ", " " + OrUnknown(t.artist);
    assert '-' !in a && '-' !in b;
    assert FormatTrack(Some(t)) == a + ['-'] + b;
    SplitAtFirst(a, b, '-');
    assert IndexOf(b, '-').None?;
  }

  /** A track with neither title nor artist still shows both places. */
  lemma FormatTrackUnknown()
    ensures FormatTrack(Some(TrackInfo("", ""))) == "Unknown - Unknown"
  {
  }

  // ---- formatTime ---------------------------------------------------------

  /** `String(k).padStart(2, "0")`. */
  function TwoDigits(k: nat): string {
    Pad2(NatToString(k))
  }

  /** The fields of the reading of `seconds` whole seconds: hours, minutes and
      seconds when there is at least an hour, else minutes and seconds. */
  function ClockParts(seconds: nat): seq<string> {
    var minutes := seconds / 60;
    var hours := minutes / 60;
    if hours > 0 then [NatToString(hours), TwoDigits(minutes % 60), TwoDigits(seconds % 60)]
    else [NatToString(minutes % 60), TwoDigits(seconds % 60)]
  }

  function Clock(seconds: nat): string {
    Join(ClockParts(seconds), ":")
  }

  lemma DigitsHaveNoColon(s: string)
    requires IsDigits(s)
    ensures ':' !in s
  {
  }

  lemma TwoDigitsReads(k: nat)
    requires k < 100
    ensures |TwoDigits(k)| == 2 && IsDigits(TwoDigits(k)) && ParseNat(TwoDigits(k)) == k
  {
    var d := NatToString(k);
    ParseNatToString(k);
    if k < 10 {
      assert d == [DigitChar(k)];
      var p := Pad2(d);
      assert p == ['0', DigitChar(k)];
      assert p[..1] == ['0'];
      assert ParseNat(p[..1]) == 0;
    } else {
      assert d == NatToString(k / 10) + [DigitChar(k % 10)];
      assert |d| == 2;
    }
  }

  lemma ClockPartsRead(seconds: nat)
    ensures forall i :: 0 <= i < |ClockParts(seconds)| ==> ':' !in ClockParts(seconds)[i]
    ensures var p := ClockParts(seconds);
            && p[0] != [] && IsDigits(p[0])
            && forall i :: 1 <= i < |p| ==> |p[i]| == 2 && IsDigits(p[i])
  {
    var minutes := seconds / 60;
    var hours := minutes / 60;
    var parts := ClockParts(seconds);
    TwoDigitsReads(minutes % 60);
    TwoDigitsReads(seconds % 60);
    forall i | 0 <= i < |parts| ensures ':' !in parts[i] {
      DigitsHaveNoColon(parts[i]);
    }
  }

  lemma ClockValue(seconds: nat)
    ensures var p := ClockParts(seconds);
            && (|p| == 2 <==> seconds < 3600)
            && (|p| == 2 ==> 60 * ParseNat(p[0]) + ParseNat(p[1]) == seconds)
            && (|p| == 3 ==> 3600 * ParseNat(p[0]) + 60 * ParseNat(p[1]) + ParseNat(p[2]) == seconds)
  {
    var minutes := seconds / 60;
    var hours := minutes / 60;
    TwoDigitsReads(minutes % 60);
    TwoDigitsReads(seconds % 60);
    ParseNatToString(hours);
    ParseNatToString(minutes % 60);
    assert seconds == 60 * minutes + seconds % 60;
    assert minutes == 60 * hours + minutes % 60;
    assert hours > 0 <==> seconds >= 3600;
    if hours == 0 {
      assert minutes % 60 == minutes;
    }
  }

  /** Reading the fields of a clock, already split. */
  predicate ClockFields(p: seq<string>) {
    && (|p| == 2 || |p| == 3)
    && p[0] != [] && IsDigits(p[0])
    && forall i :: 1 <= i < |p| ==> |p[i]| == 2 && IsDigits(p[i])
  }

  function FieldsValue(p: seq<string>): nat
    requires ClockFields(p)
  {
    if |p| == 2 then 60 * ParseNat(p[0]) + ParseNat(p[1])
    else 3600 * ParseNat(p[0]) + 60 * ParseNat(p[1]) + ParseNat(p[2])
  }

  /** Reads a clock back: `m:ss` or `h:mm:ss`, the later fields two digits. */
  function ReadClock(s: string): Option<nat> {
    var p := Split(s, ':');
    if ClockFields(p) then Some(FieldsValue(p)) else None
  }

  lemma ReadClockFields(p: seq<string>)
    requires ClockFields(p)
    requires forall i :: 0 <= i < |p| ==> ':' !in p[i]
    ensures ReadClock(Join(p, ":")) == Some(FieldsValue(p))
    ensures Split(Join(p, ":"), ':') == p
  {
    SplitJoin(p, ':');
  }

  /** Every whole number of seconds is read back from its clock. */
  lemma ClockRoundTrip(seconds: nat)
    ensures ReadClock(Clock(seconds)) == Some(seconds)
    ensures |Split(Clock(seconds), ':')| == (if seconds >= 3600 then 3 else 2)
    ensures var first := Split(Clock(seconds), ':')[0]; |first| == 1 || first[0] != '0'
  {
    var parts := ClockParts(seconds);
    ClockPartsRead(seconds);
    ClockValue(seconds);
    assert ClockFields(parts);
    assert FieldsValue(parts) == seconds;
    ReadClockFields(parts);
  }

  /** `formatTime`: "0:00" for anything but a non-negative number; otherwise
      the clock of the whole seconds, which reads back as their number, its
      first field unpadded. Positive infinity floors to itself and leaves NaN
      minutes and seconds. */
  function FormatTime(total: Value): (r: string)
    ensures !total.Num? ==> r == "0:00"
    ensures total == Num(NaN) || total == Num(Infinity(true)) ==> r == "0:00"
    ensures total.Num? && total.n.Finite? && total.n.x < 0.0 ==> r == "0:00"
    ensures total.Num? && total.n.Finite? && total.n.x >= 0.0 ==>
              && ReadClock(r) == Some(total.n.x.Floor as nat)
              && |Split(r, ':')| == (if total.n.x >= 3600.0 then 3 else 2)
              && (var first := Split(r, ':')[0]; |first| == 1 || first[0] != '0')
    ensures total == Num(Infinity(false)) ==> r == "Infinity:NaN:NaN"
  {
    match total
    case Num(Finite(x)) =>
      if x < 0.0 then "0:00"
      else
        var seconds := x.Floor as nat;
        ClockRoundTrip(seconds);
        assert seconds >= 3600 <==> x >= 3600.0;
        Clock(seconds)
    case Num(Infinity(negative)) =>
      // Infinity floors to itself and gives NaN minutes and seconds.
      if negative then "0:00" else "Infinity:NaN:NaN"
    case _ => "0:00"
  }

  /** Fractions of a second are dropped, never rounded up: any time from `n`
      seconds up to but not including `n + 1` shows as the clock of `n`. */
  lemma FormatTimeFloors(x: real, n: nat)
    requires n as real <= x < n as real + 1.0
    ensures FormatTime(Num(Finite(x))) == Clock(n)
  {
    assert x.Floor == n;
  }
}

=== FILE: js_value.dfy ===
/** The JavaScript values the web front end's helpers inspect. Objects are
    their own keys with values, in `Object.keys` order. */
module JsValue {
  /** A JavaScript number: NaN, an infinity, or a finite value. */
  datatype Number = NaN | Infinity(negative: bool) | Finite(x: real)

  datatype Value =
    | Undefined
    | Null
    | Bool(b: bool)
    | Num(n: Number)
    | Str(s: string)
    | Arr(items: seq<Value>)
    | Obj(fields: seq<(string, Value)>)

  function Keys(fields: seq<(string, Value)>): (r: seq<string>)
    ensures |r| == |fields|
    ensures forall i :: 0 <= i < |fields| ==> r[i] == fields[i].0
  {
    seq(|fields|, i requires 0 <= i < |fields| => fields[i].0)
  }
}

=== FILE: loading_overlay.dfy ===
/** The loading overlay `web/components/loading/loading-overlay.js` (copied
    into `web/app.js`): a nesting counter of pending requests, a cycle of
    canned messages, a short log of the latest messages, and a poll of the
    daemon's `/progress` lines that takes over from the cycle once real lines
    arrive.

    Timers and requests are events: a tick of the message cycle, and the
    arrival of a `/progress` reply, are operations of their own. The overlay's
    visibility is the `shown` field; the DOM it drives is left out. */
module LoadingOverlay {
  import opened Wrappers
  import opened Text

  /** `LOADING_MESSAGES`, shown in turn every 1400 ms until progress arrives. */
  const LoadingMessages: seq<string> := [
    "Warming up the curator...",
    "Scanning the stack...",
    "Picking the next track...",
    "Resolving stream URLs...",
    "Syncing the queue...",
    "Tuning the vibe..."
  ]

  /** The log keeps this many messages, newest first. */
  const HistoryLength := 4

  /** The module's variables: `loadingCount`, whether `loadingCycle` and
      `progressPoll` are set, `loadingIndex`, `loadingHistory`,
      `progressLastId`, `progressActive`, plus the overlay's `is-active` class
      and the text of `loadingText`. */
  datatype Overlay = Overlay(
    count: nat,
    shown: bool,
    cycleRunning: bool,
    index: nat,
    history: seq<string>,
    text: string,
    pollRunning: bool,
    lastId: int,
    active: bool)

  const Initial := Overlay(0, false, false, 0, [], "", false, 0, false)

  /** What the log always looks like: at most four stripped, non-empty
      messages, no message twice in a row. */
  predicate HistoryOk(h: seq<string>) {
    && |h| <= HistoryLength
    && (forall i :: 0 <= i < |h| ==> h[i] != [] && Strip(h[i]) == h[i])
    && (forall i :: 0 <= i < |h| - 1 ==> h[i] != h[i + 1])
  }

  /** `pushLoadingMessage`: the stripped text goes on top of the log unless it
      is blank or already on top; the log is cut to four. */
  function PushMessage(o: Overlay, text: string): (r: Overlay)
    ensures r == o.(history := r.history)
    ensures IsBlank(text) || (o.history != [] && o.history[0] == Strip(text)) ==> r == o
    ensures !IsBlank(text) && !(o.history != [] && o.history[0] == Strip(text)) ==>
              r.history == PyPrefix([Strip(text)] + o.history, HistoryLength)
    ensures HistoryOk(o.history) ==> HistoryOk(r.history)
  {
    var msg := Strip(text);
    if msg == [] || (o.history != [] && o.history[0] == msg) then o
    else
      PushKeepsHistoryOk(o.history, msg);
      o.(history := PyPrefix([msg] + o.history, HistoryLength))
  }

  lemma PushKeepsHistoryOk(h: seq<string>, msg: string)
    requires msg != [] && msg == Strip(msg)
    requires h == [] || h[0] != msg
    ensures HistoryOk(h) ==> HistoryOk(PyPrefix([msg] + h, HistoryLength))
  {
    if HistoryOk(h) {
      var s := [msg] + h;
      ConsKeepsEntries(h, msg);
      PrefixKeepsEntries(s, |PyPrefix(s, HistoryLength)|);
    }
  }

  /** The per-entry part of `HistoryOk`: stripped, non-empty, no repeat. */
  predicate EntriesOk(h: seq<string>) {
    && (forall i :: 0 <= i < |h| ==> h[i] != [] && Strip(h[i]) == h[i])
    && (forall i :: 0 <= i < |h| - 1 ==> h[i] != h[i + 1])
  }

  lemma ConsKeepsEntries(h: seq<string>, msg: string)
    requires msg != [] && msg == Strip(msg)
    requires h == [] || h[0] != msg
    requires HistoryOk(h)
    ensures EntriesOk([msg] + h)
  {
    var s := [msg] + h;
    forall i | 0 <= i < |s|
      ensures s[i] != [] && Strip(s[i]) == s[i]
    {
      if i > 0 {
        assert s[i] == h[i - 1];
      }
    }
    forall i | 0 <= i < |s| - 1
      ensures s[i] != s[i + 1]
    {
      if i > 0 {
        assert s[i] == h[i - 1] && s[i + 1] == h[i];
      }
    }
  }

  lemma PrefixKeepsEntries(s: seq<string>, k: nat)
    requires EntriesOk(s) && k <= |s|
    ensures EntriesOk(s[..k])
  {
    var r := s[..k];
    assert forall i :: 0 <= i < |r| ==> r[i] == s[i];
  }

  /** `setLoadingMessage`: the text is shown as given and pushed on the log. */
  function SetLoadingMessage(o: Overlay, text: string): (r: Overlay)
    ensures r.text == text
    ensures r == PushMessage(o, text).(text := text)
  {
    PushMessage(o, text).(text := text)
  }

  /** `startLoadingCycle`: starts the cycle unless it already runs. */
  function StartCycle(o: Overlay): (r: Overlay)
    ensures r.cycleRunning
    ensures o.cycleRunning ==> r == o
    ensures r == o.(cycleRunning := true)
  {
    if o.cycleRunning then o else o.(cycleRunning := true)
  }

  /** One tick of the cycle's interval: the next canned message is shown and
      logged. A cleared interval does not fire. */
  function CycleTick(o: Overlay): (r: Overlay)
    ensures !o.cycleRunning ==> r == o
    ensures o.cycleRunning ==>
              && r.index == o.index + 1
              && r.text == LoadingMessages[o.index % |LoadingMessages|]
              && r.history == PushMessage(o, LoadingMessages[o.index % |LoadingMessages|]).history
  {
    if !o.cycleRunning then o
    else SetLoadingMessage(o.(index := o.index + 1), LoadingMessages[o.index % |LoadingMessages|])
  }

  /** `stopLoadingCycle(reset)`: the cycle stops and restarts from the first
      message; with `reset` the log is emptied too. */
  function StopCycle(o: Overlay, reset: bool): (r: Overlay)
    ensures !r.cycleRunning && r.index == 0
    ensures r.history == (if reset then [] else o.history)
    ensures r == o.(cycleRunning := false, index := 0, history := r.history)
  {
    o.(cycleRunning := false, index := 0, history := if reset then [] else o.history)
  }

  // ---- progress ------------------------------------------------------------

  /** An entry of `/progress`'s `lines`: a falsy entry, or one with a numeric
      `id` (`None` when it is not a number) and a `msg` ("" when falsy). */
  datatype ProgressLine = NoLine | Line(id: Option<int>, msg: string)

  /** The lines `applyProgressLines` keeps: those with a numeric id above the
      last one seen. */
  predicate IsNew(line: ProgressLine, lastId: int) {
    line.Line? && line.id.Some? && line.id.value > lastId
  }

  function NewLines(lines: seq<ProgressLine>, lastId: int): (r: seq<ProgressLine>)
    ensures forall l :: l in r <==> l in lines && IsNew(l, lastId)
    ensures forall i :: 0 <= i < |r| ==> IsNew(r[i], lastId)
    ensures |r| <= |lines|
  {
    if lines == [] then []
    else (if IsNew(lines[0], lastId) then [lines[0]] else []) + NewLines(lines[1..], lastId)
  }

  /** Filtering distributes over concatenation: the new lines of a reply keep
      the reply's order. */
  lemma {:induction false} NewLinesAppend(a: seq<ProgressLine>, b: seq<ProgressLine>, lastId: int)
    ensures NewLines(a + b, lastId) == NewLines(a, lastId) + NewLines(b, lastId)
    decreases |a|
  {
    if a == [] {
      assert a + b == b;
    } else {
      assert (a + b)[0] == a[0] && (a + b)[1..] == a[1..] + b;
      NewLinesAppend(a[1..], b, lastId);
    }
  }

  /** A line with no message to log: a falsy entry or a blank `msg`. */
  predicate Silent(line: ProgressLine) {
    line.NoLine? || IsBlank(line.msg)
  }

  /** One line's turn: a non-empty `msg` is pushed. */
  function PushLine(o: Overlay, line: ProgressLine): (r: Overlay)
    ensures r == o.(history := r.history)
    ensures HistoryOk(o.history) ==> HistoryOk(r.history)
    ensures Silent(line) ==> r == o
    ensures !Silent(line) ==> r.history != [] && r.history[0] == Strip(line.msg)
  {
    if line.Line? && line.msg != [] then PushMessage(o, line.msg) else o
  }

  /** Line `i` is the last one with a message to log. */
  predicate LastLoggedAt(lines: seq<ProgressLine>, i: int) {
    0 <= i < |lines| && !Silent(lines[i]) && forall j :: i < j < |lines| ==> Silent(lines[j])
  }

  /** Pushes each new line's non-empty message, in order: the last line's
      message, when it has one, ends on top of the log, and lines with nothing
      to log leave the overlay as it was. */
  function PushLines(o: Overlay, lines: seq<ProgressLine>): (r: Overlay)
    ensures r == o.(history := r.history)
    ensures HistoryOk(o.history) ==> HistoryOk(r.history)
    ensures lines != [] && !Silent(Last(lines)) ==> r.history != [] && r.history[0] == Strip(Last(lines).msg)
    ensures (forall i :: 0 <= i < |lines| ==> Silent(lines[i])) ==> r == o
    decreases |lines|
  {
    if lines == [] then o
    else
      var init := lines[..|lines| - 1];
      assert forall i :: 0 <= i < |init| ==> init[i] == lines[i];
      PushLine(PushLines(o, init), Last(lines))
  }

  /** Whatever silent lines follow it, the last message there is ends on top
      of the log. */
  lemma {:induction false} PushLinesTop(o: Overlay, lines: seq<ProgressLine>, i: int)
    requires LastLoggedAt(lines, i)
    ensures var r := PushLines(o, lines);
            r.history != [] && r.history[0] == Strip(lines[i].msg)
    decreases |lines|
  {
    if i < |lines| - 1 {
      var init := lines[..|lines| - 1];
      assert Silent(Last(lines));
      assert LastLoggedAt(init, i) by {
        assert forall j :: i < j < |init| ==> init[j] == lines[j];
      }
      PushLinesTop(o, init, i);
    }
  }

  /** `applyProgressLines`: the first new lines stop the cycle (keeping the
      log); each new message is logged, the last one shown, and the last
      new line's id raises `progressLastId`. Not an array (`None`) changes
      nothing. */
  function ApplyProgressLines(o: Overlay, lines: Option<seq<ProgressLine>>): (r: Overlay)
    ensures lines.None? || NewLines(lines.value, o.lastId) == [] ==> r == o
    ensures lines.Some? && NewLines(lines.value, o.lastId) != [] ==>
              var latest := Last(NewLines(lines.value, o.lastId));
              && r.active
              && (!o.active ==> !r.cycleRunning && r.index == 0)
              && (o.active ==> r.cycleRunning == o.cycleRunning && r.index == o.index)
              && r.lastId == latest.id.value
              && r.lastId > o.lastId
              && (latest.msg != [] ==> r.text == latest.msg)
              && (latest.msg == [] ==> r.text == o.text)
    ensures lines.Some? && NewLines(lines.value, o.lastId) != [] ==>
              var latest := Last(NewLines(lines.value, o.lastId));
              !IsBlank(latest.msg) ==> r.history != [] && r.history[0] == Strip(latest.msg)
    ensures lines.Some? && (forall i :: 0 <= i < |NewLines(lines.value, o.lastId)| ==> IsBlank(NewLines(lines.value, o.lastId)[i].msg)) ==>
              r.history == o.history
    ensures r.lastId >= o.lastId
    ensures r.count == o.count && r.shown == o.shown && r.pollRunning == o.pollRunning
    ensures HistoryOk(o.history) ==> HistoryOk(r.history)
  {
    if lines.None? then o
    else
      var newer := NewLines(lines.value, o.lastId);
      if newer == [] then o
      else
        assert Last(newer) in newer;
        ApplyNewLines(o, newer)
  }

  /** The new lines of one reply, at least one, applied in turn. */
  /** Progress takes over from the canned cycle: the first time, the cycle
      stops without a reset. */
  function Activate(o: Overlay): (r: Overlay)
    ensures r.active && r.history == o.history && r.lastId == o.lastId
    ensures o.active ==> r == o
    ensures !o.active ==> r == o.(active := true, cycleRunning := false, index := 0)
  {
    if !o.active then StopCycle(o.(active := true), false) else o
  }

  function ApplyNewLines(o: Overlay, newer: seq<ProgressLine>): (r: Overlay)
    requires newer != [] && IsNew(Last(newer), o.lastId)
    ensures r.active
    ensures !o.active ==> !r.cycleRunning && r.index == 0
    ensures o.active ==> r.cycleRunning == o.cycleRunning && r.index == o.index
    ensures r.lastId == Last(newer).id.value && r.lastId > o.lastId
    ensures Last(newer).msg != [] ==> r.text == Last(newer).msg
    ensures Last(newer).msg == [] ==> r.text == o.text
    ensures !IsBlank(Last(newer).msg) ==> r.history != [] && r.history[0] == Strip(Last(newer).msg)
    ensures (forall i :: 0 <= i < |newer| ==> Silent(newer[i])) ==> r.history == o.history
    ensures r.count == o.count && r.shown == o.shown && r.pollRunning == o.pollRunning
    ensures HistoryOk(o.history) ==> HistoryOk(r.history)
  {
    var pushed := PushLines(Activate(o), newer);
    var latest := Last(newer);
    var shownText := if latest.msg != [] then pushed.(text := latest.msg) else pushed;
    shownText.(lastId := latest.id.value)
  }

  /** Each new message is logged in turn: the last new line with a message
      has it on top of the log afterwards, whatever blank lines follow it. */
  lemma ApplyProgressLinesTop(o: Overlay, lines: seq<ProgressLine>, i: int)
    requires LastLoggedAt(NewLines(lines, o.lastId), i)
    ensures var r := ApplyProgressLines(o, Some(lines));
            r.history != [] && r.history[0] == Strip(NewLines(lines, o.lastId)[i].msg)
  {
    var newer := NewLines(lines, o.lastId);
    assert Last(newer) in newer;
    var r := ApplyProgressLines(o, Some(lines));
    assert r == ApplyNewLines(o, newer);
    assert r.history == PushLines(Activate(o), newer).history;
    PushLinesTop(Activate(o), newer, i);
  }

  function Last<T>(s: seq<T>): T
    requires s != []
  {
    s[|s| - 1]
  }

  /** A `/progress` reply: `lines` (`None` when not an array) and `latest_id`
      (`None` when not a number). A failed request or a non-object reply is
      `None` as a whole. */
  datatype ProgressData = ProgressData(lines: Option<seq<ProgressLine>>, latestId: Option<int>)

  /** `refreshProgress(reset)` once its reply has arrived: with `reset` only
      the last id is taken over; otherwise the lines are applied and a larger
      `latest_id` raises the last id further. */
  function RefreshProgress(o: Overlay, data: Option<ProgressData>, reset: bool): (r: Overlay)
    ensures data.None? || data.value.lines.None? ==> r == o
    ensures data.Some? && data.value.lines.Some? && reset ==>
              r == o.(lastId := data.value.latestId.GetOr(o.lastId))
    ensures !reset ==> r.lastId >= o.lastId
    ensures !reset && data.Some? && data.value.lines.Some? && data.value.latestId.Some? ==>
              r.lastId >= data.value.latestId.value
    ensures r.count == o.count && r.shown == o.shown && r.pollRunning == o.pollRunning
    ensures HistoryOk(o.history) ==> HistoryOk(r.history)
  {
    if data.None? || data.value.lines.None? then o
    else if reset then o.(lastId := data.value.latestId.GetOr(o.lastId))
    else
      var applied := ApplyProgressLines(o, data.value.lines);
      if data.value.latestId.Some? && data.value.latestId.value > applied.lastId then
        applied.(lastId := data.value.latestId.value)
      else applied
  }

  /** `startProgressPoll`: unless already polling, forgets that progress was
      seen and starts the poll (its first, resetting request is answered by a
      later `RefreshProgress`). */
  function StartPoll(o: Overlay): (r: Overlay)
    ensures r.pollRunning
    ensures o.pollRunning ==> r == o
    ensures !o.pollRunning ==> r == o.(pollRunning := true, active := false)
  {
    if o.pollRunning then o else o.(pollRunning := true, active := false)
  }

  /** `stopProgressPoll`. */
  function StopPoll(o: Overlay): (r: Overlay)
    ensures !r.pollRunning && r.lastId == 0 && !r.active
    ensures r == o.(pollRunning := false, lastId := 0, active := false)
  {
    o.(pollRunning := false, lastId := 0, active := false)
  }

  // ---- setLoading ----------------------------------------------------------

  /** `setLoading(active, text)`: a start counts up, shows the overlay, logs a
      non-empty text, and on the first start runs the cycle and the poll; an
      end counts down to no lower than zero, and at zero hides the overlay,
      stops both and clears the log. */
  function SetLoading(o: Overlay, activate: bool, text: string): (r: Overlay)
    ensures activate ==> r.count == o.count + 1 && r.shown && r.cycleRunning == (o.count == 0 || o.cycleRunning)
    ensures activate && text != [] ==> r.text == text
    ensures activate && o.count == 0 ==> r.pollRunning && (!o.pollRunning ==> !r.active) && r.lastId == o.lastId && r.index == o.index
    ensures activate && o.count > 0 ==> r.pollRunning == o.pollRunning && r.active == o.active && r.lastId == o.lastId
    ensures !activate ==> r.count == (if o.count == 0 then 0 else o.count - 1)
    ensures !activate && r.count == 0 ==> Idle(r.(text := o.text)) && r.text == o.text
    ensures !activate && r.count > 0 ==> r == o.(count := r.count)
  {
    if activate then
      var wasIdle := o.count == 0;
      var counted := o.(count := o.count + 1);
      var messaged := if text != [] then SetLoadingMessage(counted, text) else counted;
      var visible := messaged.(shown := true);
      if wasIdle then StartPoll(StartCycle(visible)) else visible
    else
      var n := if o.count == 0 then 0 else o.count - 1;
      if n == 0 then StopPoll(StopCycle(o.(count := 0, shown := false), true))
      else o.(count := n)
  }

  /** Nothing pending: overlay hidden, cycle and poll stopped, log empty. */
  predicate Idle(o: Overlay) {
    && o.count == 0 && !o.shown && !o.cycleRunning && !o.pollRunning
    && o.index == 0 && o.history == [] && o.lastId == 0 && !o.active
  }

  /** What holds between events: the overlay is shown and the poll runs
      exactly while a request is pending, and the cycle never runs without
      one. */
  predicate Inv(o: Overlay) {
    && HistoryOk(o.history)
    && (o.count > 0 <==> o.shown)
    && (o.count > 0 <==> o.pollRunning)
    && (o.count == 0 ==> !o.cycleRunning)
    && (o.active ==> !o.cycleRunning)
  }

  /** Every event keeps the invariant. */
  lemma EventsKeepInv(o: Overlay, activate: bool, text: string, data: Option<ProgressData>, reset: bool)
    requires Inv(o)
    ensures Inv(SetLoading(o, activate, text))
    ensures Inv(CycleTick(o))
    ensures Inv(RefreshProgress(o, data, reset))
  {
    SetLoadingKeepsInv(o, activate, text);
    CycleTickKeepsInv(o);
    RefreshKeepsInv(o, data, reset);
  }

  lemma SetLoadingKeepsInv(o: Overlay, activate: bool, text: string)
    requires Inv(o)
    ensures Inv(SetLoading(o, activate, text))
  {
    if activate && text != [] {
      var counted := o.(count := o.count + 1);
      assert HistoryOk(PushMessage(counted, text).history);
    }
  }

  lemma CycleTickKeepsInv(o: Overlay)
    requires Inv(o)
    ensures Inv(CycleTick(o))
  {
    if o.cycleRunning {
      var o1 := o.(index := o.index + 1);
      assert HistoryOk(PushMessage(o1, LoadingMessages[o.index % |LoadingMessages|]).history);
    }
  }

  lemma RefreshKeepsInv(o: Overlay, data: Option<ProgressData>, reset: bool)
    requires Inv(o)
    ensures Inv(RefreshProgress(o, data, reset))
  {
  }

  /** Starts `k` nested requests with no text. */
  function Begin(o: Overlay, k: nat): Overlay
    decreases k
  {
    if k == 0 then o else Begin(SetLoading(o, true, ""), k - 1)
  }

  /** Ends `k` requests. */
  function End(o: Overlay, k: nat): Overlay
    decreases k
  {
    if k == 0 then o else End(SetLoading(o, false, ""), k - 1)
  }

  lemma {:induction false} BeginCounts(o: Overlay, k: nat)
    requires Inv(o)
    ensures Begin(o, k).count == o.count + k
    ensures Inv(Begin(o, k))
    decreases k
  {
    if k > 0 {
      EventsKeepInv(o, true, "", None, false);
      BeginCounts(SetLoading(o, true, ""), k - 1);
    }
  }

  lemma {:induction false} EndCounts(o: Overlay, k: nat)
    requires Inv(o) && k <= o.count
    ensures End(o, k).count == o.count - k
    ensures Inv(End(o, k))
    ensures k == o.count && k > 0 ==> Idle(End(o, k))
    decreases k
  {
    if k > 0 {
      EventsKeepInv(o, false, "", None, false);
      EndCounts(SetLoading(o, false, ""), k - 1);
      if o.count == 1 {
        assert Idle(SetLoading(o, false, ""));
      }
    }
  }

  /** Nested requests: the overlay stays up until the last of them ends, and
      then everything is as it was before the first began. */
  lemma NestedLoading(o: Overlay, k: nat)
    requires Idle(o) && k > 0
    ensures forall j :: 0 <= j < k ==> End(Begin(o, k), j).shown && End(Begin(o, k), j).pollRunning
    ensures Idle(End(Begin(o, k), k))
  {
    BeginCounts(o, k);
    var b := Begin(o, k);
    forall j | 0 <= j < k
      ensures End(b, j).shown && End(b, j).pollRunning
    {
      EndCounts(b, j);
    }
    EndCounts(b, k);
  }

  /** Whether the lines' ids are all present and strictly increasing, as the
      daemon hands them out. */
  predicate Ascending(lines: seq<ProgressLine>) {
    && (forall i :: 0 <= i < |lines| ==> lines[i].Line? && lines[i].id.Some?)
    && (forall i, j :: 0 <= i < j < |lines| ==> lines[i].id.value < lines[j].id.value)
  }

  lemma {:induction false} NewLinesOfAscending(lines: seq<ProgressLine>, lastId: int)
    requires Ascending(lines)
    ensures NewLines(lines, lastId) != [] ==> Last(NewLines(lines, lastId)) == lines[|lines| - 1]
    decreases |lines|
  {
    if lines != [] {
      var rest := lines[1..];
      var news := NewLines(rest, lastId);
      var head := if IsNew(lines[0], lastId) then [lines[0]] else [];
      assert NewLines(lines, lastId) == head + news;
      if rest == [] {
        assert news == [];
      } else {
        AscendingTail(lines);
        NewLinesOfAscending(rest, lastId);
        if IsNew(lines[0], lastId) {
          assert lines[0].id.value < rest[|rest| - 1].id.value;
          assert rest[|rest| - 1] in news;
        }
        if news != [] {
          assert Last(head + news) == Last(news);
        }
      }
    }
  }

  lemma AscendingTail(lines: seq<ProgressLine>)
    requires Ascending(lines) && lines != []
    ensures Ascending(lines[1..])
  {
  }

  lemma NoNewLinesAbove(lines: seq<ProgressLine>, lastId: int)
    requires Ascending(lines)
    requires lines != [] && lastId >= lines[|lines| - 1].id.value
    ensures NewLines(lines, lastId) == []
  {
    forall i | 0 <= i < |lines|
      ensures !IsNew(lines[i], lastId)
    {
      if i < |lines| - 1 {
        assert lines[i].id.value < lines[|lines| - 1].id.value;
      }
    }
    assert forall l :: l !in NewLines(lines, lastId);
  }

  /** Lines handed out in increasing order are applied once: the same reply
      applied again changes nothing. */
  lemma ApplyAscendingOnce(o: Overlay, lines: seq<ProgressLine>)
    requires Ascending(lines)
    ensures ApplyProgressLines(ApplyProgressLines(o, Some(lines)), Some(lines)) == ApplyProgressLines(o, Some(lines))
  {
    var r := ApplyProgressLines(o, Some(lines));
    if NewLines(lines, o.lastId) != [] {
      NewLinesOfAscending(lines, o.lastId);
      NoNewLinesAbove(lines, r.lastId);
    }
  }

  /** Out of order, a line can be logged twice: `[5, 3]` leaves the last id at
      3, so the line with id 5 is new again on the next reply. */
  lemma ApplyOutOfOrderRepeats()
    ensures var lines := [Line(Some(5), "a"), Line(Some(3), "b")];
            var once := ApplyProgressLines(Initial, Some(lines));
            once.lastId == 3 && NewLines(lines, once.lastId) == [Line(Some(5), "a")]
  {
    var lines := [Line(Some(5), "a"), Line(Some(3), "b")];
    assert NewLines(lines, 0) == lines;
    assert NewLines(lines, 3) == [Line(Some(5), "a")];
  }
}

=== FILE: prompt_cache.dfy ===
/** The daemon's prompt cache (`prompt_cache` table of `src/ytplayd.py`): one row per
    cache key holding the curated payload, when it was written, when it was last
    served and how many times it was written or served.

    The table is a map from key to entry and the clock is a parameter `now`
    (seconds since the epoch, as `int(time.time())`). JSON encoding of the payload
    is taken to be lossless, so the payload is stored as the value itself. */
module PromptCache {
  import opened Wrappers

  datatype Entry<P> = Entry(payload: P, createdAt: int, lastUsedAt: int, uses: int)

  type Store<P> = map<string, Entry<P>>

  /** The outcome of a lookup: the payload on a hit, and the table afterwards. */
  datatype Lookup<P> = Lookup(hit: Option<P>, store: Store<P>)

  /** An entry is served while its age is at most `ttlHours` hours; the boundary
      itself is still fresh. */
  predicate Fresh<P>(e: Entry<P>, ttlHours: int, now: int) {
    !(now - e.createdAt > ttlHours * 3600)
  }

  /** `cache_get`: a miss for an absent key or an expired entry (the row is kept);
      a hit bumps `uses` by one and stamps `last_used_at`. */
  function CacheGet<P>(store: Store<P>, key: string, ttlHours: int, now: int): (r: Lookup<P>)
    ensures r.hit.Some? <==> key in store && now - store[key].createdAt <= ttlHours * 3600
    ensures r.hit.Some? ==> r.hit.value == store[key].payload
    ensures r.store.Keys == store.Keys
    ensures forall k :: k in store && k != key ==> r.store[k] == store[k]
    ensures key in store ==> r.store[key].payload == store[key].payload
    ensures key in store ==> r.store[key].createdAt == store[key].createdAt
    ensures key in store ==> r.store[key].uses == store[key].uses + (if r.hit.Some? then 1 else 0)
    ensures r.hit.Some? ==> r.store[key].lastUsedAt == now
    ensures r.hit.None? ==> r.store == store
  {
    if key !in store then Lookup(None, store)
    else
      var e := store[key];
      if !Fresh(e, ttlHours, now) then Lookup(None, store)
      else Lookup(Some(e.payload), store[key := e.(lastUsedAt := now, uses := e.uses + 1)])
  }

  /** `cache_put`: `INSERT OR REPLACE` with both time stamps set to `now` and
      `uses` one more than the replaced row's (0 when there was none). */
  function CachePut<P>(store: Store<P>, key: string, payload: P, now: int): (r: Store<P>)
    ensures r.Keys == store.Keys + {key}
    ensures r[key].payload == payload
    ensures r[key].createdAt == now && r[key].lastUsedAt == now
    ensures r[key].uses == if key in store then store[key].uses + 1 else 1
    ensures forall k :: k in store && k != key ==> r[k] == store[k]
  {
    var prev := if key in store then store[key].uses else 0;
    store[key := Entry(payload, now, now, prev + 1)]
  }

  /** What is put is served back to any lookup made within the time-to-live. */
  lemma PutThenGet<P>(store: Store<P>, key: string, payload: P, at: int, ttlHours: int, now: int)
    requires at <= now <= at + ttlHours * 3600
    ensures CacheGet(CachePut(store, key, payload, at), key, ttlHours, now).hit == Some(payload)
  {
  }

  /** A lookup after the time-to-live misses, however often the entry was served. */
  lemma PutThenExpire<P>(store: Store<P>, key: string, payload: P, at: int, ttlHours: int, now: int)
    requires now > at + ttlHours * 3600
    ensures CacheGet(CachePut(store, key, payload, at), key, ttlHours, now).hit == None
  {
  }

  /** Serving never touches the creation time, so repeated hits cannot extend an
      entry's life: `n` lookups at times `ts` keep the entry exactly as put, except
      for `uses` (one more per hit) and `last_used_at`. */
  function GetAll<P>(store: Store<P>, key: string, ttlHours: int, ts: seq<int>): Store<P>
    decreases |ts|
  {
    if ts == [] then store else GetAll(CacheGet(store, key, ttlHours, ts[0]).store, key, ttlHours, ts[1..])
  }

  /** Every lookup of a fresh entry is a hit and counts one use; the payload and
      creation time stay as they were put. */
  lemma {:induction false} HitsCountUses<P>(store: Store<P>, key: string, ttlHours: int, ts: seq<int>)
    requires key in store
    requires forall i :: 0 <= i < |ts| ==> ts[i] - store[key].createdAt <= ttlHours * 3600
    ensures key in GetAll(store, key, ttlHours, ts)
    ensures GetAll(store, key, ttlHours, ts)[key].uses == store[key].uses + |ts|
    ensures GetAll(store, key, ttlHours, ts)[key].payload == store[key].payload
    ensures GetAll(store, key, ttlHours, ts)[key].createdAt == store[key].createdAt
    ensures ts != [] ==> GetAll(store, key, ttlHours, ts)[key].lastUsedAt == ts[|ts| - 1]
    decreases |ts|
  {
    if ts != [] {
      var s1 := CacheGet(store, key, ttlHours, ts[0]).store;
      assert s1[key].createdAt == store[key].createdAt;
      HitsCountUses(s1, key, ttlHours, ts[1..]);
      if |ts| == 1 {
        assert GetAll(s1, key, ttlHours, ts[1..]) == s1;
      } else {
        assert ts[1..][|ts[1..]| - 1] == ts[|ts| - 1];
      }
    }
  }

  /** Expired entries are rewritten by the next put: `uses` keeps counting across
      the rewrite, and the new entry is fresh again. */
  lemma RefreshAfterExpiry<P>(store: Store<P>, key: string, payload: P, ttlHours: int, now: int)
    requires key in store && now - store[key].createdAt > ttlHours * 3600
    requires ttlHours >= 0
    ensures CacheGet(store, key, ttlHours, now).hit == None
    ensures CacheGet(CachePut(store, key, payload, now), key, ttlHours, now).hit == Some(payload)
    ensures CachePut(store, key, payload, now)[key].uses == store[key].uses + 1
  {
  }
}

=== FILE: query_string.dfy ===
/** Query strings as both servers receive them from `urllib.parse.parse_qs`,
    and the two ways they read a parameter from one. */
module QueryString {
  import opened Wrappers
  import opened Text

  /** A parsed query string: each name to its non-empty values, in order
      (`parse_qs` drops blank values). */
  type Query = map<string, seq<string>>

  /** `(qs.get(name) or [None])[0]`. */
  function Param(qs: Query, name: string): (r: Option<string>)
    ensures r.Some? <==> name in qs && qs[name] != []
    ensures r.Some? ==> r.value == qs[name][0]
  {
    if name in qs && qs[name] != [] then Some(qs[name][0]) else None
  }

  /** A parameter given more than once is read from its first occurrence; the
      later values are ignored, and so are the other parameters. */
  lemma RepeatedParamFirstWins(qs: Query, name: string, first: string, later: seq<string>)
    ensures Param(qs[name := [first] + later], name) == Some(first)
    ensures forall other :: other != name ==> Param(qs[name := [first] + later], other) == Param(qs, other)
  {
  }

  /** `int((qs.get(name) or [default])[0])`: None when `int()` raises. */
  function IntParam(qs: Query, name: string, default: int): (r: Option<int>)
    ensures Param(qs, name).None? ==> r == Some(default)
    ensures Param(qs, name).Some? ==> r == ParseInt(Param(qs, name).value)
  {
    match Param(qs, name)
    case None => Some(default)
    case Some(s) => ParseInt(s)
  }
}

=== FILE: queue_panel.dfy ===
/** The queue panel `web/components/queue/queue-panel.js`: the source tag, the
    shortened query shown under the first placeholder, and which tracks and
    how many placeholders the queue list shows. Element creation is left out;
    the view is the list of entries the panel would create. */
module QueuePanel {
  import opened Wrappers
  import opened Text
  import opened JsValue

  /** `QUEUE_WINDOW`, the number of queue entries shown at once. */
  const QueueWindow := 10

  /** `normalizeSource`. */
  function NormalizeSource(source: string): (r: string)
    ensures r == "openai" <==> source == "openai"
    ensures r == "openai" || r == "fallback"
  {
    if source == "openai" then "openai" else "fallback"
  }

  // ---- trimQueryPayload ----------------------------------------------------

  const MaxDepth := 3
  const MaxString := 160
  const MaxArray := 12

  /** The entry that stands for the `k` items cut from a long array. */
  function MoreMarker(k: nat): string {
    "... (" + NatToString(k) + " more)"
  }

  /** `trimQueryPayload`: long strings cut to 160 characters, arrays to their
      first 12 items plus a marker, objects from depth 3 on replaced. Arrays are
      not limited in depth; only objects are. */
  function TrimQueryPayload(v: Value, depth: nat): (r: Value)
    ensures v.Str? && |v.s| <= MaxString ==> r == v
    ensures v.Str? && |v.s| > MaxString ==>
              r.Str? && |r.s| == MaxString && EndsWith(r.s, "...") && r.s[..MaxString - 3] == v.s[..MaxString - 3]
    ensures v.Arr? ==> r.Arr?
                       && |r.items| == (if |v.items| > MaxArray then MaxArray + 1 else |v.items|)
                       && (forall i :: 0 <= i < |r.items| && i < MaxArray ==> r.items[i] == TrimQueryPayload(v.items[i], depth + 1))
                       && (|v.items| > MaxArray ==> r.items[MaxArray] == Str(MoreMarker(|v.items| - MaxArray)))
    ensures v.Obj? && depth >= MaxDepth ==> r == Str("[nested]")
    ensures v.Obj? && depth < MaxDepth ==>
              && r.Obj? && Keys(r.fields) == Keys(v.fields) && |r.fields| == |v.fields|
              && forall i :: 0 <= i < |v.fields| ==> r.fields[i] == (v.fields[i].0, TrimQueryPayload(v.fields[i].1, depth + 1))
    ensures v.Null? || v.Undefined? || v.Bool? || v.Num? ==> r == v
    decreases v, 1
  {
    match v
    case Str(s) => Str(TrimString(s))
    case Arr(items) => Arr(TrimItems(items, depth))
    case Obj(fields) =>
      if depth >= MaxDepth then Str("[nested]")
      else Obj(TrimFields(fields, depth))
    case _ => v
  }

  function TrimString(s: string): (r: string)
    ensures |s| <= MaxString ==> r == s
    ensures |s| > MaxString ==> |r| == MaxString && EndsWith(r, "...") && r[..MaxString - 3] == s[..MaxString - 3]
  {
    if |s| > MaxString then
      var t := s[..MaxString - 3] + "...";
      assert t[|t| - 3..] == "...";
      t
    else s
  }

  function TrimItems(items: seq<Value>, depth: nat): (r: seq<Value>)
    ensures |r| == (if |items| > MaxArray then MaxArray + 1 else |items|)
    ensures forall i :: 0 <= i < |r| && i < MaxArray ==> r[i] == TrimQueryPayload(items[i], depth + 1)
    ensures |items| > MaxArray ==> r[MaxArray] == Str(MoreMarker(|items| - MaxArray))
    decreases Arr(items), 0
  {
    var n := if |items| > MaxArray then MaxArray else |items|;
    var trimmed := seq(n, i requires 0 <= i < n => TrimQueryPayload(items[i], depth + 1));
    if |items| > MaxArray then trimmed + [Str(MoreMarker(|items| - MaxArray))] else trimmed
  }

  function TrimFields(fields: seq<(string, Value)>, depth: nat): (r: seq<(string, Value)>)
    ensures Keys(r) == Keys(fields)
    ensures |r| == |fields| && forall i :: 0 <= i < |fields| ==> r[i] == (fields[i].0, TrimQueryPayload(fields[i].1, depth + 1))
    decreases Obj(fields), 0
  {
    var out := seq(|fields|, i requires 0 <= i < |fields| => (fields[i].0, TrimQueryPayload(fields[i].1, depth + 1)));
    assert Keys(out) == Keys(fields);
    out
  }

  /** What a trimmed value looks like: no string over 160 characters, no array
      over 12 items besides a final marker string, no object at depth 3 or
      more. */
  predicate WithinLimits(v: Value, depth: nat)
    decreases v
  {
    match v
    case Str(s) => |s| <= MaxString
    case Arr(items) =>
      && |items| <= MaxArray + 1
      && (forall i :: 0 <= i < |items| && i < MaxArray ==> WithinLimits(items[i], depth + 1))
      && (|items| == MaxArray + 1 ==> items[MaxArray].Str?)
    case Obj(fields) =>
      depth < MaxDepth && forall i :: 0 <= i < |fields| ==> WithinLimits(fields[i].1, depth + 1)
    case _ => true
  }

  /** Whatever the payload, its trimmed form stays within the limits. */
  lemma {:induction false} TrimWithinLimits(v: Value, depth: nat)
    ensures WithinLimits(TrimQueryPayload(v, depth), depth)
    decreases v, 2
  {
    match v
    case Arr(items) => TrimArrWithinLimits(items, depth);
    case Obj(fields) => if depth < MaxDepth { TrimObjWithinLimits(fields, depth); }
    case _ =>
  }

  lemma {:induction false} TrimArrWithinLimits(items: seq<Value>, depth: nat)
    ensures WithinLimits(TrimQueryPayload(Arr(items), depth), depth)
    decreases Arr(items), 1
  {
    var r := TrimQueryPayload(Arr(items), depth);
    TrimArrShape(items, depth);
    TrimItemsWithinLimits(items, depth);
    ArrWithinLimits(r.items, depth);
  }

  /** A trimmed array keeps at most 12 items, each trimmed one level down,
      and then a marker string. */
  lemma TrimArrShape(items: seq<Value>, depth: nat)
    ensures var r := TrimQueryPayload(Arr(items), depth);
            && r.Arr? && |r.items| <= MaxArray + 1 && (|r.items| == MaxArray + 1 ==> r.items[MaxArray].Str?)
            && forall i :: 0 <= i < |r.items| && i < MaxArray ==> i < |items| && r.items[i] == TrimQueryPayload(items[i], depth + 1)
  {
  }

  /** The items an array keeps are within the limits one level down once trimmed. */
  lemma {:induction false} TrimItemsWithinLimits(items: seq<Value>, depth: nat)
    ensures forall i :: 0 <= i < |items| && i < MaxArray ==> WithinLimits(TrimQueryPayload(items[i], depth + 1), depth + 1)
    decreases Arr(items), 0
  {
    forall i | 0 <= i < |items| && i < MaxArray
      ensures WithinLimits(TrimQueryPayload(items[i], depth + 1), depth + 1)
    {
      TrimWithinLimits(items[i], depth + 1);
    }
  }

  lemma ArrWithinLimits(xs: seq<Value>, depth: nat)
    requires |xs| <= MaxArray + 1 && (|xs| == MaxArray + 1 ==> xs[MaxArray].Str?)
    requires forall i :: 0 <= i < |xs| && i < MaxArray ==> WithinLimits(xs[i], depth + 1)
    ensures WithinLimits(Arr(xs), depth)
  {
  }

  lemma {:induction false} TrimObjWithinLimits(fields: seq<(string, Value)>, depth: nat)
    requires depth < MaxDepth
    ensures WithinLimits(TrimQueryPayload(Obj(fields), depth), depth)
    decreases Obj(fields), 0
  {
    var r := TrimQueryPayload(Obj(fields), depth);
    forall i | 0 <= i < |r.fields|
      ensures WithinLimits(r.fields[i].1, depth + 1)
    {
      assert r.fields[i].1 == TrimQueryPayload(fields[i].1, depth + 1);
      TrimWithinLimits(fields[i].1, depth + 1);
    }
  }

  // ---- renderQueue ---------------------------------------------------------

  /** A queue entry as the panel reads it; "" for a missing field. */
  datatype QueueTrack = QueueTrack(videoId: string, title: string, artist: string, curation: string)

  /** The part of the daemon's status the panel reads: `is_generating`, and
      `queue_target` when it is a number. */
  datatype Status = Status(isGenerating: bool, queueTarget: Option<int>)

  /** One shown entry: its position in the whole queue, the number label, the
      "now" mark, the "new" mark and the source tag. */
  datatype QueueItem = QueueItem(track: QueueTrack, index: nat, number: string, isCurrent: bool, isNew: bool, source: string)

  /** The list: the empty notice, or a count line, the shown entries, and one
      placeholder per element, true for the one that shows the query. */
  datatype QueueView = EmptyNotice | Listing(countText: string, items: seq<QueueItem>, placeholders: seq<bool>)

  function Generating(status: Option<Status>): bool {
    status.Some? && status.value.isGenerating
  }

  /** `min(QUEUE_WINDOW, queue_target)`, or the window when there is no target. */
  function Target(status: Option<Status>): (r: int)
    ensures r <= QueueWindow
    ensures status.Some? && status.value.queueTarget.Some? ==>
              r <= status.value.queueTarget.value && (r == status.value.queueTarget.value || r == QueueWindow)
    ensures status.None? || status.value.queueTarget.None? ==> r == QueueWindow
  {
    if status.Some? && status.value.queueTarget.Some? then
      (if status.value.queueTarget.value < QueueWindow then status.value.queueTarget.value else QueueWindow)
    else QueueWindow
  }

  /** A numeric, non-negative current index, else 0. */
  function StartIndex(currentIndex: Option<int>): (r: nat)
    ensures currentIndex.Some? && currentIndex.value >= 0 ==> r == currentIndex.value
    ensures currentIndex.None? || currentIndex.value < 0 ==> r == 0
  {
    if currentIndex.Some? && currentIndex.value >= 0 then currentIndex.value else 0
  }

  /** `queue.slice(start, start + QUEUE_WINDOW)`. */
  function Visible<T>(queue: seq<T>, start: nat): (r: seq<T>)
    ensures |r| <= QueueWindow
    ensures start >= |queue| ==> r == []
    ensures forall i :: 0 <= i < |r| ==> start + i < |queue| && r[i] == queue[start + i]
    ensures start < |queue| ==> |r| == (if |queue| - start < QueueWindow then |queue| - start else QueueWindow)
  {
    if start >= |queue| then []
    else if start + QueueWindow <= |queue| then queue[start..start + QueueWindow]
    else queue[start..]
  }

  /** `min(max(0, target - len), max(0, QUEUE_WINDOW - visible))` while
      generating under target, else none. */
  function PlaceholderCount(status: Option<Status>, queueLength: nat, visibleLength: nat): (r: nat)
    ensures r > 0 ==> Generating(status) && queueLength + r <= Target(status) && visibleLength + r <= QueueWindow
    ensures Generating(status) && queueLength < Target(status) && visibleLength < QueueWindow ==> r > 0
    ensures Generating(status) && queueLength < Target(status) ==>
              queueLength + r == Target(status) || visibleLength + r >= QueueWindow
  {
    if Generating(status) && queueLength < Target(status) then
      var remaining := Target(status) - queueLength;
      var room := if visibleLength < QueueWindow then QueueWindow - visibleLength else 0;
      if remaining < room then remaining else room
    else 0
  }

  /** Whether some track of `queue` has the id `id`. */
  predicate HeldBy(queue: seq<QueueTrack>, id: string) {
    exists t :: t in queue && t.videoId == id
  }

  function IdsOf(queue: seq<QueueTrack>): set<string> {
    set t | t in queue :: t.videoId
  }

  function ItemAt(track: QueueTrack, index: nat, currentIndex: Option<int>, previousIds: set<string>, defaultSource: string): QueueItem {
    QueueItem(track, index, Pad2(NatToString(index + 1)), currentIndex == Some(index as int),
              track.videoId !in previousIds,
              NormalizeSource(if track.curation != "" then track.curation else defaultSource))
  }

  /** `renderQueue`. */
  function RenderQueue(queue: seq<QueueTrack>, currentIndex: Option<int>, previous: seq<QueueTrack>,
                       defaultSource: string, status: Option<Status>): (r: QueueView)
    ensures r.EmptyNotice? <==> queue == [] && !Generating(status)
    ensures r.Listing? ==>
              var start := StartIndex(currentIndex);
              && |r.items| <= QueueWindow
              && |r.items| + |r.placeholders| <= QueueWindow
              && r.countText == NatToString(|r.items|) + " of " + NatToString(|queue|)
              && (forall i :: 0 <= i < |r.items| ==>
                    start + i < |queue| && r.items[i].track == queue[start + i] && r.items[i].index == start + i)
              && (start < |queue| ==> |r.items| == (if |queue| - start < QueueWindow then |queue| - start else QueueWindow))
              && |r.placeholders| == PlaceholderCount(status, |queue|, |r.items|)
              && (forall i :: 0 <= i < |r.placeholders| ==> (r.placeholders[i] <==> i == 0))
  {
    if queue == [] && !Generating(status) then EmptyNotice
    else
      var visible := Visible(queue, StartIndex(currentIndex));
      var count := PlaceholderCount(status, |queue|, |visible|);
      Listing(NatToString(|visible|) + " of " + NatToString(|queue|),
              ShownItems(queue, currentIndex, previous, defaultSource), seq(count, i => i == 0))
  }

  /** The entries of the window, numbered from the start index. */
  function ShownItems(queue: seq<QueueTrack>, currentIndex: Option<int>, previous: seq<QueueTrack>,
                      defaultSource: string): (r: seq<QueueItem>)
    ensures |r| == |Visible(queue, StartIndex(currentIndex))|
    ensures forall i :: 0 <= i < |r| ==>
              r[i] == ItemAt(Visible(queue, StartIndex(currentIndex))[i], StartIndex(currentIndex) + i,
                             currentIndex, IdsOf(previous), defaultSource)
  {
    var start := StartIndex(currentIndex);
    var visible := Visible(queue, start);
    var prevIds := IdsOf(previous);
    seq(|visible|, i requires 0 <= i < |visible| => ItemAt(visible[i], start + i, currentIndex, prevIds, defaultSource))
  }

  /** Each shown entry is marked "now" exactly when it is at the current
      index, and "new" exactly when the previous queue did not hold its id;
      its source tag is that of its own curation, or the default without one. */
  lemma RenderQueueMarks(queue: seq<QueueTrack>, currentIndex: Option<int>, previous: seq<QueueTrack>,
                         defaultSource: string, status: Option<Status>, i: nat)
    requires RenderQueue(queue, currentIndex, previous, defaultSource, status).Listing?
    requires i < |RenderQueue(queue, currentIndex, previous, defaultSource, status).items|
    ensures var it := RenderQueue(queue, currentIndex, previous, defaultSource, status).items[i];
            && (it.isCurrent <==> currentIndex == Some(it.index as int))
            && (it.isNew <==> !HeldBy(previous, it.track.videoId))
            && it.number == Pad2(NatToString(it.index + 1))
            && it.source == NormalizeSource(if it.track.curation != "" then it.track.curation else defaultSource)
  {
    var v := RenderQueue(queue, currentIndex, previous, defaultSource, status);
    var sh := ShownItems(queue, currentIndex, previous, defaultSource);
    assert v.items == sh;
    ShownItemMarks(queue, currentIndex, previous, defaultSource, i);
    assert v.items[i] == sh[i];
  }

  /** The marks of one entry of the window. */
  lemma ShownItemMarks(queue: seq<QueueTrack>, currentIndex: Option<int>, previous: seq<QueueTrack>,
                       defaultSource: string, i: nat)
    requires i < |ShownItems(queue, currentIndex, previous, defaultSource)|
    ensures var it := ShownItems(queue, currentIndex, previous, defaultSource)[i];
            && (it.isCurrent <==> currentIndex == Some(it.index as int))
            && (it.isNew <==> !HeldBy(previous, it.track.videoId))
            && it.number == Pad2(NatToString(it.index + 1))
            && it.source == NormalizeSource(if it.track.curation != "" then it.track.curation else defaultSource)
  {
    var start := StartIndex(currentIndex);
    var vis := Visible(queue, start);
    var sh := ShownItems(queue, currentIndex, previous, defaultSource);
    assert sh[i] == ItemAt(vis[i], start + i, currentIndex, IdsOf(previous), defaultSource);
    ItemAtMarks(vis[i], start + i, currentIndex, previous, defaultSource);
  }

  lemma ItemAtMarks(track: QueueTrack, index: nat, currentIndex: Option<int>, previous: seq<QueueTrack>, defaultSource: string)
    ensures var it := ItemAt(track, index, currentIndex, IdsOf(previous), defaultSource);
            && it.track == track && it.index == index
            && (it.isCurrent <==> currentIndex == Some(index as int))
            && (it.isNew <==> !HeldBy(previous, it.track.videoId))
            && it.number == Pad2(NatToString(index + 1))
            && it.source == NormalizeSource(if it.track.curation != "" then it.track.curation else defaultSource)
  {
    IdsOfMembers(previous, track.videoId);
  }

  lemma IdsOfMembers(queue: seq<QueueTrack>, id: string)
    ensures id in IdsOf(queue) <==> HeldBy(queue, id)
  {
  }

  /** An empty queue that is being generated shows only placeholders, as many
      as the target allows, the first carrying the query. */
  lemma EmptyGeneratingQueue(status: Option<Status>, currentIndex: Option<int>, defaultSource: string)
    requires Generating(status) && Target(status) > 0
    ensures var r := RenderQueue([], currentIndex, [], defaultSource, status);
            r.Listing? && r.items == [] && |r.placeholders| == Target(status) && r.placeholders[0]
  {
  }

  /** A queue at or over its target gets no placeholders. */
  lemma FullQueueNoPlaceholders(queue: seq<QueueTrack>, currentIndex: Option<int>, previous: seq<QueueTrack>,
                                defaultSource: string, status: Option<Status>)
    requires |queue| >= Target(status)
    requires queue != [] || Generating(status)
    ensures RenderQueue(queue, currentIndex, previous, defaultSource, status).placeholders == []
  {
  }

  /** Viewed from its start while generating under target, the queue and its
      placeholders together fill the panel up to the target. */
  lemma PlaceholdersFillToTarget(queue: seq<QueueTrack>, currentIndex: Option<int>, previous: seq<QueueTrack>,
                                 defaultSource: string, status: Option<Status>)
    requires Generating(status) && |queue| < Target(status)
    requires StartIndex(currentIndex) == 0
    ensures var r := RenderQueue(queue, currentIndex, previous, defaultSource, status);
            r.Listing? && |r.items| == |queue| && |r.items| + |r.placeholders| == Target(status)
  {
  }
}

=== FILE: search_panel.dfy ===
/** The search form `web/components/search/search-panel.js` (and its twin in
    `web/app.js`): the prompt line, clearing the form, and the parameters of
    a `/play` request built from the form, falling back to the last curation's
    extras on a re-curate.

    A form element the page lacks is `None`; its value then reads as "". */
module SearchPanel {
  import opened Wrappers
  import opened Text
  import opened Format

  /** `renderPromptLine`: "Prompt: -" without a prompt; the seed is named
      after the prompt when it has a title. */
  function RenderPromptLine(prompt: string, seed: Option<TrackInfo>): (r: string)
    ensures prompt == [] ==> r == "Prompt: -"
    ensures prompt != [] ==> StartsWith(r, "Prompt: " + prompt)
    ensures prompt != [] && (seed.None? || seed.value.title == []) ==> r == "Prompt: " + prompt
    ensures prompt != [] && seed.Some? && seed.value.title != [] ==>
              EndsWith(r, " (seed: " + FormatTrack(seed) + ")")
              && |r| == |"Prompt: " + prompt| + |" (seed: " + FormatTrack(seed) + ")"|
  {
    if prompt == [] then "Prompt: -"
    else
      var head := "Prompt: " + prompt;
      if seed.Some? && seed.value.title != [] then
        var tail := " (seed: " + FormatTrack(seed) + ")";
        assert (head + tail)[..|head|] == head;
        assert (head + tail)[|head + tail| - |tail|..] == tail;
        head + tail
      else head
  }

  /** Without a seed the prompt line names the prompt alone, so different
      prompts give different lines. */
  lemma PromptLineInjective(p: string, q: string)
    requires p != [] && q != []
    requires RenderPromptLine(p, None) == RenderPromptLine(q, None)
    ensures p == q
  {
    assert p == RenderPromptLine(p, None)[8..];
    assert q == RenderPromptLine(q, None)[8..];
  }

  /** The form's inputs, `None` for one the page lacks. */
  datatype Form = Form(
    prompt: Option<string>,
    seed: Option<string>,
    mood: Option<string>,
    lang: Option<string>,
    avoid: Option<string>,
    max: Option<string>,
    ttl: Option<string>,
    mix: Option<string>,
    vibe: Option<string>)

  /** The last curation's `extras`. Missing or falsy fields are ""; the number
      fields `max_tracks` and `ttl_hours` are the text they are sent as. */
  datatype Extras = Extras(
    seed: string,
    mood: string,
    lang: string,
    avoid: seq<string>,
    mix: string,
    vibe: string,
    maxTracks: string,
    ttlHours: string)

  const NoExtras := Extras("", "", "", [], "", "", "", "")

  /** The `/play` query: "" for a parameter left out. */
  datatype PlayParams = PlayParams(
    q: string,
    seed: string,
    mood: string,
    lang: string,
    avoid: string,
    mix: string,
    vibe: string,
    n: string,
    ttl: string)

  /** The value of one input: its stripped text, else (on a re-curate) the
      fallback, else "". */
  function Field(input: Option<string>, useFallback: bool, fallback: string): (r: string)
    ensures input.None? ==> r == []
    ensures input.Some? && !IsBlank(input.value) ==> r == Strip(input.value) && r != []
    ensures input.Some? && IsBlank(input.value) ==> r == (if useFallback then fallback else [])
  {
    match input
    case None => []
    case Some(v) =>
      var t := Strip(v);
      if t != [] then t else if useFallback then fallback else []
  }

  /** `buildPlayParams`: the request's parameters, or the "missing prompt"
      error when neither the form nor (on a re-curate) the last prompt gives
      one. */
  function BuildPlayParams(form: Form, useFallback: bool, fallback: Option<Extras>, fallbackPrompt: string): (r: Result<PlayParams, string>)
    ensures r.Err? <==> Field(form.prompt, false, []) == [] && (!useFallback || fallbackPrompt == [])
    ensures r.Err? ==> r.error == "missing prompt"
    ensures r.Ok? ==>
              var x := fallback.GetOr(NoExtras);
              && r.value.q != []
              && r.value.q == (if Field(form.prompt, false, []) != [] then Field(form.prompt, false, []) else fallbackPrompt)
              && r.value.seed == Field(form.seed, useFallback, x.seed)
              && r.value.mood == Field(form.mood, useFallback, x.mood)
              && r.value.lang == Field(form.lang, useFallback, x.lang)
              && r.value.avoid == Field(form.avoid, useFallback, Join(x.avoid, ","))
              && r.value.mix == Field(form.mix, useFallback, x.mix)
              && r.value.vibe == Field(form.vibe, useFallback, x.vibe)
              && r.value.n == Field(form.max, useFallback, x.maxTracks)
              && r.value.ttl == Field(form.ttl, useFallback, x.ttlHours)
  {
    var prompt := Field(form.prompt, false, []);
    var finalPrompt := if prompt != [] then prompt else if useFallback then fallbackPrompt else [];
    if finalPrompt == [] then Err("missing prompt")
    else
      var x := if fallback.Some? then fallback.value else NoExtras;
      Ok(PlayParams(
        finalPrompt,
        Field(form.seed, useFallback, x.seed),
        Field(form.mood, useFallback, x.mood),
        Field(form.lang, useFallback, x.lang),
        Field(form.avoid, useFallback, Join(x.avoid, ",")),
        Field(form.mix, useFallback, x.mix),
        Field(form.vibe, useFallback, x.vibe),
        Field(form.max, useFallback, x.maxTracks),
        Field(form.ttl, useFallback, x.ttlHours)))
  }

  /** A plain submit never looks at the last curation. */
  lemma PlainSubmitIgnoresFallback(form: Form, a: Option<Extras>, b: Option<Extras>, pa: string, pb: string)
    ensures BuildPlayParams(form, false, a, pa) == BuildPlayParams(form, false, b, pb)
  {
  }

  /** `clearForm`: every present input emptied, the vibe back to "normal". */
  function ClearForm(form: Form): (r: Form)
    ensures r.vibe == (if form.vibe.Some? then Some("normal") else None)
    ensures Emptied(form.prompt, r.prompt) && Emptied(form.seed, r.seed)
    ensures Emptied(form.mood, r.mood) && Emptied(form.lang, r.lang)
    ensures Emptied(form.avoid, r.avoid) && Emptied(form.max, r.max)
    ensures Emptied(form.ttl, r.ttl) && Emptied(form.mix, r.mix)
  {
    Form(Empty(form.prompt), Empty(form.seed), Empty(form.mood), Empty(form.lang),
         Empty(form.avoid), Empty(form.max), Empty(form.ttl), Empty(form.mix),
         if form.vibe.Some? then Some("normal") else None)
  }

  /** An input cleared: still there exactly when it was before, and empty. */
  predicate Emptied(before: Option<string>, after: Option<string>) {
    after.Some? == before.Some? && (after.None? || after.value == [])
  }

  function Empty(input: Option<string>): Option<string> {
    if input.Some? then Some("") else None
  }

  /** After clearing, a plain submit is refused for want of a prompt. */
  lemma ClearedSubmitRefused(form: Form, fallback: Option<Extras>, fallbackPrompt: string)
    ensures BuildPlayParams(ClearForm(form), false, fallback, fallbackPrompt) == Err("missing prompt")
  {
    assert Field(ClearForm(form).prompt, false, []) == [];
  }

  /** After clearing a complete form, a re-curate asks again for the last
      curation, except that the vibe is "normal". */
  lemma ClearedRecurate(form: Form, fallback: Option<Extras>, fallbackPrompt: string)
    requires Complete(form)
    ensures var x := fallback.GetOr(NoExtras);
            var r := BuildPlayParams(ClearForm(form), true, fallback, fallbackPrompt);
            && (r.Ok? <==> fallbackPrompt != [])
            && (r.Ok? ==> r.value == PlayParams(fallbackPrompt, x.seed, x.mood, x.lang, Join(x.avoid, ","),
                                                x.mix, "normal", x.maxTracks, x.ttlHours))
  {
    var c := ClearForm(form);
    assert c == Form(Some(""), Some(""), Some(""), Some(""), Some(""), Some(""), Some(""), Some(""), Some("normal"));
    var n := "normal";
    assert !IsSpace(n[0]) && !IsSpace(n[|n| - 1]);
    assert !IsBlank(n) by { assert !IsSpace(n[0]); }
    assert Field(Some(n), true, fallback.GetOr(NoExtras).vibe) == n;
    assert IsBlank("");
  }

  /** Every input present, as on the page `web/app.js` drives. */
  predicate Complete(form: Form) {
    && form.prompt.Some? && form.seed.Some? && form.mood.Some? && form.lang.Some? && form.avoid.Some?
    && form.max.Some? && form.ttl.Some? && form.mix.Some? && form.vibe.Some?
  }
}

=== FILE: sorting.dfy ===
/** A stable insertion sort on sequences, for the two places the database browser
    orders things: table names (`ORDER BY name`) and table rows (`ORDER BY … DESC`). */
module Sorting {

  /** `le` is total and transitive, so that sorting by it is well defined. */
  ghost predicate TotalPreorder<T(!new)>(le: (T, T) -> bool) {
    && (forall a, b :: le(a, b) || le(b, a))
    && (forall a, b, c :: le(a, b) && le(b, c) ==> le(a, c))
  }

  predicate SortedBy<T>(s: seq<T>, le: (T, T) -> bool) {
    forall i, j :: 0 <= i < j < |s| ==> le(s[i], s[j])
  }

  /** Puts `x` before the first element it is `le` to. */
  function Insert<T(!new)>(x: T, s: seq<T>, le: (T, T) -> bool): (r: seq<T>)
    requires TotalPreorder(le)
    requires SortedBy(s, le)
    ensures SortedBy(r, le)
    ensures multiset(r) == multiset(s) + multiset{x}
    ensures |r| == |s| + 1
    ensures r[0] == x || (s != [] && r[0] == s[0])
  {
    if s == [] then [x]
    else if le(x, s[0]) then
      assert SortedBy([x] + s, le) by {
        assert forall j :: 0 <= j < |s| ==> le(x, s[j]);
        PrependSorted(x, s, le);
      }
      [x] + s
    else
      var tail := Insert(x, s[1..], le);
      assert SortedBy([s[0]] + tail, le) by {
        assert le(s[0], x);
        forall j | 0 <= j < |tail| ensures le(s[0], tail[j]) {
          assert tail[j] in multiset(tail);
          if tail[j] != x {
            assert tail[j] in s[1..];
          }
        }
        PrependSorted(s[0], tail, le);
      }
      assert s == [s[0]] + s[1..];
      [s[0]] + tail
  }

  lemma PrependSorted<T>(a: T, s: seq<T>, le: (T, T) -> bool)
    requires SortedBy(s, le)
    requires forall j :: 0 <= j < |s| ==> le(a, s[j])
    ensures SortedBy([a] + s, le)
  {
    var r := [a] + s;
    forall i, j | 0 <= i < j < |r| ensures le(r[i], r[j]) {
      if i > 0 { assert r[i] == s[i - 1] && r[j] == s[j - 1]; }
      else { assert r[j] == s[j - 1]; }
    }
  }

  /** Sorts `s` by `le`, keeping equal elements in their original order. */
  function SortBy<T(!new)>(s: seq<T>, le: (T, T) -> bool): (r: seq<T>)
    requires TotalPreorder(le)
    ensures SortedBy(r, le)
    ensures multiset(r) == multiset(s)
    ensures |r| == |s|
  {
    if s == [] then []
    else
      assert s == [s[0]] + s[1..];
      Insert(s[0], SortBy(s[1..], le), le)
  }
}

=== FILE: status_service.dfy ===
/** The generation status of `src/ytplayd_app/services/status_service.py`: a
    counter that hands out generation ids, and a record of the generation in
    progress. Only the holder of the most recent id may update or finish it.

    The module-level globals become one `Service` value threaded through the
    operations; the lock is left out (operations are sequential here) and the
    clock is a parameter. */
module StatusService {
  import opened Wrappers

  /** The query dictionary a generation works on. */
  type Query = map<string, string>

  datatype GenState = GenState(
    isGenerating: bool,
    currentQuery: Option<Query>,
    startedAt: Option<int>,
    lastUpdate: Option<int>,
    lastError: Option<string>,
    source: Option<string>,
    phase: Option<string>,
    activeId: Option<int>)

  /** `_generation_seq` and `_state`. */
  datatype Service = Service(counter: nat, state: GenState)

  const Initial := Service(0, GenState(false, None, None, None, None, None, None, None))

  /** The last id handed out is the active one, and none is active before the first. */
  predicate Valid(svc: Service) {
    (svc.counter == 0 && svc.state.activeId.None?) || svc.state.activeId == Some(svc.counter as int)
  }

  datatype Started = Started(svc: Service, id: int)

  /** `start_generation`: a fresh id, which becomes the active one; every field of
      the record is overwritten and the last error is cleared. */
  function StartGeneration(svc: Service, query: Option<Query>, source: string, phase: Option<string>, now: int): (r: Started)
    ensures r.id == svc.counter + 1 && r.svc.counter == r.id
    ensures r.svc.state == GenState(true, query, Some(now), Some(now), None, Some(source), phase, Some(r.id))
    ensures Valid(r.svc)
  {
    var id := svc.counter + 1;
    Started(Service(id, GenState(true, query, Some(now), Some(now), None, Some(source), phase, Some(id))), id)
  }

  /** `update_generation`: a no-op unless `id` is the active id; otherwise only
      the fields given (not None) are replaced, and the update time always is. */
  function UpdateGeneration(svc: Service, id: int, query: Option<Query>, error: Option<string>, phase: Option<string>, now: int): (r: Service)
    ensures svc.state.activeId != Some(id) ==> r == svc
    ensures svc.state.activeId == Some(id) ==>
              && r.counter == svc.counter
              && r.state.currentQuery == (if query.Some? then query else svc.state.currentQuery)
              && r.state.lastError == (if error.Some? then error else svc.state.lastError)
              && r.state.phase == (if phase.Some? then phase else svc.state.phase)
              && r.state.lastUpdate == Some(now)
              && r.state.isGenerating == svc.state.isGenerating
              && r.state.startedAt == svc.state.startedAt
              && r.state.source == svc.state.source
              && r.state.activeId == svc.state.activeId
    ensures Valid(svc) ==> Valid(r)
  {
    if svc.state.activeId != Some(id) then svc
    else
      var s := svc.state;
      var s1 := if query.Some? then s.(currentQuery := query) else s;
      var s2 := if error.Some? then s1.(lastError := error) else s1;
      var s3 := if phase.Some? then s2.(phase := phase) else s2;
      svc.(state := s3.(lastUpdate := Some(now)))
  }

  /** `finish_generation`: a no-op unless `id` is the active id; otherwise the
      generation stops, its phase is cleared and the last error is replaced only
      when an error is given. The id stays active. */
  function FinishGeneration(svc: Service, id: int, error: Option<string>, now: int): (r: Service)
    ensures svc.state.activeId != Some(id) ==> r == svc
    ensures svc.state.activeId == Some(id) ==>
              && r.counter == svc.counter
              && !r.state.isGenerating
              && r.state.phase.None?
              && r.state.lastUpdate == Some(now)
              && r.state.lastError == (if error.Some? then error else svc.state.lastError)
              && r.state.currentQuery == svc.state.currentQuery
              && r.state.startedAt == svc.state.startedAt
              && r.state.source == svc.state.source
              && r.state.activeId == svc.state.activeId
    ensures Valid(svc) ==> Valid(r)
  {
    if svc.state.activeId != Some(id) then svc
    else
      var s := svc.state.(isGenerating := false, lastUpdate := Some(now), phase := None);
      svc.(state := if error.Some? then s.(lastError := error) else s)
  }

  datatype Snapshot = Snapshot(
    ok: bool, queueTarget: int, queueSize: int, isGenerating: bool, currentQuery: Option<Query>,
    startedAt: Option<int>, lastUpdate: Option<int>, lastError: Option<string>,
    source: Option<string>, phase: Option<string>)

  /** `snapshot`: the record as the status route reports it, with the queue
      figures passed through. Reading it changes nothing (it returns no state). */
  function TakeSnapshot(svc: Service, queueSize: int, queueTarget: int): (r: Snapshot)
    ensures r.ok && r.queueSize == queueSize && r.queueTarget == queueTarget
    ensures r.isGenerating == svc.state.isGenerating && r.currentQuery == svc.state.currentQuery
    ensures r.phase == svc.state.phase && r.lastError == svc.state.lastError && r.source == svc.state.source
    ensures r.startedAt == svc.state.startedAt && r.lastUpdate == svc.state.lastUpdate
  {
    var s := svc.state;
    Snapshot(true, queueTarget, queueSize, s.isGenerating, s.currentQuery, s.startedAt, s.lastUpdate,
             s.lastError, s.source, s.phase)
  }

  /** Ids only grow: every id handed out so far is at most the counter, so each
      new start makes every earlier id stale. */
  lemma EarlierIdsGoStale(svc: Service, earlier: int, query: Option<Query>, source: string, phase: Option<string>, now: int,
                          q2: Option<Query>, e2: Option<string>, p2: Option<string>, now2: int)
    requires earlier <= svc.counter
    ensures var st := StartGeneration(svc, query, source, phase, now);
            earlier < st.id
            && UpdateGeneration(st.svc, earlier, q2, e2, p2, now2) == st.svc
            && FinishGeneration(st.svc, earlier, e2, now2) == st.svc
  {
  }

  /** A call of `update_generation` or `finish_generation`. */
  datatype Call = Update(id: int, query: Option<Query>, error: Option<string>, phase: Option<string>, now: int)
                | Finish(id: int, error: Option<string>, now: int)

  /** The calls, one after the other. */
  function Apply(svc: Service, calls: seq<Call>): Service
    decreases |calls|
  {
    if calls == [] then svc
    else
      var next := match calls[0]
        case Update(id, q, e, p, now) => UpdateGeneration(svc, id, q, e, p, now)
        case Finish(id, e, now) => FinishGeneration(svc, id, e, now);
      Apply(next, calls[1..])
  }

  /** Updates and finishes with any id other than the active one, in any
      number, leave the service as it was. */
  lemma {:induction false} StaleCallsAreNoOps(svc: Service, calls: seq<Call>)
    requires forall i :: 0 <= i < |calls| ==> svc.state.activeId != Some(calls[i].id)
    ensures Apply(svc, calls) == svc
    decreases |calls|
  {
    if calls != [] {
      assert forall i :: 0 <= i < |calls| - 1 ==> calls[1..][i] == calls[i + 1];
      StaleCallsAreNoOps(svc, calls[1..]);
    }
  }

  /** The ids of a run of starts are strictly increasing. */
  function StartAll(svc: Service, n: nat, now: int): (r: (Service, seq<int>))
    ensures |r.1| == n
    ensures forall i, j :: 0 <= i < j < n ==> r.1[i] < r.1[j]
    ensures forall i :: 0 <= i < n ==> svc.counter < r.1[i] <= r.0.counter
    ensures n > 0 ==> r.0.state.activeId == Some(r.1[n - 1])
    decreases n
  {
    if n == 0 then (svc, [])
    else
      var st := StartGeneration(svc, None, "queue", None, now);
      var rest := StartAll(st.svc, n - 1, now);
      (rest.0, [st.id] + rest.1)
  }

  /** The lifecycle the service's test walks through: start, snapshot, update
      query and phase, finish. */
  lemma Lifecycle(svc: Service, t0: int, t1: int, t2: int)
    ensures var q := map["prompt" := "test"];
            var st := StartGeneration(svc, Some(q), "queue", Some("start"), t0);
            var s1 := TakeSnapshot(st.svc, 3, 10);
            var u := UpdateGeneration(st.svc, st.id, Some(map["prompt" := "updated"]), None, Some("loop"), t1);
            var s2 := TakeSnapshot(u, 3, 10);
            var f := FinishGeneration(u, st.id, None, t2);
            var s3 := TakeSnapshot(f, 3, 10);
            && s1.isGenerating && s1.currentQuery == Some(q) && s1.queueSize == 3 && s1.queueTarget == 10
            && s2.currentQuery == Some(map["prompt" := "updated"]) && s2.phase == Some("loop")
            && !s3.isGenerating
  {
  }

  /** The test's stale update: after a second start, an update with the first
      id leaves the second generation's query in place. */
  lemma StaleUpdateIgnored(svc: Service, t0: int, t1: int, t2: int)
    ensures var first := StartGeneration(svc, Some(map["prompt" := "first"]), "queue", None, t0);
            var second := StartGeneration(first.svc, Some(map["prompt" := "second"]), "queue", None, t1);
            var u := UpdateGeneration(second.svc, first.id, Some(map["prompt" := "stale"]), None, None, t2);
            TakeSnapshot(u, 1, 10).currentQuery == Some(map["prompt" := "second"])
  {
  }

  /** A finished generation still holds the active id, so its holder can keep
      updating the record until the next start. */
  lemma UpdateAfterFinish(svc: Service, id: int, t1: int, t2: int)
    requires svc.state.activeId == Some(id)
    ensures var f := FinishGeneration(svc, id, None, t1);
            UpdateGeneration(f, id, None, None, Some("late"), t2).state.phase == Some("late")
  {
  }
}

=== FILE: text.dfy ===
/** String helpers shared by the Python daemon, the CLI and the web front end:
    whitespace stripping as Python's `str.strip()` and JavaScript's `trim()` do it,
    splitting and joining, decimal rendering and Python's `int()` parsing. */
module Text {
  import opened Wrappers

  /** Python's whitespace (`str.isspace()`), the characters `str.strip()` and
      `int()` remove: the ASCII controls tab to carriage return and the four
      separators U+001C to U+001F, the space, U+0085, the no-break space, and
      the Unicode spaces and line and paragraph separators. */
  predicate IsSpace(c: char) {
    || c == ' ' || '\t' <= c <= '\r' || '\U{001C}' <= c <= '\U{001F}'
    || c == '\U{0085}' || c == '\U{00A0}' || c == '\U{1680}' || '\U{2000}' <= c <= '\U{200A}'
    || c == '\U{2028}' || c == '\U{2029}' || c == '\U{202F}' || c == '\U{205F}' || c == '\U{3000}'
  }

  predicate IsBlank(s: string) {
    forall i :: 0 <= i < |s| ==> IsSpace(s[i])
  }

  /** What a strip removes: whitespace (`strip()`, `trim()`) or one given character (`strip(c)`). */
  datatype Strippable = Whitespace | Only(c: char)

  predicate Drops(d: Strippable, c: char) {
    match d
    case Whitespace => IsSpace(c)
    case Only(x) => c == x
  }

  /** Drops the longest prefix whose characters `d` removes. */
  function LStrip(s: string, d: Strippable): (r: string)
    ensures |r| <= |s| && r == s[|s| - |r|..]
    ensures forall i :: 0 <= i < |s| - |r| ==> Drops(d, s[i])
    ensures r == [] || !Drops(d, r[0])
    decreases |s|
  {
    if s != [] && Drops(d, s[0]) then LStrip(s[1..], d) else s
  }

  /** Drops the longest suffix whose characters `d` removes. */
  function RStrip(s: string, d: Strippable): (r: string)
    ensures |r| <= |s| && r == s[..|r|]
    ensures forall i :: |r| <= i < |s| ==> Drops(d, s[i])
    ensures r == [] || !Drops(d, r[|r| - 1])
    decreases |s|
  {
    if s != [] && Drops(d, s[|s| - 1]) then RStrip(s[..|s| - 1], d) else s
  }

  /** Python's `s.strip()` and JavaScript's `s.trim()`. */
  function Strip(s: string): (r: string)
    ensures |r| <= |s|
    ensures r == [] || (!IsSpace(r[0]) && !IsSpace(r[|r| - 1]))
    ensures r == [] <==> IsBlank(s)
    ensures (s == [] || (!IsSpace(s[0]) && !IsSpace(s[|s| - 1]))) ==> r == s
  {
    RStrip(LStrip(s, Whitespace), Whitespace)
  }

  /** Python's `s.strip(c)` for a single character `c`: removes every leading and trailing `c`. */
  function StripChar(s: string, c: char): (r: string)
    ensures |r| <= |s|
    ensures r == [] || (r[0] != c && r[|r| - 1] != c)
    ensures (s == [] || (s[0] != c && s[|s| - 1] != c)) ==> r == s
  {
    RStrip(LStrip(s, Only(c)), Only(c))
  }

  predicate StartsWith(s: string, prefix: string) {
    |prefix| <= |s| && s[..|prefix|] == prefix
  }

  predicate EndsWith(s: string, suffix: string) {
    |suffix| <= |s| && s[|s| - |suffix|..] == suffix
  }

  /** Index of the first occurrence of `c` in `s`. */
  function IndexOf(s: string, c: char): (r: Option<nat>)
    ensures r.None? <==> c !in s
    ensures r.Some? ==> r.value < |s| && s[r.value] == c && c !in s[..r.value]
  {
    if s == [] then None
    else if s[0] == c then Some(0)
    else match IndexOf(s[1..], c)
      case None => None
      case Some(i) => assert s[1..][..i] == s[1..i + 1]; Some(i + 1)
  }

  /** `sep.join(parts)` in Python, `parts.join(sep)` in JavaScript. */
  function Join(parts: seq<string>, sep: string): string
  {
    if |parts| == 0 then ""
    else if |parts| == 1 then parts[0]
    else parts[0] + sep + Join(parts[1..], sep)
  }

  /** `s.split(sep)` with a one-character separator, in Python and in JavaScript. */
  function Split(s: string, sep: char): (r: seq<string>)
    ensures |r| >= 1
    ensures forall i :: 0 <= i < |r| ==> sep !in r[i]
    ensures Join(r, [sep]) == s
    decreases |s|
  {
    match IndexOf(s, sep)
    case None => [s]
    case Some(i) =>
      var rest := Split(s[i + 1..], sep);
      var r := [s[..i]] + rest;
      assert r[1..] == rest;
      assert s == s[..i] + [sep] + s[i + 1..];
      r
  }

  /** Splitting undoes joining when no part contains the separator. */
  lemma {:induction false} SplitJoin(parts: seq<string>, sep: char)
    requires |parts| >= 1
    requires forall i :: 0 <= i < |parts| ==> sep !in parts[i]
    ensures Split(Join(parts, [sep]), sep) == parts
    decreases |parts|
  {
    if |parts| == 1 {
    } else {
      var tail := Join(parts[1..], [sep]);
      assert Join(parts, [sep]) == parts[0] + [sep] + tail;
      SplitAtFirst(parts[0], tail, sep);
      SplitJoin(parts[1..], sep);
      assert [parts[0]] + parts[1..] == parts;
    }
  }

  /** The first occurrence is the one with none before it. */
  lemma IndexOfFirst(s: string, c: char, i: nat)
    requires i < |s| && s[i] == c && c !in s[..i]
    ensures IndexOf(s, c) == Some(i)
  {
    assert s[i] in s;
  }

  lemma SplitAtFirst(a: string, b: string, sep: char)
    requires sep !in a
    ensures Split(a + [sep] + b, sep) == [a] + Split(b, sep)
  {
    var s := a + [sep] + b;
    assert s[..|a|] == a;
    IndexOfFirst(s, sep, |a|);
    assert s[|a| + 1..] == b;
  }

  lemma SplitAtEarlier(a: string, b: string, sep: char, i: nat)
    requires i < |a| && a[i] == sep && sep !in a[..i]
    ensures Split(a + [sep] + b, sep) == [a[..i]] + Split(a[i + 1..] + [sep] + b, sep)
    ensures Split(a, sep) == [a[..i]] + Split(a[i + 1..], sep)
  {
    var s := a + [sep] + b;
    assert s[..i] == a[..i];
    IndexOfFirst(s, sep, i);
    IndexOfFirst(a, sep, i);
    assert s[i + 1..] == a[i + 1..] + [sep] + b;
  }

  /** Splitting around one separator splits each side on its own. */
  lemma {:induction false} SplitAround(a: string, b: string, sep: char)
    ensures Split(a + [sep] + b, sep) == Split(a, sep) + Split(b, sep)
    decreases |a|, 1
  {
    if sep in a {
      SplitAroundLater(a, b, sep, IndexOf(a, sep).value);
    } else {
      SplitAtFirst(a, b, sep);
    }
  }

  lemma {:induction false} SplitAroundLater(a: string, b: string, sep: char, i: nat)
    requires i < |a| && a[i] == sep && sep !in a[..i]
    ensures Split(a + [sep] + b, sep) == Split(a, sep) + Split(b, sep)
    decreases |a|, 0
  {
    var head, a' := a[..i], a[i + 1..];
    calc {
      Split(a + [sep] + b, sep);
      == { SplitAtEarlier(a, b, sep, i); }
      [head] + Split(a' + [sep] + b, sep);
      == { SplitAround(a', b, sep); }
      [head] + (Split(a', sep) + Split(b, sep));
      ==
      ([head] + Split(a', sep)) + Split(b, sep);
      == { SplitAtEarlier(a, b, sep, i); }
      Split(a, sep) + Split(b, sep);
    }
  }

  /** Number of occurrences of `c` in `s`. */
  function Count(s: string, c: char): nat
  {
    if s == [] then 0 else (if s[0] == c then 1 else 0) + Count(s[1..], c)
  }

  lemma {:induction false} CountAppend(a: string, b: string, c: char)
    ensures Count(a + b, c) == Count(a, c) + Count(b, c)
    decreases |a|
  {
    if a == [] {
      assert a + b == b;
    } else {
      assert (a + b)[1..] == a[1..] + b;
      CountAppend(a[1..], b, c);
    }
  }

  /** Concatenation regroups; stated apart so that callers need not prove it
      among their own facts. */
  lemma AppendAssoc<T>(a: seq<T>, b: seq<T>, c: seq<T>)
    ensures a + b + c == a + (b + c)
  {
  }

  /** Python's `s[:n]` for any integer `n` (a negative `n` counts from the end). */
  function PyPrefix<T>(s: seq<T>, n: int): (r: seq<T>)
    ensures n >= 0 ==> |r| == if n < |s| then n else |s|
    ensures n < 0 ==> |r| == if |s| + n > 0 then |s| + n else 0
    ensures r == s[..|r|]
  {
    if n >= 0 then (if n < |s| then s[..n] else s)
    else (if |s| + n > 0 then s[..|s| + n] else [])
  }

  // ---- decimal numbers -------------------------------------------------------

  predicate IsDigit(c: char) {
    '0' <= c <= '9'
  }

  predicate IsDigits(s: string) {
    forall i :: 0 <= i < |s| ==> IsDigit(s[i])
  }

  function DigitChar(d: nat): (c: char)
    requires d < 10
    ensures IsDigit(c)
  {
    ['0', '1', '2', '3', '4', '5', '6', '7', '8', '9'][d]
  }

  function DigitValue(c: char): (d: nat)
    requires IsDigit(c)
    ensures d < 10 && DigitChar(d) == c
  {
    (c as int) - ('0' as int)
  }

  /** Shortest decimal rendering, JavaScript's `String(n)` and Python's `str(n)` on a natural number. */
  function NatToString(n: nat): (r: string)
    ensures |r| >= 1 && IsDigits(r)
    ensures r[0] == '0' ==> n == 0
    decreases n
  {
    if n < 10 then [DigitChar(n)] else NatToString(n / 10) + [DigitChar(n % 10)]
  }

  /** Value of a string of decimal digits (the empty string reads as 0). */
  function ParseNat(s: string): nat
    requires IsDigits(s)
    decreases |s|
  {
    if s == [] then 0 else 10 * ParseNat(s[..|s| - 1]) + DigitValue(s[|s| - 1])
  }

  lemma {:induction false} ParseNatToString(n: nat)
    ensures ParseNat(NatToString(n)) == n
    decreases n
  {
    if n >= 10 {
      var s := NatToString(n);
      assert s[..|s| - 1] == NatToString(n / 10);
      ParseNatToString(n / 10);
    }
  }

  function IntToString(i: int): (r: string)
    ensures |r| >= 1
    ensures i < 0 <==> r[0] == '-'
  {
    if i < 0 then "-" + NatToString(-i) else NatToString(i)
  }

  /** Python's `int(s)` on a string: surrounding whitespace, an optional sign,
      then ASCII decimal digits, single underscores allowed between two digits.
      Every other string gives None, as `int()` raising `ValueError`, except
      that `int()` would also read decimal digits of other scripts. */
  function ParseInt(s: string): Option<int>
  {
    ParseIntLiteral(Strip(s))
  }

  /** A non-empty run of digits and underscores that starts and ends with a
      digit and has no two underscores in a row: every underscore sits between
      two digits. */
  predicate IsDigitGroups(t: string) {
    && |t| >= 1 && IsDigit(t[0]) && IsDigit(t[|t| - 1])
    && (forall i :: 0 <= i < |t| ==> IsDigit(t[i]) || t[i] == '_')
    && (forall i :: 0 <= i < |t| - 1 ==> t[i] == '_' ==> t[i + 1] != '_')
  }

  /** The digits of a run of digits and underscores, in order. */
  function DropUnderscores(t: string): (r: string)
    requires forall i :: 0 <= i < |t| ==> IsDigit(t[i]) || t[i] == '_'
    ensures IsDigits(r) && |r| <= |t|
    ensures IsDigits(t) ==> r == t
    decreases |t|
  {
    if t == [] then []
    else
      assert forall i :: 0 <= i < |t| - 1 ==> t[1..][i] == t[i + 1];
      (if t[0] == '_' then [] else [t[0]]) + DropUnderscores(t[1..])
  }

  /** An optionally signed literal of digit groups. */
  function ParseIntLiteral(t: string): Option<int>
  {
    if |t| >= 2 && (t[0] == '-' || t[0] == '+') && IsDigitGroups(t[1..]) then
      var n: int := ParseNat(DropUnderscores(t[1..]));
      Some(if t[0] == '-' then -n else n)
    else if IsDigitGroups(t) then Some(ParseNat(DropUnderscores(t)))
    else None
  }

  /** A run of digits is one digit group. */
  lemma DigitsAreGroups(d: string)
    requires |d| >= 1 && IsDigits(d)
    ensures IsDigitGroups(d) && DropUnderscores(d) == d
  {
  }

  /** A plain run of digits reads as its value. */
  lemma ParseIntDigits(s: string)
    requires |s| >= 1 && IsDigits(s)
    ensures ParseInt(s) == Some(ParseNat(s) as int)
  {
    StripLiteral(s);
    ParseIntOfStripped(s);
    LiteralDigits(s);
  }

  lemma LiteralDigits(s: string)
    requires |s| >= 1 && IsDigits(s)
    ensures ParseIntLiteral(s) == Some(ParseNat(s) as int)
  {
    DigitsAreGroups(s);
    assert s[0] != '-' && s[0] != '+';
  }

  /** Digit groups read as the number their digits spell. */
  lemma LiteralGroups(t: string)
    requires IsDigitGroups(t)
    ensures ParseIntLiteral(t) == Some(ParseNat(DropUnderscores(t)) as int)
    ensures ParseIntLiteral("-" + t) == Some(-(ParseNat(DropUnderscores(t)) as int))
  {
    var s := "-" + t;
    assert s[1..] == t;
    SignedGroups(s);
  }

  /** A minus sign before digit groups negates their value. */
  lemma SignedGroups(s: string)
    requires |s| >= 2 && s[0] == '-' && IsDigitGroups(s[1..])
    ensures ParseIntLiteral(s) == Some(-(ParseNat(DropUnderscores(s[1..])) as int))
  {
  }

  /** Two digits with an underscore between them are two digit groups. */
  lemma TwoGroups(a: char, b: char)
    requires IsDigit(a) && IsDigit(b)
    ensures IsDigitGroups([a, '_', b])
    ensures DropUnderscores([a, '_', b]) == [a, b]
    ensures ParseNat([a, b]) == 10 * DigitValue(a) + DigitValue(b)
  {
    var t := [a, '_', b];
    assert t[1..] == ['_', b] && ['_', b][1..] == [b] && [b][1..] == [];
    assert DropUnderscores([b]) == [b];
    assert DropUnderscores(['_', b]) == [b];
    assert DropUnderscores(t) == [a] + [b];
    assert [a, b][..1] == [a] && [a][..0] == [];
    assert ParseNat([a]) == DigitValue(a);
  }

  /** Underscores between digits are read past. */
  lemma UnderscoresBetweenDigits()
    ensures ParseIntLiteral("1_0") == Some(10)
  {
    TwoGroups('1', '0');
    LiteralGroups("1_0");
  }

  /** A sign may come before the groups. */
  lemma SignedUnderscores()
    ensures ParseIntLiteral("-2_5") == Some(-25)
  {
    TwoGroups('2', '5');
    LiteralGroups("2_5");
    assert "-" + "2_5" == "-2_5";
  }

  /** An underscore at either end of the digits, or two in a row, is refused. */
  lemma MisplacedUnderscores()
    ensures ParseIntLiteral("_1") == None && ParseIntLiteral("1_") == None
    ensures ParseIntLiteral("1__0") == None && ParseIntLiteral("-_1") == None
  {
    assert !IsDigitGroups("_1") && !IsDigitGroups("1_");
    assert "1__0"[1] == '_' && "1__0"[2] == '_';
    assert "-_1"[1..] == "_1";
  }

  lemma {:induction false} ParseIntToString(i: int)
    ensures ParseInt(IntToString(i)) == Some(i)
  {
    if i < 0 {
      var n: nat := -i;
      var d := NatToString(n);
      assert IntToString(i) == "-" + d;
      ParseIntNegative(n);
      assert ParseInt("-" + d) == Some(i);
    } else {
      assert IntToString(i) == NatToString(i);
      ParseIntNonNegative(i);
    }
  }

  lemma ParseIntNegative(n: nat)
    requires n > 0
    ensures ParseInt("-" + NatToString(n)) == Some(-(n as int))
  {
    var s := "-" + NatToString(n);
    ParseNegativeLiteral(n);
    assert s[|s| - 1] == NatToString(n)[|NatToString(n)| - 1];
    StripLiteral(s);
    ParseIntOfStripped(s);
  }

  lemma ParseIntNonNegative(n: nat)
    ensures ParseInt(NatToString(n)) == Some(n as int)
  {
    ParseIntDigits(NatToString(n));
    ParseNatToString(n);
  }

  lemma ParseIntOfStripped(s: string)
    requires Strip(s) == s
    ensures ParseInt(s) == ParseIntLiteral(s)
  {
  }

  lemma ParseNegativeLiteral(n: nat)
    requires n > 0
    ensures ParseIntLiteral("-" + NatToString(n)) == Some(-(n as int))
  {
    var d := NatToString(n);
    assert ("-" + d)[1..] == d;
    DigitsAreGroups(d);
    ParseNatToString(n);
  }

  lemma StripLiteral(s: string)
    requires |s| >= 1 && !IsSpace(s[0]) && IsDigit(s[|s| - 1])
    ensures Strip(s) == s
  {
  }

  /** `String(n).padStart(2, "0")` for a rendering that has at most two characters. */
  function Pad2(s: string): (r: string)
    ensures |s| >= 2 ==> r == s
    ensures |s| < 2 ==> |r| == 2 && r[2 - |s|..] == s
  {
    if |s| >= 2 then s else seq(2 - |s|, _ => '0') + s
  }

  function LowerChar(c: char): char {
    if 'A' <= c <= 'Z' then ((c as int) + 32) as char else c
  }

  /** `toLowerCase()` restricted to ASCII letters. */
  function LowerAscii(s: string): (r: string)
    ensures |r| == |s|
    ensures forall i :: 0 <= i < |s| ==> r[i] == LowerChar(s[i])
  {
    seq(|s|, i requires 0 <= i < |s| => LowerChar(s[i]))
  }
}

=== FILE: track_picker.dfy ===
/** `pick_tracks` of `src/ytplayd.py`: turns the curator's search queries (and an
    optional seed) into a list of tracks, skipping results without a video id,
    duplicates and disliked tracks, putting the seed track first and stopping at
    `max_tracks`.

    YouTube Music search is an input map from query to its result list (a query
    the map does not know returns no results); the votes table is an input map
    from video id to vote. */
module TrackPicker {
  import opened Wrappers
  import opened Text

  /** One search result: `videoId` is "" when it is missing or empty, `title`
      is None when the key is missing, `artists` are the artist names in order. */
  datatype SearchItem = SearchItem(videoId: string, title: Option<string>, artists: seq<string>)

  datatype Track = Track(title: string, artist: string, videoId: string)

  type Votes = map<string, int>
  type Search = map<string, seq<SearchItem>>

  /** How many seed results are looked at, and how many results of each query. */
  const SeedWindow := 5
  const QueryWindow := 8

  /** `votes.get(vid, 0)`. */
  function VoteOf(votes: Votes, vid: string): int {
    if vid in votes then votes[vid] else 0
  }

  /** The track dictionary built from a result, "Unknown" standing in for a missing
      title or artist list. */
  function ToTrack(c: SearchItem): (t: Track)
    ensures t.videoId == c.videoId
    ensures c.title.Some? ==> t.title == c.title.value
    ensures c.title.None? ==> t.title == "Unknown"
    ensures t.artist == if c.artists == [] then "Unknown" else c.artists[0]
  {
    Track(c.title.GetOr("Unknown"), if c.artists == [] then "Unknown" else c.artists[0], c.videoId)
  }

  function Results(search: Search, q: string): seq<SearchItem> {
    if q in search then search[q] else []
  }

  /** A result the picker takes: it has a video id, the id is not taken yet and
      the track is not disliked. */
  predicate Eligible(c: SearchItem, votes: Votes, seen: set<string>) {
    c.videoId != "" && c.videoId !in seen && VoteOf(votes, c.videoId) >= 0
  }

  function IdSet(ts: seq<Track>): set<string> {
    set i | 0 <= i < |ts| :: ts[i].videoId
  }

  predicate DistinctIds(ts: seq<Track>) {
    forall i, j :: 0 <= i < j < |ts| ==> ts[i].videoId != ts[j].videoId
  }

  /** The candidates of the query loop: the first eight results of each query,
      query after query. */
  function Window(search: Search, queries: seq<string>): (r: seq<SearchItem>)
    ensures |r| <= QueryWindow * |queries|
  {
    if queries == [] then []
    else PyPrefix(Results(search, queries[0]), QueryWindow) + Window(search, queries[1..])
  }

  lemma {:induction false} WindowAppend(search: Search, qs1: seq<string>, qs2: seq<string>)
    ensures Window(search, qs1 + qs2) == Window(search, qs1) + Window(search, qs2)
    decreases |qs1|
  {
    if qs1 == [] {
      assert qs1 + qs2 == qs2;
    } else {
      assert (qs1 + qs2)[1..] == qs1[1..] + qs2;
      WindowAppend(search, qs1[1..], qs2);
    }
  }

  /** A single query contributes exactly its first eight results. */
  lemma WindowSingle(search: Search, q: string)
    ensures Window(search, [q]) == PyPrefix(Results(search, q), QueryWindow)
    ensures |Window(search, [q])| <= QueryWindow
  {
    assert [q][1..] == [];
  }

  /** Index of the first result the seed loop would take (nothing is seen yet). */
  function FirstEligible(items: seq<SearchItem>, votes: Votes): (r: Option<nat>)
    ensures r.Some? ==> r.value < |items| && Eligible(items[r.value], votes, {})
    ensures r.Some? ==> forall j :: 0 <= j < r.value ==> !Eligible(items[j], votes, {})
    ensures r.None? ==> forall j :: 0 <= j < |items| ==> !Eligible(items[j], votes, {})
    decreases |items|
  {
    if items == [] then None
    else if Eligible(items[0], votes, {}) then Some(0)
    else match FirstEligible(items[1..], votes)
      case None => None
      case Some(i) => Some(i + 1)
  }

  /** The seed part of the output: at most one track, the first eligible result
      among the first five results for the seed, and only when the seed is set
      and not empty. */
  function SeedPart(search: Search, seed: Option<string>, votes: Votes): (r: seq<Track>)
    ensures |r| <= 1
    ensures (seed.None? || seed.value == "") ==> r == []
    ensures r != [] ==> r[0].videoId != "" && VoteOf(votes, r[0].videoId) >= 0
  {
    if seed.None? || seed.value == "" then []
    else
      var items := PyPrefix(Results(search, seed.value), SeedWindow);
      match FirstEligible(items, votes)
      case None => []
      case Some(i) => [ToTrack(items[i])]
  }

  /** The seed track is the first of the first five seed results that has an id
      and is not disliked; if there is none, there is no seed track. */
  lemma SeedPartIsFirstEligible(search: Search, seed: string, votes: Votes)
    requires seed != ""
    ensures var items := Results(search, seed);
            var r := SeedPart(search, Some(seed), votes);
            (r == [] <==> forall j :: 0 <= j < |items| && j < SeedWindow ==> !Eligible(items[j], votes, {}))
            && (r != [] ==> exists i :: 0 <= i < |items| && i < SeedWindow && r[0] == ToTrack(items[i])
                                        && forall j :: 0 <= j < i ==> !Eligible(items[j], votes, {}))
  {
    var items := Results(search, seed);
    var w := PyPrefix(items, SeedWindow);
    assert forall j :: 0 <= j < |w| ==> w[j] == items[j];
    match FirstEligible(w, votes)
    case None =>
    case Some(i) =>
      assert Eligible(w[i], votes, {});
  }

  /** The query loop as written: the cap is checked only after a track has been
      appended, and the final `out[:max_tracks]` applies only when the loop runs
      to the end. */
  function ScanAsWritten(cands: seq<SearchItem>, votes: Votes, seen: set<string>, out: seq<Track>, max: int): (r: seq<Track>)
    ensures |out| <= max ==> |out| <= |r| && r[..|out|] == out
    ensures |out| <= max ==> |r| <= max + 1
    ensures |out| < max ==> |r| <= max
    ensures |r| <= |out| + |cands|
    decreases |cands|
  {
    if cands == [] then PyPrefix(out, max)
    else if !Eligible(cands[0], votes, seen) then ScanAsWritten(cands[1..], votes, seen, out, max)
    else
      var out' := out + [ToTrack(cands[0])];
      if |out'| >= max then out'
      else ScanAsWritten(cands[1..], votes, seen + {cands[0].videoId}, out', max)
  }

  /** `pick_tracks` exactly as the daemon has it. */
  function PickTracksAsWritten(search: Search, queries: seq<string>, seed: Option<string>, votes: Votes, max: int): (r: seq<Track>)
    ensures max >= 1 ==> |r| <= max + 1
    ensures max >= 1 ==> SeedPart(search, seed, votes) <= r
    ensures |r| <= |SeedPart(search, seed, votes)| + |Window(search, queries)|
  {
    var s := SeedPart(search, seed, votes);
    ScanAsWritten(Window(search, queries), votes, IdSet(s), s, max)
  }

  /** With `max_tracks = 1` and a seed track found, the first eligible query
      result is appended before the cap is checked, and two tracks come back;
      with `max_tracks = 0` and no seed, one track comes back. */
  lemma PickTracksAsWrittenOvershoots()
    ensures var search := map["seed" := [SearchItem("a", Some("A"), ["X"])],
                              "q" := [SearchItem("b", Some("B"), ["Y"])]];
            |PickTracksAsWritten(search, ["q"], Some("seed"), map[], 1)| == 2
            && |PickTracksAsWritten(search, ["q"], None, map[], 0)| == 1
  {
    var search := map["seed" := [SearchItem("a", Some("A"), ["X"])],
                      "q" := [SearchItem("b", Some("B"), ["Y"])]];
    var a := SearchItem("a", Some("A"), ["X"]);
    var b := SearchItem("b", Some("B"), ["Y"]);
    assert PyPrefix([a], SeedWindow) == [a];
    assert FirstEligible([a], map[]) == Some(0);
    var s := SeedPart(search, Some("seed"), map[]);
    assert s == [ToTrack(a)];
    assert IdSet(s) == {"a"};
    assert ["q"][1..] == [];
    assert Window(search, ["q"]) == [b];
    assert Eligible(b, map[], {"a"});
    assert ScanAsWritten([b], map[], {"a"}, s, 1) == s + [ToTrack(b)];
    assert Eligible(b, map[], {});
    assert IdSet([]) == {};
    assert ScanAsWritten([b], map[], {}, [], 0) == [ToTrack(b)];
  }

  /** The query loop with the cap checked before each candidate: once `max_tracks`
      tracks are out, nothing more is taken. */
  function Scan(cands: seq<SearchItem>, votes: Votes, seen: set<string>, out: seq<Track>, max: int): seq<Track>
    decreases |cands|
  {
    if |out| >= max || cands == [] then out
    else if !Eligible(cands[0], votes, seen) then Scan(cands[1..], votes, seen, out, max)
    else Scan(cands[1..], votes, seen + {cands[0].videoId}, out + [ToTrack(cands[0])], max)
  }

  /** `pick_tracks` with the cap honoured: the seed part, then the query loop,
      then `out[:max_tracks]`. */
  function PickTracks(search: Search, queries: seq<string>, seed: Option<string>, votes: Votes, max: int): (r: seq<Track>)
    ensures max >= 0 ==> |r| <= max
  {
    var s := SeedPart(search, seed, votes);
    PyPrefix(Scan(Window(search, queries), votes, IdSet(s), s, max), max)
  }

  /** Every eligible candidate, in order, each id taken once: what the picker would
      return with no cap. */
  function Greedy(cands: seq<SearchItem>, votes: Votes, seen: set<string>): (r: seq<Track>)
    ensures forall i :: 0 <= i < |r| ==> r[i].videoId != "" && r[i].videoId !in seen
    ensures forall i :: 0 <= i < |r| ==> VoteOf(votes, r[i].videoId) >= 0
    ensures DistinctIds(r)
    decreases |cands|
  {
    if cands == [] then []
    else if Eligible(cands[0], votes, seen) then
      var t := ToTrack(cands[0]);
      var rest := Greedy(cands[1..], votes, seen + {t.videoId});
      assert forall i :: 0 <= i < |rest| ==> rest[i].videoId != t.videoId;
      [t] + rest
    else Greedy(cands[1..], votes, seen)
  }

  /** Every eligible candidate's id shows up in the uncapped result. */
  lemma {:induction false} GreedyComplete(cands: seq<SearchItem>, votes: Votes, seen: set<string>)
    ensures forall i :: 0 <= i < |cands| && Eligible(cands[i], votes, seen) ==> cands[i].videoId in IdSet(Greedy(cands, votes, seen))
    decreases |cands|
  {
    if cands != [] {
      var r := Greedy(cands, votes, seen);
      if Eligible(cands[0], votes, seen) {
        var id := cands[0].videoId;
        var rest := Greedy(cands[1..], votes, seen + {id});
        GreedyComplete(cands[1..], votes, seen + {id});
        assert r == [ToTrack(cands[0])] + rest;
        assert r[0].videoId == id;
        forall i | 0 <= i < |cands| && Eligible(cands[i], votes, seen)
          ensures cands[i].videoId in IdSet(r)
        {
          if i > 0 && cands[i].videoId != id {
            assert cands[1..][i - 1] == cands[i];
            var k :| 0 <= k < |rest| && rest[k].videoId == cands[i].videoId;
            assert r[k + 1] == rest[k];
          }
        }
      } else {
        GreedyComplete(cands[1..], votes, seen);
        forall i | 0 <= i < |cands| && Eligible(cands[i], votes, seen)
          ensures cands[i].videoId in IdSet(r)
        {
          assert i > 0;
          assert cands[1..][i - 1] == cands[i];
        }
      }
    }
  }

  /** `a` is `b` with some elements left out, order kept. */
  predicate IsSubseq<T(==)>(a: seq<T>, b: seq<T>)
    decreases |b|
  {
    a == [] || (b != [] && ((a[0] == b[0] && IsSubseq(a[1..], b[1..])) || IsSubseq(a, b[1..])))
  }

  function Tracks(cands: seq<SearchItem>): (r: seq<Track>)
    ensures |r| == |cands|
    ensures forall i :: 0 <= i < |cands| ==> r[i] == ToTrack(cands[i])
  {
    seq(|cands|, i requires 0 <= i < |cands| => ToTrack(cands[i]))
  }

  /** The uncapped result lists the candidates' tracks in candidate order. */
  lemma {:induction false} GreedyInOrder(cands: seq<SearchItem>, votes: Votes, seen: set<string>)
    ensures IsSubseq(Greedy(cands, votes, seen), Tracks(cands))
    decreases |cands|
  {
    if cands != [] {
      assert Tracks(cands)[1..] == Tracks(cands[1..]);
      if Eligible(cands[0], votes, seen) {
        GreedyInOrder(cands[1..], votes, seen + {cands[0].videoId});
      } else {
        GreedyInOrder(cands[1..], votes, seen);
      }
    }
  }

  lemma PyPrefixCons<T>(x: T, s: seq<T>, n: int)
    requires n >= 1
    ensures PyPrefix([x] + s, n) == [x] + PyPrefix(s, n - 1)
  {
  }

  /** The capped scan is the uncapped result cut at the room left. */
  lemma {:induction false} ScanIsCappedGreedy(cands: seq<SearchItem>, votes: Votes, seen: set<string>, out: seq<Track>, max: int)
    requires |out| <= max
    ensures Scan(cands, votes, seen, out, max) == out + PyPrefix(Greedy(cands, votes, seen), max - |out|)
    decreases |cands|
  {
    if |out| == max || cands == [] {
    } else if !Eligible(cands[0], votes, seen) {
      ScanIsCappedGreedy(cands[1..], votes, seen, out, max);
    } else {
      ScanIsCappedGreedy(cands[1..], votes, seen + {cands[0].videoId}, out + [ToTrack(cands[0])], max);
      ScanTakes(cands, votes, seen, out, max);
    }
  }

  /** One eligible candidate taken: if the rest of the scan is the rest of
      the greedy result cut, so is the whole. */
  lemma ScanTakes(cands: seq<SearchItem>, votes: Votes, seen: set<string>, out: seq<Track>, max: int)
    requires |out| < max && cands != [] && Eligible(cands[0], votes, seen)
    requires var t := ToTrack(cands[0]);
             var seen' := seen + {cands[0].videoId};
             Scan(cands[1..], votes, seen', out + [t], max)
               == out + [t] + PyPrefix(Greedy(cands[1..], votes, seen'), max - |out| - 1)
    ensures Scan(cands, votes, seen, out, max) == out + PyPrefix(Greedy(cands, votes, seen), max - |out|)
  {
    var t := ToTrack(cands[0]);
    var seen' := seen + {cands[0].videoId};
    var g := Greedy(cands[1..], votes, seen');
    assert Greedy(cands, votes, seen) == [t] + g;
    PyPrefixCons(t, g, max - |out|);
    AppendAssoc(out, [t], PyPrefix(g, max - |out| - 1));
  }

  lemma PyPrefixAppend<T>(s: seq<T>, g: seq<T>, n: int)
    requires |s| <= n
    ensures PyPrefix(s + g, n) == s + PyPrefix(g, n - |s|)
  {
  }

  /** For a non-negative cap, the picker returns the seed part followed by the
      uncapped query result, cut at `max_tracks`. */
  lemma PickTracksIsCappedGreedy(search: Search, queries: seq<string>, seed: Option<string>, votes: Votes, max: int)
    requires max >= 0
    ensures var s := SeedPart(search, seed, votes);
            PickTracks(search, queries, seed, votes, max)
              == PyPrefix(s + Greedy(Window(search, queries), votes, IdSet(s)), max)
  {
    var s := SeedPart(search, seed, votes);
    var w := Window(search, queries);
    var g := Greedy(w, votes, IdSet(s));
    if |s| <= max {
      ScanIsCappedGreedy(w, votes, IdSet(s), s, max);
      PyPrefixAppend(s, g, max);
    }
  }

  /** No video id comes back twice, and no disliked track comes back. */
  lemma PickTracksDistinctAndLiked(search: Search, queries: seq<string>, seed: Option<string>, votes: Votes, max: int)
    requires max >= 0
    ensures DistinctIds(PickTracks(search, queries, seed, votes, max))
    ensures var r := PickTracks(search, queries, seed, votes, max);
            forall i :: 0 <= i < |r| ==> r[i].videoId != "" && VoteOf(votes, r[i].videoId) >= 0
  {
    var s := SeedPart(search, seed, votes);
    var g := Greedy(Window(search, queries), votes, IdSet(s));
    PickTracksIsCappedGreedy(search, queries, seed, votes, max);
    var all := s + g;
    assert forall i :: 0 <= i < |s| ==> s[i].videoId in IdSet(s);
    assert DistinctIds(all);
    var r := PickTracks(search, queries, seed, votes, max);
    assert r == all[..|r|];
    assert forall i :: 0 <= i < |r| ==> r[i] == all[i];
  }

  /** A seed track, when found, comes first. */
  lemma PickTracksSeedFirst(search: Search, queries: seq<string>, seed: Option<string>, votes: Votes, max: int)
    requires max >= 1
    requires SeedPart(search, seed, votes) != []
    ensures var r := PickTracks(search, queries, seed, votes, max);
            r != [] && r[0] == SeedPart(search, seed, votes)[0]
  {
    PickTracksIsCappedGreedy(search, queries, seed, votes, max);
  }

  /** Every eligible query candidate is taken unless the cap is reached first. */
  lemma PickTracksTakesEveryEligible(search: Search, queries: seq<string>, seed: Option<string>, votes: Votes, max: int)
    requires max >= 0
    ensures var s := SeedPart(search, seed, votes);
            var w := Window(search, queries);
            var r := PickTracks(search, queries, seed, votes, max);
            |r| < max ==> forall i :: 0 <= i < |w| && Eligible(w[i], votes, IdSet(s)) ==> w[i].videoId in IdSet(r)
  {
    var s := SeedPart(search, seed, votes);
    var w := Window(search, queries);
    var g := Greedy(w, votes, IdSet(s));
    var r := PickTracks(search, queries, seed, votes, max);
    PickTracksIsCappedGreedy(search, queries, seed, votes, max);
    GreedyComplete(w, votes, IdSet(s));
    if |r| < max {
      assert r == s + g;
      forall i | 0 <= i < |w| && Eligible(w[i], votes, IdSet(s))
        ensures w[i].videoId in IdSet(r)
      {
        var k :| 0 <= k < |g| && g[k].videoId == w[i].videoId;
        assert r[|s| + k] == g[k];
      }
    }
  }

  /** The cap check can only misfire when the seed part alone already fills the
      cap: otherwise the code as written and the corrected picker agree. */
  lemma {:induction false} ScanAsWrittenAgrees(cands: seq<SearchItem>, votes: Votes, seen: set<string>, out: seq<Track>, max: int)
    requires |out| < max
    ensures ScanAsWritten(cands, votes, seen, out, max) == Scan(cands, votes, seen, out, max)
    decreases |cands|
  {
    if cands != [] && Eligible(cands[0], votes, seen) {
      var out' := out + [ToTrack(cands[0])];
      if |out'| < max {
        ScanAsWrittenAgrees(cands[1..], votes, seen + {cands[0].videoId}, out', max);
      }
    } else if cands != [] {
      ScanAsWrittenAgrees(cands[1..], votes, seen, out, max);
    }
  }

  lemma PickTracksAsWrittenAgrees(search: Search, queries: seq<string>, seed: Option<string>, votes: Votes, max: int)
    requires max > |SeedPart(search, seed, votes)|
    ensures PickTracksAsWritten(search, queries, seed, votes, max) == PickTracks(search, queries, seed, votes, max)
  {
    var s := SeedPart(search, seed, votes);
    var w := Window(search, queries);
    ScanAsWrittenAgrees(w, votes, IdSet(s), s, max);
    ScanIsCappedGreedy(w, votes, IdSet(s), s, max);
  }

  /** The code as written in terms of the uncapped result `g`: below the cap it is
      the corrected scan; at or over the cap it adds the first eligible candidate
      anyway, or, when there is none, cuts `out` at the cap. */
  lemma {:induction false} ScanAsWrittenIsGreedy(cands: seq<SearchItem>, votes: Votes, seen: set<string>, out: seq<Track>, max: int)
    ensures var g := Greedy(cands, votes, seen);
            var r := ScanAsWritten(cands, votes, seen, out, max);
            && (|out| < max ==> r == out + PyPrefix(g, max - |out|))
            && (|out| >= max && g == [] ==> r == PyPrefix(out, max))
            && (|out| >= max && g != [] ==> r == out + [g[0]])
    decreases |cands|
  {
    if |out| < max {
      ScanAsWrittenAgrees(cands, votes, seen, out, max);
      ScanIsCappedGreedy(cands, votes, seen, out, max);
    } else if cands != [] && !Eligible(cands[0], votes, seen) {
      ScanAsWrittenIsGreedy(cands[1..], votes, seen, out, max);
    }
  }

  /** The daemon's picker always returns a prefix of the seed part followed by
      the uncapped query result; with a positive cap it overshoots by at most one
      track, and with a cap of zero or below it returns at most two. */
  lemma PickTracksAsWrittenIsPrefix(search: Search, queries: seq<string>, seed: Option<string>, votes: Votes, max: int)
    ensures var s := SeedPart(search, seed, votes);
            var all := s + Greedy(Window(search, queries), votes, IdSet(s));
            var r := PickTracksAsWritten(search, queries, seed, votes, max);
            && |r| <= |all| && r == all[..|r|]
            && |r| <= if max >= 1 then max + 1 else 2
  {
    var s := SeedPart(search, seed, votes);
    var g := Greedy(Window(search, queries), votes, IdSet(s));
    ScanAsWrittenIsGreedy(Window(search, queries), votes, IdSet(s), s, max);
    if |s| < max {
      AppendPrefix(s, g, max - |s|);
    } else if g == [] {
      PrefixBeforeAppend(s, g, max);
    } else {
      AppendFirst(s, g);
    }
  }

  /** A cut of the second part, appended, is a prefix of the whole. */
  lemma AppendPrefix<T>(s: seq<T>, g: seq<T>, n: nat)
    ensures var r := s + PyPrefix(g, n);
            |r| <= |s + g| && r == (s + g)[..|r|] && |r| <= |s| + n
  {
    var p := PyPrefix(g, n);
    assert forall i :: 0 <= i < |s| + |p| ==> (s + p)[i] == (s + g)[i];
  }

  /** A cut of the first part is a prefix of the whole. */
  lemma PrefixBeforeAppend<T>(s: seq<T>, g: seq<T>, n: int)
    ensures var r := PyPrefix(s, n);
            |r| <= |s + g| && r == (s + g)[..|r|] && |r| <= |s|
  {
    var p := PyPrefix(s, n);
    assert forall i :: 0 <= i < |p| ==> p[i] == (s + g)[i];
  }

  /** The first part and one more element is a prefix of the whole. */
  lemma AppendFirst<T>(s: seq<T>, g: seq<T>)
    requires g != []
    ensures var r := s + [g[0]];
            |r| <= |s + g| && r == (s + g)[..|r|]
  {
    assert forall i :: 0 <= i <= |s| ==> (s + [g[0]])[i] == (s + g)[i];
  }

  /** No video id comes back twice and no disliked track comes back, even when
      the cap is overshot. */
  lemma PickTracksAsWrittenDistinctAndLiked(search: Search, queries: seq<string>, seed: Option<string>, votes: Votes, max: int)
    ensures DistinctIds(PickTracksAsWritten(search, queries, seed, votes, max))
    ensures var r := PickTracksAsWritten(search, queries, seed, votes, max);
            forall i :: 0 <= i < |r| ==> r[i].videoId != "" && VoteOf(votes, r[i].videoId) >= 0
  {
    var s := SeedPart(search, seed, votes);
    var g := Greedy(Window(search, queries), votes, IdSet(s));
    PickTracksAsWrittenIsPrefix(search, queries, seed, votes, max);
    var all := s + g;
    assert forall i :: 0 <= i < |s| ==> s[i].videoId in IdSet(s);
    assert DistinctIds(all);
    var r := PickTracksAsWritten(search, queries, seed, votes, max);
    assert forall i :: 0 <= i < |r| ==> r[i] == all[i];
  }

  /** A seed track, when found, comes first from the daemon's picker too. */
  lemma PickTracksAsWrittenSeedFirst(search: Search, queries: seq<string>, seed: Option<string>, votes: Votes, max: int)
    requires max >= 1
    requires SeedPart(search, seed, votes) != []
    ensures var r := PickTracksAsWritten(search, queries, seed, votes, max);
            r != [] && r[0] == SeedPart(search, seed, votes)[0]
  {
    var s := SeedPart(search, seed, votes);
    var g := Greedy(Window(search, queries), votes, IdSet(s));
    ScanAsWrittenIsGreedy(Window(search, queries), votes, IdSet(s), s, max);
    if |s| < max {
      PickTracksAsWrittenAgrees(search, queries, seed, votes, max);
      PickTracksSeedFirst(search, queries, seed, votes, max);
    }
  }
}

=== FILE: wrappers.dfy ===
/** Option and Result, the failure-compatible wrappers the rest of the model uses
    for Python's `None` and for exceptions the source catches and turns into replies. */
module Wrappers {

  datatype Option<+T> = None | Some(value: T) {

    /** Returns the wrapped value or `default` when there is none. */
    function GetOr(default: T): T {
      match this
      case Some(v) => v
      case None => default
    }
  }

  datatype Result<+R, +E> = Ok(value: R) | Err(error: E)
}
